=== FILE: README.md ===
# SpaRePhot selection-to-extraction core, in Dafny

SpaRePhot fits photometric redshifts pixel by pixel. A user picks
galaxies by survey id. Each galaxy is cut out of the survey images with a
border. Pixels whose value means "no data" can be replaced by a
sentinel. The selection is registered as a numbered run and each galaxy
is saved under the run. All pixels of all galaxies are written to one
catalog, one row per pixel, for the EAZY fitter. After the fit, the run's
galaxies are rebuilt: each one takes its own block of catalog rows and
the matching rows of the fit (`zbest`, the `chi2` curves and, optionally,
confidence percentiles). A galaxy's redshift is the grid point that
minimises its summed `chi2` curve.

This project models that path as pure functions over immutable values
and proves what the code promises about it. The modules are:

- `Wrappers`: `Option`, `Result` and the error kinds the code raises.
- `Grids`: numpy's `arange`, `reshape`, `flatten`, 2-D slicing, `==` masks and `where`.
- `Decimal`: decimal rendering of run ids in folder names.
- `Galaxies`: `Galaxy`, `replace_unused_with_constant`, equality, `info_dict`, save and load.
- `Cutout`: `extract_galaxy` on a survey.
- `PixelCatalog`: `FileEAZY.extract_pixel_data` and `_create_dataframe`, the catalog of the current pipeline.
- `LegacyCatalog`: the catalog of the earlier `spare/EAZYprep.py`.
- `Slicer`: `Extract.get_galaxy_slice` and `np.unique` on the `galaxy_idx` column.
- `Photometry`: `PhotGalaxy`, its masking, reshapes, `calc_zchi2` and `calc_zchi2_pixels`.
- `Confidences`: `Confidence` and `ConfGalaxy`.
- `Registry`: `RunManager` of `spare/filemanage/outfiles.py`.
- `LegacyRegistry`: `OverManage` of `spare/filemanage.py`.
- `InputPaths`: the path template of `spare/data.py`.
- `Pipeline`: `SelectionGalaxies.save_selection`, `prep_for_EAZY` of `spare/funcs.py`, `Extract.extract_galaxies`, and the theorem that joins them.
- `LegacyPipeline`: the legacy `SelectGalaxies.save_selection` and `prep_for_EAZY`.

Modelling conventions:

- A masked numpy cell is `None`; an unmasked cell is `Some(v)`. Floats are `real`.
- A value and an error image that belong to one filter are held together as one `Band`.
- The run table and the set of directories form a `Store`. Galaxy folders and catalog files form a `Disk`. An operation takes the persisted state and returns the new state with an `Ok` or `Err` result. An exception becomes `Err`; the state it returns is what was already persisted when the exception was raised.
- Python slices clamp their bounds to the sequence (`TakeSlice`).
- A galaxy's shape is the segmap's shape. Its width is stored with the segmap (`Galaxy.width`), because numpy keeps `shape[1]` even for a segmap with no rows.
- numpy fits a mask of another shape to its data when the mask has one cell (it is repeated) or the data's size (it is reshaped), and raises otherwise. `MakePhot`, `MakeConfidence` and `MakeConfGalaxy` follow this rule.
- A survey id missing from the size catalog gives `NotFound`. A missing file or directory gives `FileMissing`. `os.makedirs` on an existing path gives `DirectoryExists`. An empty `np.nonzero(...)[0]` indexed at `[0]`, or `argmin` of an empty array, gives `EmptyIndex`. An index array pointing past the end of an array axis gives `IndexOutOfRange`. `pd.concat` of an empty list of frames gives `EmptyConcat`. Arrays of mismatched shape give `ShapeMismatch`. A failed `assert` gives `AssertionFailed`.

`spare/galaxy.py` is an earlier copy of `Galaxy` (lines 8-100, with the same `pixel_ids` and replacement) and of `extract_galaxy` (lines 103-142, the same arithmetic as `spare/funcs.py:31-70`). `spare/eazymanage/prep.py` is a copy of `spare/photometry/prep.py`. One model covers each original and its copy.

Where the code and its documentation disagree, the model follows the code:

- `spare/funcs.py` imports `Data` from `.filemanage` and `SelectionGalaxies` from `.EAZYprep`, and neither module defines them. The model reads these as `spare/data.py`'s `Data` and `spare/eazymanage/prep.py`'s `SelectionGalaxies`.
- `spare/funcs.py:7` imports `FileEAZY` from `.EAZYprep`, the legacy catalog writer (`spare/EAZYprep.py:72`), whose rows have no `galaxy_idx`. `Extract` (`spare/photometry/extract.py:30`) needs that column. The model's `prep_for_EAZY` therefore writes the catalog of `spare/photometry/prep.py`'s `FileEAZY` (`PixelCatalog.CreateDataFrame`). The legacy catalog is modelled on its own as `LegacyCatalog.LegacyCreateDataFrame`.
- The legacy catalog's docstring says `id` is "assigned from 0" and unique to the run. The code restarts it for every galaxy (see Findings).

## Model

| member | source | states |
|---|---|---|
| Grids.Range | spare/galaxy/galaxy.py:51 | `np.arange(n)` has length `n` and holds `k` at position `k` |
| Grids.Reshape | spare/galaxy/galaxy.py:52 | reshaping a sequence of length `rows*cols` gives a `rows` by `cols` grid |
| Grids.FlattenLength | spare/galaxy/galaxy.py:49 | a `rows` by `cols` grid flattens to `rows*cols` cells, so `size` is the product of `shape` |
| Grids.FlattenIndex | spare/photometry/prep.py:110-111 | row-major flattening puts cell `(r,c)` at `r*cols+c` |
| Grids.ReshapeIndex | spare/galaxy/phot_galaxy.py:86-93 | reshaping puts element `r*cols+c` at cell `(r,c)` |
| Grids.FlattenReshape | spare/galaxy/galaxy.py:51-52 | flattening undoes reshaping |
| Grids.ReshapeFlatten | spare/galaxy/phot_galaxy.py:86-93 | reshaping undoes flattening for a rectangular grid |
| Grids.Crop | spare/funcs.py:66-68 | `im[y0:y1, x0:x1]` inside the frame has the window's shape, and cell `(r,c)` is frame cell `(y0+r, x0+c)` |
| Grids.EqualsMask | spare/galaxy/galaxy.py:98 | `image == unused` has the image's shape and is true exactly at the cells equal to `unused` |
| Grids.Where | spare/galaxy/galaxy.py:99-100 | `np.where(cond, x, g)` keeps `g`'s shape and takes `x` exactly where `cond` holds |
| Decimal.Digit | spare/filemanage/outfiles.py:73 | a digit value renders as a decimal digit character |
| Decimal.NatToString | spare/filemanage/outfiles.py:73 | an id renders as a non-empty string of decimal digits |
| Decimal.ParseRender | spare/filemanage/outfiles.py:73 | reading the rendered id back gives the id |
| Decimal.NatToStringInjective | spare/filemanage/outfiles.py:73 | distinct ids render differently |
| Decimal.SeparatedNumbers | spare/filemanage/outfiles.py:73 | equal names `{a}_{x}` and `{b}_{y}` have `a == b`, so a run folder's name fixes its id |
| Galaxies.FilterNames | spare/galaxy/galaxy.py:126 | the filter names are the bands' filters, in order |
| Galaxies.Galaxy.PixelIds | spare/galaxy/galaxy.py:51-52 | `pixel_ids` has the segmap's shape, numbers cells row-major (`pixel_ids[0,1] == 1`) and flattens to `pixel_ids_flat` |
| Galaxies.RangeReshape | spare/galaxy/galaxy.py:51-52 | `arange(size).reshape(shape)` holds `r*cols+c` at `(r,c)` and flattens back to `arange(size)` |
| Galaxies.ReplaceUnused | spare/galaxy/galaxy.py:71-100 | identity, geometry, segmap and filters are kept; in every band both value and error become `replace` exactly where the scanned image (values or errors) equals `unused`, and keep their pixel elsewhere |
| Galaxies.ReplaceIdempotent | spare/galaxy/galaxy.py:95-100 | a second replacement with the same arguments changes nothing |
| Galaxies.Equal | spare/galaxy/galaxy.py:125-135 | two galaxies are equal exactly when id, centroid, shape (rows and segmap width, which a segmap with no rows keeps) and filter names agree |
| Galaxies.ReplaceKeepsIdentity | spare/galaxy/galaxy.py:125-135 | a galaxy after replacement still equals itself before it |
| Galaxies.InfoDict | spare/galaxy/galaxy.py:59-68 | `info_dict` records the id, centroid, shape (including the width of a segmap with no rows) and both bounding-box ranges |
| Galaxies.RebuildBBox | spare/galaxy/galaxy.py:155 | the bounding box is rebuilt from the saved `ymin`, `ymax`, `xmin` and `xmax` |
| Galaxies.Save | spare/galaxy/galaxy.py:106-122 | `save_data` stores the info dict, every band's images and the segmap with its width |
| Galaxies.Load | spare/galaxy/galaxy.py:138-159 | `load_galaxy_from_folder` takes id, centroid and box from the info, the bands as saved, and the shape of the saved segmap |
| Galaxies.SaveLoad | spare/galaxy/galaxy.py:106-159 | loading a saved galaxy gives the same galaxy, the same bounding box and the same pixel ids |
| Cutout.CropBand | spare/funcs.py:66-67 | a cropped band keeps its filter, and its value and error images have the bordered window's shape |
| Cutout.CutGalaxy | spare/funcs.py:31-70 | the cutout has the size-catalog id, centroid and box, and the bordered window's shape |
| Cutout.CutGalaxyIsCutout | spare/funcs.py:31-70 | the cut galaxy has the size-catalog id, centroid and box, and every image is the bordered window of the survey image |
| Cutout.CutGalaxyShape | spare/galaxy.py:134-140 | the cut is well formed, its shape is the bordered window `ymin-border:ymax+border+1` by `xmin-border:xmax+border+1`, and it carries the survey's filters |
| Cutout.CutGalaxyPixels | spare/galaxy.py:138-140 | segmap, value and error pixel `(r,c)` of the cut are survey pixel `(ymin_b+r, xmin_b+c)` |
| Cutout.ExtractGalaxy | spare/funcs.py:51-70 | an id missing from the size catalog raises; any other id gives its cutout |
| Cutout.ExtractAll | spare/funcs.py:112 | the list comprehension raises exactly when some id is missing, and otherwise gives one cutout per id, in order |
| PixelCatalog.ErrorNameSpec | spare/photometry/prep.py:111 | the error column `E{name[1:]}` starts with `E` and keeps the filter name after its first character; two names give one error column exactly when they agree after it |
| PixelCatalog.ColumnsKeys | spare/photometry/prep.py:110-111 | the dict comprehension's keys are the bands' column names |
| PixelCatalog.ColumnsLookup | spare/photometry/prep.py:110-111 | with distinct names, each band's column is its flattened image |
| PixelCatalog.ColumnsLength | spare/photometry/prep.py:110-111 | every column has one entry per pixel |
| PixelCatalog.PixelDataKeys | spare/photometry/prep.py:110-112 | the pixel data has one key per filter and one per error name |
| PixelCatalog.PixelDataLookup | spare/photometry/prep.py:110-112 | a filter maps to its flattened value image and its error name to its flattened error image |
| PixelCatalog.PixelDataSpec | spare/photometry/prep.py:94-112 | `extract_pixel_data` gives exactly those keys, each column flattened row-major and of the galaxy's size |
| PixelCatalog.CatalogRows | spare/photometry/prep.py:118-127 | `pd.concat(galaxy_dfs, ignore_index=True)` has one row per pixel of the selection, and row `i` has id `i` |
| PixelCatalog.CreateDataFrame | spare/photometry/prep.py:115-129 | an empty selection raises in `pd.concat`; any other selection gives the concatenated rows, one per pixel, with row `i` holding id `i` |
| PixelCatalog.BuildableSized | spare/photometry/prep.py:124-125 | a well-formed galaxy gives equal-length columns, so `pd.DataFrame(cols)` can be built |
| PixelCatalog.Block | spare/photometry/prep.py:119-125 | a galaxy's block has one row per pixel |
| PixelCatalog.Renumber | spare/photometry/prep.py:127 | `ignore_index=True` keeps the rows and renumbers them `0..n-1` |
| PixelCatalog.OffsetStep | spare/photometry/prep.py:127 | galaxy `k+1`'s block starts where galaxy `k`'s ends |
| PixelCatalog.OffsetMonotone | spare/photometry/prep.py:127 | block starts do not decrease |
| PixelCatalog.OffsetOfPrefix | spare/photometry/prep.py:118 | a block's start depends only on the galaxies before it |
| PixelCatalog.BlocksLength | spare/photometry/prep.py:127 | the concatenation has as many rows as the galaxies have pixels |
| PixelCatalog.BlockLayout | spare/photometry/prep.py:118-127 | pixel `p` of galaxy `k` is row `Offset(k)+p` of the concatenation |
| PixelCatalog.LocateRow | spare/photometry/prep.py:118-127 | every catalog row belongs to some galaxy `k` and pixel `p` |
| PixelCatalog.CatalogRow | spare/photometry/prep.py:118-127 | row `Offset(k)+p` holds id `Offset(k)+p`, `galaxy_idx` `k`, `galaxy_id` of galaxy `k`, `pixel_id` `p`, and the pixel's fluxes |
| PixelCatalog.RowOwner | spare/photometry/prep.py:120 | a row has `galaxy_idx == k` exactly when it lies in galaxy `k`'s block |
| PixelCatalog.Contiguity | spare/photometry/prep.py:115-129 | ids equal row numbers, each galaxy's rows are one contiguous block of its size, and in it `galaxy_id` is the galaxy's id and `pixel_id` counts from 0 |
| PixelCatalog.GalaxyIdxColumn | spare/photometry/extract.py:80 | `catalog['galaxy_idx']` has one entry per row, taken from that row |
| PixelCatalog.IdColumn | spare/photometry/extract.py:28 | `catalog['id']` has one entry per row, taken from that row |
| LegacyCatalog.LegacyBlock | spare/EAZYprep.py:127-133 | a legacy block has one row per pixel |
| LegacyCatalog.LegacyCatalogRows | spare/EAZYprep.py:127-135 | `pd.concat(galaxy_dfs)` has one row per pixel of the selection |
| LegacyCatalog.LegacyCreateDataFrame | spare/EAZYprep.py:124-135 | an empty selection raises in `pd.concat`; any other selection gives the concatenated legacy rows, one per pixel |
| LegacyCatalog.LegacyIsProjection | spare/EAZYprep.py:124-135 | the legacy catalog is the current one without `galaxy_idx` and with ids from each block's own index |
| LegacyCatalog.LegacyLayout | spare/EAZYprep.py:124-135 | legacy row `Offset(k)+p` has id `p`, galaxy `k`'s id, pixel id `p` and the pixel's fluxes |
| LegacyCatalog.LegacyIdIsPixelId | spare/EAZYprep.py:128-135 | without `ignore_index`, each row's id is its pixel id |
| LegacyCatalog.LegacyIdsRepeat | spare/EAZYprep.py:135 | with two non-empty galaxies, two different rows both have id 0 |
| Slicer.FirstIndex | spare/photometry/extract.py:80-81 | `a[0]` is the first row holding the index |
| Slicer.LastIndex | spare/photometry/extract.py:80-81 | `a[-1]` is the last row holding the index |
| Slicer.GetGalaxySlice | spare/photometry/extract.py:64-83 | an index absent from the column raises; otherwise the slice starts at its first row and ends after its last, and no row outside holds it |
| Slicer.SliceCoversRun | spare/photometry/extract.py:80-83 | for a contiguous run, the slice covers exactly the rows holding the index |
| Slicer.SliceTrustsContiguity | spare/photometry/extract.py:80-81 | on a non-contiguous column the slice also covers rows of other galaxies |
| Slicer.SliceIsBlock | spare/photometry/extract.py:80-83 | on the current catalog the slice of galaxy `k` is its block, and an empty galaxy raises |
| Slicer.SliceOfBlock | spare/photometry/extract.py:80-83 | when an index occupies exactly `[lo, hi)`, the slice is `lo:hi`; when it occupies nothing, the lookup raises |
| Slicer.Unique | spare/photometry/extract.py:30 | `np.unique` holds exactly the values of the column and is no longer than it |
| Slicer.UniqueSpec | spare/photometry/extract.py:30 | `np.unique` is strictly increasing and holds exactly the column's values |
| Slicer.IdxColumnMember | spare/photometry/extract.py:30 | `k` appears in the catalog's `galaxy_idx` column exactly when galaxy `k` has pixels |
| Slicer.GalaxyIdxsOfCatalog | spare/photometry/extract.py:30 | `galaxy_idxs` lists the galaxies with pixels, and is `0..n-1` when every galaxy has pixels |
| Photometry.MaskRow | spare/galaxy/phot_galaxy.py:73-77 | repeating the no-fit flag along a `chi2` row masks every cell or none, keeping the values |
| Photometry.MakePhot | spare/galaxy/phot_galaxy.py:57-80 | `chi2` and `zbest` lengths that differ raise, unless the grid is empty or a single `zbest` flag meets a single grid point (numpy then repeats the mask); otherwise `zbest` is masked exactly where it equals the no-fit value, each `chi2` cell is masked exactly when its row falls under the repeated mask and keeps its value otherwise, and the totals start unset |
| Photometry.MakePhotWellFormed | spare/galaxy/phot_galaxy.py:70-77 | consistent inputs build, the result is well formed, and filling `zbest` with the no-fit value restores it |
| Photometry.EazyIdsReshaped | spare/galaxy/phot_galaxy.py:86-87 | the ids reshape to the galaxy's shape and flatten back, and raise exactly when their count is not the galaxy's size |
| Photometry.ZbestReshaped | spare/galaxy/phot_galaxy.py:89-90 | the masked `zbest` reshapes to the galaxy's shape and flattens back, and raises exactly when its length is not the galaxy's size |
| Photometry.Chi2Reshaped | spare/galaxy/phot_galaxy.py:92-93 | the curves reshape to the galaxy's shape with one curve of the grid's length per pixel; a count other than the size raises unless the grid is empty (numpy compares total sizes) |
| Photometry.ReshapeChecked | spare/galaxy/phot_galaxy.py:86-93 | a reshape to the wrong size raises; otherwise the grid has the shape and flattens back |
| Photometry.ColumnTotalMasked | spare/galaxy/phot_galaxy.py:126 | a masked column sum is masked exactly when every summed cell is masked |
| Photometry.Totals | spare/galaxy/phot_galaxy.py:97 | `np.sum(chi2, axis=0)` has one total per redshift, each the column sum |
| Photometry.MaskedArgMin | spare/galaxy/phot_galaxy.py:98 | `argmin` gives the first position of a minimum, with masked totals above every value |
| Photometry.AllMaskedArgMin | spare/galaxy/phot_galaxy.py:98 | when every total is masked, `argmin` gives 0 |
| Photometry.CalcZChi2 | spare/galaxy/phot_galaxy.py:96-98 | an empty grid raises; otherwise only the two results change, the total at each grid point is the masked sum of every pixel's curve, masked exactly where every pixel failed (for a well-formed galaxy), and `zchi2` is the grid point of the first least total |
| Photometry.TrueIndices | spare/galaxy/phot_galaxy.py:124 | the true positions are listed once, ascending |
| Photometry.Nonzero | spare/galaxy/phot_galaxy.py:124 | `np.nonzero(pixels)` lists the flat indices of exactly the true pixels, ascending |
| Photometry.CalcZChi2Pixels | spare/galaxy/phot_galaxy.py:101-129 | curves that do not reshape to the image, a set mask cell outside the image, or an empty grid raise, while unset cells outside the image and a smaller mask are accepted; the default mask `segmap == id` never points outside; otherwise the total sums exactly the set pixels inside the image and `zchi2` is the grid point of its first least value |
| Photometry.ColumnTotalRemove | spare/galaxy/phot_galaxy.py:126 | a column sum is the sum without one pixel plus that pixel |
| Photometry.ColumnTotalPermutation | spare/galaxy/phot_galaxy.py:126 | the sum does not depend on the order of the pixels |
| Photometry.MultisetWithout | spare/galaxy/phot_galaxy.py:126 | dropping one position removes one copy of its element |
| Photometry.MaskedPixelsIgnored | spare/galaxy/phot_galaxy.py:126 | adding masked pixels to the sum changes nothing |
| Photometry.AllPixelsIsCalcZChi2 | spare/galaxy/phot_galaxy.py:96-129 | `calc_zchi2_pixels` on every pixel gives the same total and redshift as `calc_zchi2` |
| Confidences.MaskedDifference | spare/galaxy/confidence_galaxy.py:29-30 | `upper - lower` is masked exactly at the no-fit pixels and is the difference elsewhere |
| Confidences.MakeConfidence | spare/galaxy/confidence_galaxy.py:16-32 | limits without one entry per pixel, or a no-fit mask neither of one cell nor of one per pixel, raise; otherwise the limits are reshaped to the galaxy and the difference is masked at the (repeated) no-fit pixels and is `upper - lower` elsewhere |
| Confidences.Broadcast | spare/galaxy/confidence_galaxy.py:30 | a one-cell no-fit mask is repeated over every pixel; any other mask is used as it is |
| Confidences.AtLeast | spare/galaxy/confidence_galaxy.py:36 | `zbest >= lower` is masked where `zbest` is, and is the comparison elsewhere |
| Confidences.AtMost | spare/galaxy/confidence_galaxy.py:41 | `zbest <= upper` is masked where `zbest` is, and is the comparison elsewhere |
| Confidences.AtMostValue | spare/galaxy/confidence_galaxy.py:51 | `difference <= interval` is masked where the difference is, and is the comparison elsewhere |
| Confidences.And | spare/galaxy/confidence_galaxy.py:46 | `np.logical_and` is masked where either side is, and is the conjunction elsewhere |
| Confidences.Negate | spare/galaxy/confidence_galaxy.py:37 | `np.logical_not` keeps the mask and negates the rest |
| Confidences.PredicateMeaning | spare/galaxy/confidence_galaxy.py:35-58 | each `is_...` cell is masked exactly where its inputs are, and is otherwise its comparison, negated under `as_mask` |
| Confidences.AsMaskIsNegation | spare/galaxy/confidence_galaxy.py:35-58 | `as_mask=True` is the negation of `as_mask=False`, and negating it gives that back |
| Confidences.IsAboveLower | spare/galaxy/confidence_galaxy.py:35-38 | `is_above_lower` is masked exactly where `zbest` is, and elsewhere is `zbest >= lower`, negated under `as_mask` |
| Confidences.IsBelowUpper | spare/galaxy/confidence_galaxy.py:40-43 | `is_below_upper` is masked exactly where `zbest` is, and elsewhere is `zbest <= upper`, negated under `as_mask` |
| Confidences.IsWithin | spare/galaxy/confidence_galaxy.py:45-48 | `is_within` is masked exactly where `zbest` is, and elsewhere is `lower <= zbest <= upper`, negated under `as_mask` |
| Confidences.IsConfident | spare/galaxy/confidence_galaxy.py:50-53 | `is_confident` is masked exactly where the difference is, and elsewhere is `difference <= interval`, negated under `as_mask` |
| Confidences.IsWithinAndConfident | spare/galaxy/confidence_galaxy.py:55-58 | `is_within_and_confident` is masked where `zbest` or the difference is, and elsewhere is both conditions, negated under `as_mask` |
| Confidences.EvaluateMasked | spare/galaxy/confidence_galaxy.py:35-58 | each predicate's map has the image's shape and is masked at a pixel exactly where its inputs are |
| Confidences.MakeConfGalaxy | spare/galaxy/confidence_galaxy.py:124-140 | building raises exactly when `PhotGalaxy` would or `zbest` or a limit lacks one entry per pixel; otherwise the photometric part is what `PhotGalaxy` builds and the confidence uses its reshaped `zbest`, the reshaped limits and the difference masked at the no-fit pixels |
| Confidences.MaskedExactlyAtNoFit | spare/galaxy/confidence_galaxy.py:137-140 | in a built `ConfGalaxy`, every confidence map, in either polarity, is masked at image pixel `(r,c)` exactly when the fit of flat pixel `r*cols+c` failed |
| Registry.IndexOf | spare/filemanage/outfiles.py:80 | the row read for `.loc[run_id]` holds the id, and no earlier row does (in a valid table ids are unique, see `ValidIdsUnique`) |
| Registry.NextIdFresh | spare/filemanage/outfiles.py:61-65 | the next id is above every stored id, so it is not in the table |
| Registry.AddRun | spare/filemanage/outfiles.py:42-75 | the row `(next id, name, num_obj)` is appended and persisted; the run directory is created and the id returned, unless it exists, which raises |
| Registry.RunFolder | spare/filemanage/outfiles.py:78-80 | an id not in the table raises; otherwise the folder is `{runs folder}/{id}_{name}` with the name of the first row holding the id |
| Registry.RemoveTree | spare/filemanage/outfiles.py:92 | `rmtree` removes the directory and everything under it, and nothing else |
| Registry.DeleteRun | spare/filemanage/outfiles.py:83-93 | an unknown id raises `NotFound` and a missing directory `FileMissing`, both leaving the store as it was; otherwise the row is dropped and the run's tree removed |
| Registry.AddRunKeepsValid | spare/filemanage/outfiles.py:59-71 | adding keeps ids strictly increasing and the earlier rows unchanged |
| Registry.AddRunCreatesRunFolder | spare/filemanage/outfiles.py:73-80 | after a successful add, `run_folder(id)` is the directory `add_run` created |
| Registry.ValidIdsUnique | spare/filemanage/outfiles.py:61-67 | in a valid table no two rows share an id |
| Registry.RunPathsSeparate | spare/filemanage/outfiles.py:73 | the folder of one run is never inside the folder of another |
| Registry.DeleteRunRemovesOnly | spare/filemanage/outfiles.py:86-93 | deletion keeps the table valid, removes the id, and keeps every other row |
| Registry.RemoveAt | spare/filemanage/outfiles.py:88 | dropping one row of a valid table removes its id and keeps exactly the other rows |
| Registry.DroppedValid | spare/filemanage/outfiles.py:88 | a table without one row stays valid and no longer has that id |
| Registry.DroppedMembers | spare/filemanage/outfiles.py:88 | a table without one row keeps every other row and adds none |
| Registry.DeleteRunKeepsOtherFolders | spare/filemanage/outfiles.py:92 | deleting a run keeps every other run's directory |
| Registry.DeleteNewestRewinds | spare/filemanage/outfiles.py:61-65 | deleting the newest run makes the next id the previous row's id plus one, so its id can be handed out again |
| Registry.History | spare/filemanage/outfiles.py:42-93 | two adds to a new store return ids 0 and 1; after both are deleted the table is empty and the next id is 0 |
| LegacyRegistry.LegacyAddRun | spare/filemanage.py:34-46 | the row is appended as in the current registry, and the relative directory `{id}_{name}` is created unless it exists |
| LegacyRegistry.LegacyRunFolder | spare/filemanage.py:49-50 | a `None` id or an id not in the table raises; otherwise the folder is `{folder}/{id}/{name}` with the name of the first row holding the id |
| LegacyRegistry.LegacyDeleteRun | spare/filemanage.py:53-61 | an unknown id raises and keeps the store; otherwise the row is dropped exactly when `{id}_{name}` exists, and that tree is removed |
| LegacyRegistry.LegacyAddRunKeepsValid | spare/filemanage.py:34-44 | the legacy add keeps the table valid and produces the same table as the current one |
| LegacyRegistry.LegacyRunFolderMissesRunDir | spare/filemanage.py:46-50 | `run_folder` of a freshly added run is never the directory `add_run` created |
| InputPaths.ReplaceMark | spare/data.py:28 | `filename.replace('?', filt)` leaves no `?` when the filter has none |
| InputPaths.ReplaceMarkConcat | spare/data.py:28 | replacement distributes over concatenation |
| InputPaths.ReplaceMarkNoMark | spare/data.py:28 | a name without `?` is unchanged |
| InputPaths.ReplaceMarkLength | spare/data.py:28 | each `?` grows the name by the filter's length minus one |
| InputPaths.ImageMap | spare/data.py:26-30 | the image map has one entry per filter, holding that filter's path |
| InputPaths.MakePaths | spare/data.py:19-30 | the catalog paths are `{folder}/{name}`, and each filter's image is `{image_folder}/{filt}/{filename with ? replaced by filt}` |
| InputPaths.TemplateInstance | spare/data.py:24-30 | a template `prefix?suffix` gives `{image_folder}/{filt}/{prefix}{filt}{suffix}` |
| Pipeline.GalaxyFoldersDistinct | spare/eazymanage/prep.py:58-59 | distinct positions get distinct galaxy folders |
| Pipeline.SaveAllLookup | spare/eazymanage/prep.py:58-60 | galaxy `i` is saved under `{run_folder}/galaxies/{i}`, and other folders are untouched |
| Pipeline.SaveSelection | spare/eazymanage/prep.py:51-60 | the run row is always appended; on failure no galaxy is saved; on success the new id is returned |
| Pipeline.SaveSelectionSaves | spare/eazymanage/prep.py:51-60 | on a valid registry, saving succeeds exactly when neither the run folder nor its `galaxies` folder exists, and then every galaxy reloads from `{run_folder}/galaxies/{i}` |
| Pipeline.UnambiguousByNames | spare/photometry/prep.py:110-112 | whether columns collide depends only on the filter names |
| Pipeline.ReplaceEach | spare/funcs.py:118-119 | the loop replaces unused pixels in every galaxy, keeping the order |
| Pipeline.Selection | spare/funcs.py:112-119 | a missing id raises `NotFound`; otherwise `replace_unused` without both values raises `AssertionFailed`; otherwise galaxy `k` is the cutout of `ids[k]`, replaced when asked |
| Pipeline.PrepForEazy | spare/funcs.py:111-133 | a failed selection changes nothing; an empty id list registers and saves the run, then raises in `pd.concat` without writing a catalog; success returns the new run id, saves the galaxies as `save_selection` does, and writes the catalog of the selection to `{run_folder}/EAZY_input.csv` |
| Pipeline.TakeSlice | spare/photometry/extract.py:132-134 | a slice within bounds is the subsequence, and no slice is longer than the sequence |
| Pipeline.TakeRows | spare/photometry/extract.py:134 | slicing the rows of `chi2` keeps it rectangular |
| Pipeline.ExtractOne | spare/photometry/extract.py:126-146 | a missing galaxy folder raises `FileMissing`; an existing one whose index has no catalog rows raises `EmptyIndex`; otherwise, with limits of fewer than two percentiles, reading column 0 or 1 raises `IndexOutOfRange` |
| Pipeline.ExtractOneSpec | spare/photometry/extract.py:126-146 | a missing galaxy folder raises before the catalog is consulted, an index with no rows raises next, then a percentile matrix without two columns, and a built galaxy is the saved one, a `ConfGalaxy` exactly when limits are used |
| Pipeline.Build | spare/photometry/extract.py:136-156 | the built galaxy is the loaded one, as a `PhotGalaxy` without limits and a `ConfGalaxy` with them; limits of fewer than two percentiles raise `IndexOutOfRange` |
| Pipeline.ExtractEach | spare/photometry/extract.py:126-158 | extraction succeeds exactly when every index extracts, and then gives one galaxy per index, in order |
| Pipeline.ExtractGalaxies | spare/photometry/extract.py:18-30 | an unregistered run raises `NotFound`, a missing catalog `FileMissing`; otherwise one galaxy is built per distinct `galaxy_idx` |
| Pipeline.BlockIds | spare/photometry/extract.py:132 | the ids of a galaxy's block are as many as its pixels |
| Pipeline.IdColumnIsRowNumber | spare/photometry/prep.py:127 | the catalog's `id` column holds each row's number |
| Pipeline.BlockWithinCatalog | spare/photometry/prep.py:127 | every block lies inside the catalog |
| Pipeline.ExtractOneIsBlock | spare/photometry/extract.py:126-134 | extracting galaxy `k` of a catalog built from the selection uses exactly its block of ids and fit rows |
| Pipeline.BlockIdsOfCatalog | spare/photometry/extract.py:132 | `ids[galaxy_slice]` for galaxy `k` is the row numbers of its block |
| Pipeline.BuildInside | spare/photometry/extract.py:131-143 | a slice inside the fit with one row per pixel, and limits (if any) with at least two percentiles, builds a well-formed galaxy whose filled `zbest` is the fit's slice |
| Pipeline.BuildBlock | spare/photometry/extract.py:131-156 | with one fit row per catalog row and limits (if any) with at least two percentiles, galaxy `k` builds from rows `Offset(k)` to `Offset(k+1)` of the fit |
| Pipeline.BlockExtracts | spare/photometry/extract.py:126-158 | with limits (if any) of at least two percentiles, extracting galaxy `k` succeeds and equals building it from its own block |
| Pipeline.ExtractRun | spare/photometry/extract.py:119-158 | with limits (if any) of at least two percentiles, a run whose catalog and galaxy folders hold a selection extracts to one galaxy per selected galaxy, each built from its own block |
| Pipeline.ExtractRunWithoutBounds | spare/photometry/extract.py:145-146 | with limits of fewer than two percentiles, a run whose first galaxy has pixels and a folder fails to extract |
| Pipeline.Builds | spare/photometry/extract.py:126-158 | the reference result: galaxy `k` built directly from block `k` |
| Pipeline.EachBlock | spare/photometry/extract.py:126-158 | with limits (if any) of at least two percentiles, the extraction loop over `0..n-1` succeeds and agrees with the reference result |
| Pipeline.EachMatches | spare/photometry/extract.py:126-158 | when every index extracts to its reference galaxy, the loop succeeds with exactly those galaxies |
| Pipeline.PrepThenExtract | spare/funcs.py:111-133 | after `prep_for_EAZY` succeeds, the fit has one row per catalog row and any limits have at least two percentiles, extracting the new run gives one galaxy per selected id, in order, each with its own block of the fit |
| LegacyPipeline.LegacySaveSelection | spare/EAZYprep.py:49-69 | the legacy `save_selection` always raises after appending the run row, saves no galaxy, and creates only the relative run directory |
| LegacyPipeline.SaveGalaxies | spare/EAZYprep.py:57-69 | saving raises exactly when the `galaxies` folder exists, and never touches the table or catalogs |
| LegacyPipeline.LegacyPrepForEazy | spare/EAZYprep.py:142-193 | the legacy `prep_for_EAZY` always raises; a failed selection changes nothing; otherwise an orphan run row is left behind and no galaxy or catalog is written |
| LegacyPipeline.LegacySaveFailsWhereCurrentSaves | spare/EAZYprep.py:49-55 | where the current `save_selection` succeeds and saves every galaxy, the legacy one raises `NotFound` after registering the run, and saves nothing |

## Left out

- Reading and writing FITS, YAML, CSV, NPZ and JSON files. The disk is a value holding run folders, saved galaxies and catalogs.
- Verbose printing and `__repr__`.
- `add_run_description` and `make_config_copy`: they only copy text into the run folder.
- `delete_all_runs`: it asks for interactive confirmation. Its effect is repeated `delete_run`.
- `random_id`: it draws a random number.
- Concurrent runs sharing one output folder.
- Floating point. Fluxes, redshifts and `chi2` are `real`, so there is no NaN, no rounding, and sums are associative.
- numpy's slicing past the frame in cutouts: a negative bound wraps around to the far edge, and a bound past the bottom or right edge is clipped, giving a smaller cutout. Every bordered window must lie inside the frame (`InFrame`), which the survey's border is meant to guarantee.
- Catalogs whose column names collide. Catalog building requires `ColumnsUnambiguous`: no error column may share a name with a filter or another error column, because `values | errors` would silently overwrite one; and no filter may be named `id`, `galaxy_idx`, `galaxy_id` or `pixel_id`, because `id_cols | pixel_data` would replace that identifier column with fluxes (and `to_csv(index_label='id')` would write two `id` columns).
- The EAZY fit and `init_wrapper_from_hdf5(...).photoz.pz_percentiles`. They run outside this code, so the fit (`Fit`) and the percentile matrix (`Limits`) are parameters. `Limits` holds the matrix's first two columns and its percentiles; fewer than two percentiles mean those columns are missing (`HasBounds`).
- Loading survey images (`Images`, `spare/data.py:51-60`) and `Data` (`spare/data.py:81-96`). The loaded survey is the `Survey` parameter, and the path template is modelled in `InputPaths`.
- `Extract._extract_galaxies_phot`: it duplicates the `PhotGalaxy` path of `extract_galaxies`.
- `Extract.galaxy_ids`: it is computed and never used.
- The legacy `OverManage.__init__` and `_extract_runs`: they read the table exactly as the current `RunManager` does.
- The legacy CSV step of `prep_for_EAZY`: it is never reached, because `run_folder(None)` raises first. The legacy catalog itself is `LegacyCatalog.LegacyCreateDataFrame`.
- Registry.IndexOf: a run table with a repeated id. `add_run` and `delete_run` keep ids strictly increasing (`AddRunKeepsValid`, `DeleteRunRemovesOnly`), so only a hand-edited `runs.csv` has one. There `.loc[run_id]` yields every matching row; the model reads the first.
- Registry.RunFolder: on a table with a repeated id, `.loc[run_id]['name']` is a Series of names; the model uses the first row's name.
- Registry.DeleteRun: on a table with a repeated id, `drop(run_id)` removes every matching row; the model removes the first.
- LegacyRegistry.LegacyRunFolder: on a table with a repeated id, the model uses the first row's name, where pandas yields a Series.
- LegacyRegistry.LegacyDeleteRun: on a table with a repeated id, the model drops the first matching row, where `drop` removes all of them.
- LegacyRegistry.LegacyDeleteRun: when `rmtree` raises, the in-memory table has already lost the row; the model keeps the persisted table, which was not rewritten.
- Registry.AddRunCreatesRunFolder: the model stores run names exactly. The code reads the run table back from CSV, where pandas turns names such as `NA`, `nan`, `None`, `null` or the empty name into NaN and `007` into the number 7, so `run_folder` then differs from the directory `add_run` created. The lemma holds only for names that survive that round trip.
- Pipeline.ExtractGalaxies: its success case is stated through `ExtractEach`; what that extraction yields for a run written by `prep_for_EAZY` is stated by `Pipeline.ExtractRun` and `Pipeline.PrepThenExtract`.

## Findings

| source | as written | input that shows it | evidently intended | confidence | as-written member | corrected member |
|---|---|---|---|---|---|---|
| spare/filemanage.py:46-50 | `add_run` creates `{id}_{name}` relative to the working directory, while `run_folder` answers `{folder}/{id}/{name}` | any run: id 0, name `a`, folder `out` gives directory `0_a` and run folder `out/0/a` | `run_folder` names the directory `add_run` created, as in `spare/filemanage/outfiles.py` | not executed | LegacyRegistry.LegacyRunFolderMissesRunDir | Registry.AddRunCreatesRunFolder |
| spare/EAZYprep.py:49-55 | `add_run` returns `None` (`spare/filemanage.py:34`), so `save_selection` calls `run_folder(None)`, which raises after the run row is written | any selection saved on an empty registry | `add_run` returns the new id and the galaxies are saved under its folder | not executed | LegacyPipeline.LegacySaveFailsWhereCurrentSaves | Pipeline.SaveSelectionSaves |
| spare/EAZYprep.py:135 | `pd.concat(galaxy_dfs)` keeps each block's own index, so the `id` column restarts at 0 for every galaxy | two galaxies with at least one pixel each: rows 0 and `size_0` both have id 0 | ids unique to the run and assigned from 0, as the docstring at lines 88-89 says and `ignore_index=True` achieves in `spare/photometry/prep.py:127` | not executed | LegacyCatalog.LegacyIdsRepeat | PixelCatalog.Contiguity |

=== FILE: catalog.dfy ===
/**
 * The pixel-catalog builder `FileEAZY` (spare/photometry/prep.py and its copy
 * spare/eazymanage/prep.py): one row per pixel, galaxies laid out as
 * contiguous blocks in selection order, rows renumbered `0..N-1`.
 */
module PixelCatalog {
  import opened Grids
  import opened Wrappers
  import opened Galaxies

  /** `f'E{name[1:]}'`: the error column paired with filter `name`. */
  function ErrorName(name: string): string {
    "E" + (if |name| == 0 then "" else name[1..])
  }

  /**
   * The error name replaces the first character of the filter name by `'E'`
   * and keeps the rest, so `F070W` pairs with `E070W`; two non-empty names
   * share an error name exactly when they differ at most in that character.
   */
  lemma ErrorNameSpec(a: string, b: string)
    ensures |ErrorName(a)| == (if |a| == 0 then 1 else |a|)
    ensures ErrorName(a)[0] == 'E'
    ensures forall k :: 1 <= k < |a| ==> ErrorName(a)[k] == a[k]
    ensures |a| > 0 && |b| > 0 ==> (ErrorName(a) == ErrorName(b) <==> a[1..] == b[1..])
  {
    if |a| > 0 && |b| > 0 && ErrorName(a) == ErrorName(b) {
      assert a[1..] == ErrorName(a)[1..];
    }
  }

  /** The column name of a band: the filter name, or its error name. */
  function ColumnName(b: Band, errors: bool): string {
    if errors then ErrorName(b.filter) else b.filter
  }

  /** The raster a column is flattened from. */
  function ColumnRaster(b: Band, errors: bool): Grid<real> {
    if errors then b.error else b.value
  }

  /**
   * The dict comprehension `{name: image.flatten() for (name, image) in d.items()}`
   * over the value rasters (`errors == false`) or, keyed `f'E{name[1:]}'`, the
   * error rasters; a later band wins a repeated name.
   */
  function Columns(bands: seq<Band>, errors: bool): map<string, seq<real>>
    decreases |bands|
  {
    if |bands| == 0 then map[]
    else
      var last := bands[|bands| - 1];
      Columns(bands[..|bands| - 1], errors)[ColumnName(last, errors) := Flatten(ColumnRaster(last, errors))]
  }

  /** `extract_pixel_data`: `values | errors`, so an error column wins a name clash (see `PixelDataSpec`). */
  function PixelData(g: Galaxy): map<string, seq<real>> {
    Columns(g.bands, false) + Columns(g.bands, true)
  }

  /** No two bands share a column name. */
  predicate NamesDistinct(bands: seq<Band>, errors: bool) {
    forall i, j :: 0 <= i < |bands| && 0 <= j < |bands| && i != j ==>
      ColumnName(bands[i], errors) != ColumnName(bands[j], errors)
  }

  /**
   * The columns `_create_dataframe` writes besides the fluxes: the three
   * identifier columns and the `id` index label of `save_csv_file`.
   */
  const IdColumns: set<string> := {"id", "galaxy_idx", "galaxy_id", "pixel_id"}

  /**
   * No error column name clashes with a filter name or with another error
   * column, and no filter takes the name of an identifier column (which
   * `id_cols | pixel_data` would overwrite). Error names start with `E`, so
   * none of them is an identifier column.
   */
  predicate ColumnsUnambiguous(bands: seq<Band>) {
    && NamesDistinct(bands, true)
    && (forall i, j :: 0 <= i < |bands| && 0 <= j < |bands| ==> bands[i].filter != ErrorName(bands[j].filter))
    && (forall i :: 0 <= i < |bands| ==> bands[i].filter !in IdColumns)
  }

  lemma {:induction false} ColumnsKeys(bands: seq<Band>, errors: bool)
    ensures Columns(bands, errors).Keys == set i | 0 <= i < |bands| :: ColumnName(bands[i], errors)
    decreases |bands|
  {
    if |bands| > 0 {
      var n := |bands| - 1;
      ColumnsKeys(bands[..n], errors);
      assert (set i | 0 <= i < |bands| :: ColumnName(bands[i], errors))
          == (set i | 0 <= i < n :: ColumnName(bands[..n][i], errors)) + {ColumnName(bands[n], errors)};
    }
  }

  lemma {:induction false} ColumnsLookup(bands: seq<Band>, errors: bool, i: nat)
    requires NamesDistinct(bands, errors) && i < |bands|
    ensures ColumnName(bands[i], errors) in Columns(bands, errors)
    ensures Columns(bands, errors)[ColumnName(bands[i], errors)] == Flatten(ColumnRaster(bands[i], errors))
    decreases |bands|
  {
    var n := |bands| - 1;
    if i < n {
      var init := bands[..n];
      assert NamesDistinct(init, errors) by {
        forall a, b | 0 <= a < n && 0 <= b < n && a != b
          ensures ColumnName(init[a], errors) != ColumnName(init[b], errors)
        {
          assert init[a] == bands[a] && init[b] == bands[b];
        }
      }
      assert init[i] == bands[i];
      ColumnsLookup(init, errors, i);
    }
  }

  lemma {:induction false} ColumnsLength(bands: seq<Band>, errors: bool, rows: nat, cols: nat)
    requires BandsShaped(bands, rows, cols)
    ensures forall name :: name in Columns(bands, errors) ==> |Columns(bands, errors)[name]| == rows * cols
    decreases |bands|
  {
    if |bands| > 0 {
      var n := |bands| - 1;
      ColumnsLength(bands[..n], errors, rows, cols);
      FlattenLength(ColumnRaster(bands[n], errors), rows, cols);
    }
  }

  lemma PixelDataKeys(g: Galaxy)
    ensures PixelData(g).Keys == (set i | 0 <= i < |g.bands| :: g.bands[i].filter)
                               + (set i | 0 <= i < |g.bands| :: ErrorName(g.bands[i].filter))
  {
    var bs := g.bands;
    ColumnsKeys(bs, false);
    ColumnsKeys(bs, true);
    assert (set i | 0 <= i < |bs| :: ColumnName(bs[i], false)) == (set i | 0 <= i < |bs| :: bs[i].filter);
    assert (set i | 0 <= i < |bs| :: ColumnName(bs[i], true)) == (set i | 0 <= i < |bs| :: ErrorName(bs[i].filter));
  }

  lemma PixelDataLookup(g: Galaxy, i: nat)
    requires g.WellFormed() && ColumnsUnambiguous(g.bands) && i < |g.bands|
    ensures g.bands[i].filter in PixelData(g) && ErrorName(g.bands[i].filter) in PixelData(g)
    ensures PixelData(g)[g.bands[i].filter] == Flatten(g.bands[i].value)
    ensures PixelData(g)[ErrorName(g.bands[i].filter)] == Flatten(g.bands[i].error)
  {
    var bs := g.bands;
    assert NamesDistinct(bs, false);
    ColumnsLookup(bs, false, i);
    ColumnsLookup(bs, true, i);
    ColumnsKeys(bs, true);
    assert bs[i].filter !in Columns(bs, true) by {
      assert forall j :: 0 <= j < |bs| ==> bs[i].filter != ColumnName(bs[j], true);
    }
  }

  /**
   * The columns of `extract_pixel_data`: one per filter name holding the
   * row-major flatten of its value raster, one per error name `'E' + name[1:]`
   * holding the flatten of its error raster, each of length `size`.
   */
  lemma PixelDataSpec(g: Galaxy)
    requires g.WellFormed() && ColumnsUnambiguous(g.bands)
    ensures PixelData(g).Keys == (set i | 0 <= i < |g.bands| :: g.bands[i].filter)
                               + (set i | 0 <= i < |g.bands| :: ErrorName(g.bands[i].filter))
    ensures forall i :: 0 <= i < |g.bands| ==> PixelData(g)[g.bands[i].filter] == Flatten(g.bands[i].value)
    ensures forall i :: 0 <= i < |g.bands| ==> PixelData(g)[ErrorName(g.bands[i].filter)] == Flatten(g.bands[i].error)
    ensures forall name :: name in PixelData(g) ==> |PixelData(g)[name]| == g.Size()
  {
    PixelDataKeys(g);
    ColumnsLength(g.bands, false, g.Rows(), g.Cols());
    ColumnsLength(g.bands, true, g.Rows(), g.Cols());
    forall i | 0 <= i < |g.bands|
      ensures PixelData(g)[g.bands[i].filter] == Flatten(g.bands[i].value)
      ensures PixelData(g)[ErrorName(g.bands[i].filter)] == Flatten(g.bands[i].error)
    {
      PixelDataLookup(g, i);
    }
  }

  /** Every column has one entry per pixel (the DataFrame constructor needs equal lengths). */
  predicate ColumnsSized(g: Galaxy) {
    forall name :: name in PixelData(g) ==> |PixelData(g)[name]| == g.Size()
  }

  /** A galaxy the builder accepts. */
  predicate Buildable(g: Galaxy) {
    g.WellFormed() && ColumnsUnambiguous(g.bands)
  }

  lemma BuildableSized(g: Galaxy)
    requires Buildable(g)
    ensures ColumnsSized(g)
  {
    PixelDataSpec(g);
  }

  /** One catalog row; `id` is the DataFrame index saved under `index_label='id'`. */
  datatype Row = Row(id: int, galaxyIdx: int, galaxyId: int, pixelId: int, fluxes: map<string, real>)

  /** The flux and error columns of pixel `k`. */
  function FluxesAt(g: Galaxy, k: nat): map<string, real>
    requires ColumnsSized(g) && k < g.Size()
  {
    map name | name in PixelData(g) :: PixelData(g)[name][k]
  }

  /** The per-galaxy DataFrame: its own index `0..size-1`, constant `galaxy_idx` and `galaxy_id`. */
  function Block(idx: int, g: Galaxy): (b: seq<Row>)
    requires ColumnsSized(g)
    ensures |b| == g.Size()
  {
    seq(g.Size(), k requires 0 <= k < g.Size() => Row(k, idx, g.id, g.PixelIdsFlat()[k], FluxesAt(g, k)))
  }

  predicate AllBuildable(gs: seq<Galaxy>) {
    forall k :: 0 <= k < |gs| ==> Buildable(gs[k])
  }

  /** The per-galaxy blocks concatenated in selection order, block-local indexes kept. */
  function Blocks(gs: seq<Galaxy>): seq<Row>
    requires AllBuildable(gs)
    decreases |gs|
  {
    if |gs| == 0 then []
    else
      BuildableSized(gs[|gs| - 1]);
      Blocks(gs[..|gs| - 1]) + Block(|gs| - 1, gs[|gs| - 1])
  }

  /** `ignore_index=True`: the concatenated table is re-indexed `0..N-1`. */
  function Renumber(rows: seq<Row>): (rs: seq<Row>)
    ensures |rs| == |rows|
    ensures forall i :: 0 <= i < |rows| ==> rs[i] == rows[i].(id := i)
  {
    seq(|rows|, i requires 0 <= i < |rows| => rows[i].(id := i))
  }

  /**
   * The rows `pd.concat(galaxy_dfs, ignore_index=True)` builds from the
   * blocks: one row per pixel of the selection, numbered `0..N-1`.
   */
  function CatalogRows(gs: seq<Galaxy>): (rows: seq<Row>)
    requires AllBuildable(gs)
    ensures |rows| == SizeSum(gs)
    ensures forall i :: 0 <= i < |rows| ==> rows[i].id == i
  {
    BlocksLength(gs);
    Renumber(Blocks(gs))
  }

  /**
   * `_create_dataframe`: `pd.concat` of no frames raises, so an empty
   * selection has no catalog; any other selection gives its rows.
   */
  function CreateDataFrame(gs: seq<Galaxy>): (r: Result<seq<Row>>)
    requires AllBuildable(gs)
    ensures r.Err? <==> |gs| == 0
    ensures r.Err? ==> r.error == EmptyConcat
    ensures r.Ok? ==> |r.value| == SizeSum(gs) && r.value == CatalogRows(gs)
    ensures r.Ok? ==> forall i :: 0 <= i < |r.value| ==> r.value[i].id == i
  {
    if |gs| == 0 then Err(EmptyConcat) else Ok(CatalogRows(gs))
  }

  /** Total number of pixels of a selection. */
  function SizeSum(gs: seq<Galaxy>): nat
    decreases |gs|
  {
    if |gs| == 0 then 0 else SizeSum(gs[..|gs| - 1]) + gs[|gs| - 1].Size()
  }

  /** First row of galaxy `k`: the sizes of the galaxies before it. */
  function Offset(gs: seq<Galaxy>, k: nat): nat
    requires k <= |gs|
  {
    SizeSum(gs[..k])
  }

  lemma OffsetStep(gs: seq<Galaxy>, k: nat)
    requires k < |gs|
    ensures Offset(gs, k + 1) == Offset(gs, k) + gs[k].Size()
  {
    assert gs[..k + 1][..k] == gs[..k];
  }

  lemma {:induction false} OffsetMonotone(gs: seq<Galaxy>, a: nat, b: nat)
    requires a <= b <= |gs|
    ensures Offset(gs, a) <= Offset(gs, b)
    decreases b - a
  {
    if a < b {
      OffsetStep(gs, a);
      OffsetMonotone(gs, a + 1, b);
    }
  }

  lemma OffsetOfPrefix(gs: seq<Galaxy>, n: nat, k: nat)
    requires k <= n <= |gs|
    ensures Offset(gs[..n], k) == Offset(gs, k)
  {
    assert gs[..n][..k] == gs[..k];
  }

  lemma {:induction false} BlocksLength(gs: seq<Galaxy>)
    requires AllBuildable(gs)
    ensures |Blocks(gs)| == SizeSum(gs)
    decreases |gs|
  {
    if |gs| > 0 {
      BlocksLength(gs[..|gs| - 1]);
    }
  }

  /** Pixel `p` of galaxy `k` is row `Offset(k) + p` of the concatenation. */
  lemma {:induction false} BlockLayout(gs: seq<Galaxy>, k: nat, p: nat)
    requires AllBuildable(gs)
    requires k < |gs| && p < gs[k].Size()
    ensures ColumnsSized(gs[k])
    ensures Offset(gs, k) + p < |Blocks(gs)|
    ensures Blocks(gs)[Offset(gs, k) + p] == Block(k, gs[k])[p]
    decreases |gs|
  {
    BuildableSized(gs[k]);
    var n := |gs| - 1;
    var init := gs[..n];
    BlocksLength(gs);
    BlocksLength(init);
    assert Offset(gs, n) == SizeSum(init);
    if k < n {
      assert init[k] == gs[k];
      BlockLayout(init, k, p);
      OffsetOfPrefix(gs, n, k);
    }
  }

  /** Every row of the concatenation belongs to exactly one block. */
  lemma {:induction false} LocateRow(gs: seq<Galaxy>, i: nat) returns (k: nat, p: nat)
    requires AllBuildable(gs)
    requires i < |Blocks(gs)|
    ensures k < |gs| && p < gs[k].Size() && i == Offset(gs, k) + p
    decreases |gs|
  {
    var n := |gs| - 1;
    var init := gs[..n];
    BlocksLength(init);
    if i < |Blocks(init)| {
      k, p := LocateRow(init, i);
      OffsetOfPrefix(gs, n, k);
    } else {
      k, p := n, i - SizeSum(init);
      BlocksLength(gs);
    }
  }

  /** Row `Offset(k) + p` of the catalog, stated in full. */
  lemma CatalogRow(gs: seq<Galaxy>, k: nat, p: nat)
    requires AllBuildable(gs)
    requires k < |gs| && p < gs[k].Size()
    ensures ColumnsSized(gs[k])
    ensures |CatalogRows(gs)| == SizeSum(gs)
    ensures Offset(gs, k) + p < SizeSum(gs)
    ensures CatalogRows(gs)[Offset(gs, k) + p] == Row(Offset(gs, k) + p, k, gs[k].id, p, FluxesAt(gs[k], p))
  {
    BlocksLength(gs);
    BlockLayout(gs, k, p);
  }

  /** Row `i` carries `galaxy_idx == k` exactly when it lies in galaxy `k`'s block. */
  lemma RowOwner(gs: seq<Galaxy>, k: nat, i: nat)
    requires AllBuildable(gs) && k < |gs| && i < SizeSum(gs)
    ensures |CatalogRows(gs)| == SizeSum(gs)
    ensures CatalogRows(gs)[i].galaxyIdx == k <==> Offset(gs, k) <= i < Offset(gs, k + 1)
  {
    BlocksLength(gs);
    var k', p := LocateRow(gs, i);
    BlockLayout(gs, k', p);
    OffsetStep(gs, k');
    OffsetStep(gs, k);
    if k' < k {
      OffsetMonotone(gs, k' + 1, k);
    } else if k' > k {
      OffsetMonotone(gs, k + 1, k');
    }
  }

  /**
   * The built catalog: rows `0..N-1` with `N` the total pixel count, each row's
   * id its position; galaxy `k` owns exactly the rows `[Offset(k), Offset(k) + size_k)`,
   * where `galaxy_idx` is `k`, `galaxy_id` is its survey id and `pixel_id`
   * runs `0..size_k-1` in ascending order.
   */
  lemma {:induction false} Contiguity(gs: seq<Galaxy>, k: nat)
    requires AllBuildable(gs) && k < |gs|
    ensures |CatalogRows(gs)| == SizeSum(gs) == Offset(gs, |gs|)
    ensures Offset(gs, k + 1) == Offset(gs, k) + gs[k].Size() <= SizeSum(gs)
    ensures forall i :: 0 <= i < SizeSum(gs) ==> CatalogRows(gs)[i].id == i
    ensures forall i :: 0 <= i < SizeSum(gs) ==>
              (CatalogRows(gs)[i].galaxyIdx == k <==> Offset(gs, k) <= i < Offset(gs, k + 1))
    ensures forall i :: Offset(gs, k) <= i < Offset(gs, k + 1) ==>
              && CatalogRows(gs)[i].galaxyId == gs[k].id
              && CatalogRows(gs)[i].pixelId == i - Offset(gs, k)
  {
    BlocksLength(gs);
    assert gs[..|gs|] == gs;
    OffsetStep(gs, k);
    OffsetMonotone(gs, k + 1, |gs|);
    forall i | 0 <= i < SizeSum(gs)
      ensures CatalogRows(gs)[i].galaxyIdx == k <==> Offset(gs, k) <= i < Offset(gs, k + 1)
    {
      RowOwner(gs, k, i);
    }
    forall i | Offset(gs, k) <= i < Offset(gs, k + 1)
      ensures CatalogRows(gs)[i].galaxyId == gs[k].id && CatalogRows(gs)[i].pixelId == i - Offset(gs, k)
    {
      CatalogRow(gs, k, i - Offset(gs, k));
    }
  }

  /** The galaxy-index column, as read back by `catalog['galaxy_idx']`. */
  function GalaxyIdxColumn(rows: seq<Row>): (col: seq<int>)
    ensures |col| == |rows|
    ensures forall i :: 0 <= i < |rows| ==> col[i] == rows[i].galaxyIdx
  {
    seq(|rows|, i requires 0 <= i < |rows| => rows[i].galaxyIdx)
  }

  /** The `id` column, read back as `EAZY_ids`. */
  function IdColumn(rows: seq<Row>): (col: seq<int>)
    ensures |col| == |rows|
    ensures forall i :: 0 <= i < |rows| ==> col[i] == rows[i].id
  {
    seq(|rows|, i requires 0 <= i < |rows| => rows[i].id)
  }
}

=== FILE: confidence.dfy ===
/**
 * Confidence maps of a fitted galaxy (spare/galaxy/confidence_galaxy.py):
 * the lower and upper confidence redshifts of each pixel, their spread,
 * and the boolean maps "best redshift above the lower bound", "below the
 * upper bound", "within both", "spread at most the interval" and "within
 * and confident". Every map is a masked array, masked where the fit failed;
 * `asMask` negates the unmasked cells.
 */
module Confidences {
  import opened Wrappers
  import opened Grids
  import opened Galaxies
  import opened Photometry

  /** `confidence_interval`'s default. */
  const DefaultInterval: real := 2.0

  /** A masked boolean map: `None` is a masked cell. */
  type MaskedMap = Grid<Option<bool>>

  datatype Confidence = Confidence(
    rows: nat, cols: nat,
    zbest: Grid<Option<real>>,
    lower: Grid<real>,
    upper: Grid<real>,
    difference: Grid<Option<real>>,
    values: seq<real>,
    interval: real)
  {
    predicate WellFormed() {
      && IsRect(zbest, rows, cols) && IsRect(lower, rows, cols)
      && IsRect(upper, rows, cols) && IsRect(difference, rows, cols)
    }
  }

  /** `np.ma.MaskedArray(upper - lower, mask=no_fit_mask)`, flat. */
  function MaskedDifference(noFit: seq<bool>, lower: seq<real>, upper: seq<real>): (d: seq<Option<real>>)
    requires |noFit| == |lower| == |upper|
    ensures |d| == |noFit|
    ensures forall i :: 0 <= i < |d| ==> (d[i].None? <==> noFit[i])
    ensures forall i :: 0 <= i < |d| && !noFit[i] ==> d[i].value == upper[i] - lower[i]
  {
    seq(|noFit|, i requires 0 <= i < |noFit| => if noFit[i] then None else Some(upper[i] - lower[i]))
  }

  /**
   * The flat no-fit mask as numpy lays it over `n` cells: a mask of one cell
   * is repeated everywhere, any other mask is used as it is (and must then
   * have `n` cells).
   */
  function Broadcast(noFit: seq<bool>, n: nat): (b: seq<bool>)
    ensures |noFit| == 1 ==> |b| == n && forall i :: 0 <= i < n ==> b[i] == noFit[0]
    ensures |noFit| != 1 ==> b == noFit
    ensures |noFit| == n ==> b == noFit
  {
    if |noFit| == 1 then seq(n, i => noFit[0]) else noFit
  }

  /**
   * `Confidence.__init__`: the flat lower and upper bounds are reshaped to
   * the image and their difference is masked by the flat no-fit mask.
   * Reshaping raises when a bound does not have one entry per pixel; the
   * mask must have one entry per pixel too, or a single entry that numpy
   * repeats over the image.
   */
  function MakeConfidence(zbestShaped: Grid<Option<real>>, rows: nat, cols: nat, noFit: seq<bool>,
                          lower: seq<real>, upper: seq<real>, values: seq<real>, interval: real): (r: Result<Confidence>)
    requires IsRect(zbestShaped, rows, cols)
    ensures r.Err? <==> |lower| != rows * cols || |upper| != rows * cols || (|noFit| != rows * cols && |noFit| != 1)
    ensures r.Err? ==> r.error == ShapeMismatch
    ensures r.Ok? ==> r.value.WellFormed() && r.value.rows == rows && r.value.cols == cols
    ensures r.Ok? ==> r.value.zbest == zbestShaped && r.value.values == values && r.value.interval == interval
    ensures r.Ok? ==> Flatten(r.value.lower) == lower && Flatten(r.value.upper) == upper
    ensures r.Ok? ==> Flatten(r.value.difference) == MaskedDifference(Broadcast(noFit, rows * cols), lower, upper)
  {
    var lo :- ReshapeChecked(lower, rows, cols);
    var hi :- ReshapeChecked(upper, rows, cols);
    if |noFit| != rows * cols && |noFit| != 1 then Err(ShapeMismatch)
    else
      var diff := MaskedDifference(Broadcast(noFit, rows * cols), lower, upper);
      FlattenReshape(diff, rows, cols);
      Ok(Confidence(rows, cols, zbestShaped, lo, hi, Reshape(diff, rows, cols), values, interval))
  }

  // ---------------------------------------------------------------------------
  // Masked comparisons

  /** Cellwise `a >= b`, masked where `a` is. */
  function AtLeast(a: Grid<Option<real>>, b: Grid<real>, rows: nat, cols: nat): (m: MaskedMap)
    requires IsRect(a, rows, cols) && IsRect(b, rows, cols)
    ensures IsRect(m, rows, cols)
    ensures forall r, c :: 0 <= r < rows && 0 <= c < cols ==>
              m[r][c] == (if a[r][c].None? then None else Some(a[r][c].value >= b[r][c]))
  {
    seq(rows, r requires 0 <= r < rows => seq(cols, c requires 0 <= c < cols =>
      if a[r][c].None? then None else Some(a[r][c].value >= b[r][c])))
  }

  /** Cellwise `a <= b`, masked where `a` is. */
  function AtMost(a: Grid<Option<real>>, b: Grid<real>, rows: nat, cols: nat): (m: MaskedMap)
    requires IsRect(a, rows, cols) && IsRect(b, rows, cols)
    ensures IsRect(m, rows, cols)
    ensures forall r, c :: 0 <= r < rows && 0 <= c < cols ==>
              m[r][c] == (if a[r][c].None? then None else Some(a[r][c].value <= b[r][c]))
  {
    seq(rows, r requires 0 <= r < rows => seq(cols, c requires 0 <= c < cols =>
      if a[r][c].None? then None else Some(a[r][c].value <= b[r][c])))
  }

  /** Cellwise `a <= v`, masked where `a` is. */
  function AtMostValue(a: Grid<Option<real>>, v: real, rows: nat, cols: nat): (m: MaskedMap)
    requires IsRect(a, rows, cols)
    ensures IsRect(m, rows, cols)
    ensures forall r, c :: 0 <= r < rows && 0 <= c < cols ==>
              m[r][c] == (if a[r][c].None? then None else Some(a[r][c].value <= v))
  {
    seq(rows, r requires 0 <= r < rows => seq(cols, c requires 0 <= c < cols =>
      if a[r][c].None? then None else Some(a[r][c].value <= v)))
  }

  /** `np.logical_and` of masked maps: masked where either operand is. */
  function And(a: MaskedMap, b: MaskedMap, rows: nat, cols: nat): (m: MaskedMap)
    requires IsRect(a, rows, cols) && IsRect(b, rows, cols)
    ensures IsRect(m, rows, cols)
    ensures forall r, c :: 0 <= r < rows && 0 <= c < cols ==>
              m[r][c] == (if a[r][c].None? || b[r][c].None? then None else Some(a[r][c].value && b[r][c].value))
  {
    seq(rows, r requires 0 <= r < rows => seq(cols, c requires 0 <= c < cols =>
      if a[r][c].None? || b[r][c].None? then None else Some(a[r][c].value && b[r][c].value)))
  }

  /** `np.logical_not` of a masked map: the mask is kept. */
  function Negate(a: MaskedMap): (m: MaskedMap)
    ensures SameShape(m, a)
    ensures forall r, c :: 0 <= r < |a| && 0 <= c < |a[r]| ==>
              m[r][c] == (if a[r][c].None? then None else Some(!a[r][c].value))
  {
    seq(|a|, r requires 0 <= r < |a| => seq(|a[r]|, c requires 0 <= c < |a[r]| =>
      if a[r][c].None? then None else Some(!a[r][c].value)))
  }

  /** The `as_mask` switch shared by every predicate. */
  function AsMask(a: MaskedMap, asMask: bool): MaskedMap {
    if asMask then Negate(a) else a
  }

  // ---------------------------------------------------------------------------
  // The predicates

  /** `is_above_lower`: `zbest >= lower`, masked where `zbest` is. */
  function IsAboveLower(k: Confidence, asMask: bool): (m: MaskedMap)
    requires k.WellFormed()
    ensures IsRect(m, k.rows, k.cols)
    ensures forall r, c :: 0 <= r < k.rows && 0 <= c < k.cols ==>
              && (m[r][c].None? <==> k.zbest[r][c].None?)
              && (m[r][c].Some? ==> m[r][c].value == (asMask != (k.zbest[r][c].value >= k.lower[r][c])))
  {
    AsMask(AtLeast(k.zbest, k.lower, k.rows, k.cols), asMask)
  }

  /** `is_below_upper`: `zbest <= upper`, masked where `zbest` is. */
  function IsBelowUpper(k: Confidence, asMask: bool): (m: MaskedMap)
    requires k.WellFormed()
    ensures IsRect(m, k.rows, k.cols)
    ensures forall r, c :: 0 <= r < k.rows && 0 <= c < k.cols ==>
              && (m[r][c].None? <==> k.zbest[r][c].None?)
              && (m[r][c].Some? ==> m[r][c].value == (asMask != (k.zbest[r][c].value <= k.upper[r][c])))
  {
    AsMask(AtMost(k.zbest, k.upper, k.rows, k.cols), asMask)
  }

  /** `is_within`: `lower <= zbest <= upper`, masked where `zbest` is. */
  function IsWithin(k: Confidence, asMask: bool): (m: MaskedMap)
    requires k.WellFormed()
    ensures IsRect(m, k.rows, k.cols)
    ensures forall r, c :: 0 <= r < k.rows && 0 <= c < k.cols ==>
              && (m[r][c].None? <==> k.zbest[r][c].None?)
              && (m[r][c].Some? ==>
                    m[r][c].value == (asMask != (k.lower[r][c] <= k.zbest[r][c].value <= k.upper[r][c])))
  {
    AsMask(And(IsBelowUpper(k, false), IsAboveLower(k, false), k.rows, k.cols), asMask)
  }

  /** `is_confident`: `upper - lower <= interval`, masked where the difference is. */
  function IsConfident(k: Confidence, asMask: bool): (m: MaskedMap)
    requires k.WellFormed()
    ensures IsRect(m, k.rows, k.cols)
    ensures forall r, c :: 0 <= r < k.rows && 0 <= c < k.cols ==>
              && (m[r][c].None? <==> k.difference[r][c].None?)
              && (m[r][c].Some? ==> m[r][c].value == (asMask != (k.difference[r][c].value <= k.interval)))
  {
    AsMask(AtMostValue(k.difference, k.interval, k.rows, k.cols), asMask)
  }

  /** `is_within_and_confident`: both, masked where either operand is. */
  function IsWithinAndConfident(k: Confidence, asMask: bool): (m: MaskedMap)
    requires k.WellFormed()
    ensures IsRect(m, k.rows, k.cols)
    ensures forall r, c :: 0 <= r < k.rows && 0 <= c < k.cols ==>
              && (m[r][c].None? <==> k.zbest[r][c].None? || k.difference[r][c].None?)
              && (m[r][c].Some? ==>
                    m[r][c].value == (asMask != (k.lower[r][c] <= k.zbest[r][c].value <= k.upper[r][c] &&
                                                 k.difference[r][c].value <= k.interval)))
  {
    AsMask(And(IsWithin(k, false), IsConfident(k, false), k.rows, k.cols), asMask)
  }

  /** The five predicates by name. */
  datatype Predicate = AboveLower | BelowUpper | Within | Confident | WithinAndConfident

  function Evaluate(k: Confidence, pred: Predicate, asMask: bool): (m: MaskedMap)
    requires k.WellFormed()
    ensures IsRect(m, k.rows, k.cols)
  {
    match pred
    case AboveLower => IsAboveLower(k, asMask)
    case BelowUpper => IsBelowUpper(k, asMask)
    case Within => IsWithin(k, asMask)
    case Confident => IsConfident(k, asMask)
    case WithinAndConfident => IsWithinAndConfident(k, asMask)
  }

  /**
   * What each map says at an unmasked cell: the best redshift lies between
   * the bounds and the bounds are at most `interval` apart, each half and
   * the conjunction as `confidence_galaxy.py` does; `asMask` flips the answer and keeps
   * the mask.
   */
  lemma PredicateMeaning(k: Confidence, pred: Predicate, asMask: bool, r: nat, c: nat)
    requires k.WellFormed() && r < k.rows && c < k.cols
    ensures IsRect(Evaluate(k, pred, asMask), k.rows, k.cols)
    ensures var cell := Evaluate(k, pred, asMask)[r][c];
            var z, lo, hi, d := k.zbest[r][c], k.lower[r][c], k.upper[r][c], k.difference[r][c];
            var masked := match pred
              case Confident => d.None?
              case WithinAndConfident => z.None? || d.None?
              case _ => z.None?;
            && (cell.None? <==> masked)
            && (!masked ==> cell.value == (asMask != match pred
                 case AboveLower => z.value >= lo
                 case BelowUpper => z.value <= hi
                 case Within => lo <= z.value <= hi
                 case Confident => d.value <= k.interval
                 case WithinAndConfident => lo <= z.value <= hi && d.value <= k.interval))
  {
  }

  /** `as_mask=True` is the negation of `as_mask=False`, and negating twice changes nothing. */
  lemma AsMaskIsNegation(k: Confidence, pred: Predicate)
    requires k.WellFormed()
    ensures Evaluate(k, pred, true) == Negate(Evaluate(k, pred, false))
    ensures Negate(Evaluate(k, pred, true)) == Evaluate(k, pred, false)
  {
    var a := Evaluate(k, pred, false);
    var n := Negate(Negate(a));
    assert IsRect(a, k.rows, k.cols);
    assert forall r :: 0 <= r < |a| ==> n[r] == a[r];
  }

  // ---------------------------------------------------------------------------
  // ConfGalaxy

  datatype ConfGalaxy = ConfGalaxy(phot: PhotGalaxy, confidence: Confidence)

  /**
   * `ConfGalaxy.__init__`: build the fitted galaxy, then its confidence maps
   * from the reshaped masked `zbest`, the flat no-fit mask and the flat
   * confidence bounds. The fitted galaxy must build, and `zbest` and both
   * bounds must have one entry per pixel.
   */
  function MakeConfGalaxy(base: Galaxy, eazyIds: seq<int>, zgrid: seq<real>,
                          zbest: seq<real>, chi2: seq<seq<real>>,
                          lower: seq<real>, upper: seq<real>, values: seq<real>,
                          interval: real, noFit: real): (r: Result<ConfGalaxy>)
    requires IsRect(chi2, |chi2|, |zgrid|)
    ensures r.Err? <==> (|chi2| != |zbest| && |zgrid| != 0 && !(|zbest| == 1 && |zgrid| == 1)) ||
                        |zbest| != base.Size() || |lower| != base.Size() || |upper| != base.Size()
    ensures r.Err? ==> r.error == ShapeMismatch
    ensures r.Ok? ==> MakePhot(base, eazyIds, zgrid, zbest, chi2, noFit) == Ok(r.value.phot)
    ensures r.Ok? ==> r.value.confidence.WellFormed()
    ensures r.Ok? ==> r.value.confidence.values == values && r.value.confidence.interval == interval
    ensures r.Ok? ==> r.value.confidence.rows == base.Rows() && r.value.confidence.cols == base.Cols()
    ensures r.Ok? ==> Flatten(r.value.confidence.zbest) == r.value.phot.zbest
    ensures r.Ok? ==> Flatten(r.value.confidence.lower) == lower && Flatten(r.value.confidence.upper) == upper
    ensures r.Ok? ==>
              Flatten(r.value.confidence.difference) ==
              MaskedDifference(seq(|zbest|, i requires 0 <= i < |zbest| => zbest[i] == noFit), lower, upper)
  {
    var p :- MakePhot(base, eazyIds, zgrid, zbest, chi2, noFit);
    var zs :- ZbestReshaped(p);
    var noFitMask := seq(|zbest|, i requires 0 <= i < |zbest| => zbest[i] == noFit);
    var k :- MakeConfidence(zs, base.Rows(), base.Cols(), noFitMask, lower, upper, values, interval);
    Ok(ConfGalaxy(p, k))
  }

  /**
   * Every confidence map of a constructed galaxy, in either polarity, is
   * masked at image pixel `(r, c)` exactly when the fit of flat pixel
   * `r*cols + c` failed.
   */
  lemma MaskedExactlyAtNoFit(base: Galaxy, eazyIds: seq<int>, zgrid: seq<real>,
                             zbest: seq<real>, chi2: seq<seq<real>>,
                             lower: seq<real>, upper: seq<real>, values: seq<real>,
                             interval: real, noFit: real, g: ConfGalaxy, pred: Predicate, asMask: bool, r: nat, c: nat)
    requires IsRect(chi2, |chi2|, |zgrid|)
    requires MakeConfGalaxy(base, eazyIds, zgrid, zbest, chi2, lower, upper, values, interval, noFit) == Ok(g)
    requires r < base.Rows() && c < base.Cols()
    ensures g.confidence.WellFormed() && r < g.confidence.rows && c < g.confidence.cols
    ensures 0 <= r * base.Cols() + c < |zbest| &&
            (Evaluate(g.confidence, pred, asMask)[r][c].None? <==> zbest[r * base.Cols() + c] == noFit)
  {
    var k := g.confidence;
    var i := r * base.Cols() + c;
    var nf := seq(|zbest|, j requires 0 <= j < |zbest| => zbest[j] == noFit);
    FlattenIndex(k.zbest, k.rows, k.cols, r, c);
    FlattenIndex(k.difference, k.rows, k.cols, r, c);
    assert k.zbest[r][c] == g.phot.zbest[i];
    assert k.zbest[r][c].None? <==> zbest[i] == noFit by {
      assert g.phot.NoFit(i) <==> zbest[i] == noFit;
    }
    assert k.difference[r][c].None? <==> zbest[i] == noFit by {
      assert k.difference[r][c] == MaskedDifference(nf, lower, upper)[i];
    }
    EvaluateMasked(k, pred, asMask, r, c);
  }

  /** Where a map is masked: where `zbest` is, where the difference is, or either. */
  lemma EvaluateMasked(k: Confidence, pred: Predicate, asMask: bool, r: nat, c: nat)
    requires k.WellFormed() && r < k.rows && c < k.cols
    ensures IsRect(Evaluate(k, pred, asMask), k.rows, k.cols)
    ensures Evaluate(k, pred, asMask)[r][c].None? <==> match pred
              case Confident => k.difference[r][c].None?
              case WithinAndConfident => k.zbest[r][c].None? || k.difference[r][c].None?
              case _ => k.zbest[r][c].None?
  {
  }
}

=== FILE: cutout.dfy ===
/**
 * `extract_galaxy` (spare/galaxy.py and its copy in spare/funcs.py): cuts a
 * bordered rectangular window out of the full-frame rasters for one catalog
 * entry and builds the galaxy from it.
 */
module Cutout {
  import opened Wrappers
  import opened Grids
  import opened Galaxies

  /** One row of the photometric catalog's SIZE table. */
  datatype SizeRow = SizeRow(x: real, y: real, xmin: int, xmax: int, ymin: int, ymax: int)

  /** The full-frame survey: per-filter rasters, segmap and size catalog keyed by survey id. */
  datatype Survey = Survey(height: nat, width: nat, frames: seq<Band>, segmap: Grid<int>, sizeCat: map<int, SizeRow>)

  /** Every full-frame raster has the segmap's shape. */
  predicate FramesOk(s: Survey) {
    && IsRect(s.segmap, s.height, s.width)
    && BandsShaped(s.frames, s.height, s.width)
    && DistinctFilters(s.frames)
  }

  /** Slice bounds `[y0, y1) x [x0, x1)`, upper bounds exclusive. */
  datatype Window = Window(y0: int, y1: int, x0: int, x1: int)

  /** The catalog box grown by `border` on every side; the `+ 1` keeps `ymax`/`xmax` inside. */
  function BorderedWindow(row: SizeRow, border: int): Window {
    Window(row.ymin - border, row.ymax + border + 1, row.xmin - border, row.xmax + border + 1)
  }

  /** The window lies inside the frame (no numpy negative-index wrap-around). */
  predicate InFrame(w: Window, s: Survey) {
    0 <= w.y0 <= w.y1 <= s.height && 0 <= w.x0 <= w.x1 <= s.width
  }

  /**
   * `g` is the cutout of survey entry `id` with `border`: the catalog identity
   * and un-bordered box, centroid in `(y, x)` order, shape
   * `(ymax - ymin + 1 + 2 border, xmax - xmin + 1 + 2 border)`, and pixel
   * `(r, c)` of every raster equal to full-frame pixel `(ymin - border + r, xmin - border + c)`.
   */
  ghost predicate IsCutout(g: Galaxy, s: Survey, id: int, border: int) {
    && FramesOk(s)
    && id in s.sizeCat
    && var row := s.sizeCat[id];
       var h := row.ymax - row.ymin + 1 + 2 * border;
       var w := row.xmax - row.xmin + 1 + 2 * border;
       var y0 := row.ymin - border;
       var x0 := row.xmin - border;
       && 0 <= h && 0 <= w && 0 <= y0 && y0 + h <= s.height && 0 <= x0 && x0 + w <= s.width
       && g.id == id
       && g.centroid == (row.y, row.x)
       && g.bbox == BBox((row.ymin, row.ymax), (row.xmin, row.xmax))
       && g.WellFormed()
       && g.Shape() == (h, w)
       && IsRect(g.segmap, h, w)
       && g.Size() == h * w
       && g.Filters() == FilterNames(s.frames)
       && (forall r, c :: 0 <= r < h && 0 <= c < w ==> g.segmap[r][c] == s.segmap[y0 + r][x0 + c])
       && (forall i, r, c :: 0 <= i < |s.frames| && 0 <= r < h && 0 <= c < w ==>
             && g.bands[i].value[r][c] == s.frames[i].value[y0 + r][x0 + c]
             && g.bands[i].error[r][c] == s.frames[i].error[y0 + r][x0 + c])
  }

  function CropBand(b: Band, s: Survey, w: Window): (b': Band)
    requires IsRect(b.value, s.height, s.width) && IsRect(b.error, s.height, s.width)
    requires InFrame(w, s)
    ensures b'.filter == b.filter
    ensures IsRect(b'.value, w.y1 - w.y0, w.x1 - w.x0) && IsRect(b'.error, w.y1 - w.y0, w.x1 - w.x0)
  {
    Band(b.filter,
         Crop(b.value, s.height, s.width, w.y0, w.y1, w.x0, w.x1),
         Crop(b.error, s.height, s.width, w.y0, w.y1, w.x0, w.x1))
  }

  /**
   * The galaxy built from the window of catalog entry `id`: the catalog id,
   * the `(y, x)` centroid, the un-bordered box, and the window's shape.
   */
  function CutGalaxy(id: int, s: Survey, border: int): (g: Galaxy)
    requires FramesOk(s)
    requires id in s.sizeCat && InFrame(BorderedWindow(s.sizeCat[id], border), s)
    ensures var row := s.sizeCat[id];
            && g.id == id && g.centroid == (row.y, row.x)
            && g.bbox == BBox((row.ymin, row.ymax), (row.xmin, row.xmax))
            && g.Shape() == (row.ymax - row.ymin + 1 + 2 * border, row.xmax - row.xmin + 1 + 2 * border)
  {
    var row := s.sizeCat[id];
    var w := BorderedWindow(row, border);
    var bands := seq(|s.frames|, i requires 0 <= i < |s.frames| => CropBand(s.frames[i], s, w));
    var segmap := Crop(s.segmap, s.height, s.width, w.y0, w.y1, w.x0, w.x1);
    Galaxy(id, (row.y, row.x), BBox((row.ymin, row.ymax), (row.xmin, row.xmax)), bands, segmap, w.x1 - w.x0)
  }

  lemma CutGalaxyIsCutout(id: int, s: Survey, border: int)
    requires FramesOk(s)
    requires id in s.sizeCat && InFrame(BorderedWindow(s.sizeCat[id], border), s)
    ensures IsCutout(CutGalaxy(id, s, border), s, id, border)
  {
    CutGalaxyShape(id, s, border);
    CutGalaxyPixels(id, s, border);
  }

  /** The cut galaxy is well formed, with the window's shape and the survey's filters. */
  lemma CutGalaxyShape(id: int, s: Survey, border: int)
    requires FramesOk(s)
    requires id in s.sizeCat && InFrame(BorderedWindow(s.sizeCat[id], border), s)
    ensures var w := BorderedWindow(s.sizeCat[id], border);
            var g := CutGalaxy(id, s, border);
            && g.WellFormed()
            && g.Shape() == (w.y1 - w.y0, w.x1 - w.x0)
            && IsRect(g.segmap, w.y1 - w.y0, w.x1 - w.x0)
            && g.Size() == (w.y1 - w.y0) * (w.x1 - w.x0)
            && g.Filters() == FilterNames(s.frames)
  {
    var w := BorderedWindow(s.sizeCat[id], border);
    var g := CutGalaxy(id, s, border);
    var h, wd := w.y1 - w.y0, w.x1 - w.x0;
    assert IsRect(g.segmap, h, wd);
    assert g.Filters() == FilterNames(s.frames);
    assert BandsShaped(g.bands, h, wd);
    assert DistinctFilters(g.bands) by {
      assert forall i :: 0 <= i < |g.bands| ==> g.bands[i].filter == s.frames[i].filter;
    }
    assert g.Rows() == h && g.Cols() == wd;
  }

  /** Every pixel of every cut raster is the full-frame pixel shifted by the window's corner. */
  lemma CutGalaxyPixels(id: int, s: Survey, border: int)
    requires FramesOk(s)
    requires id in s.sizeCat && InFrame(BorderedWindow(s.sizeCat[id], border), s)
    ensures var w := BorderedWindow(s.sizeCat[id], border);
            var g := CutGalaxy(id, s, border);
            && |g.bands| == |s.frames|
            && (forall r, c :: 0 <= r < w.y1 - w.y0 && 0 <= c < w.x1 - w.x0 ==>
                  g.segmap[r][c] == s.segmap[w.y0 + r][w.x0 + c])
            && (forall i, r, c :: 0 <= i < |s.frames| && 0 <= r < w.y1 - w.y0 && 0 <= c < w.x1 - w.x0 ==>
                  && g.bands[i].value[r][c] == s.frames[i].value[w.y0 + r][w.x0 + c]
                  && g.bands[i].error[r][c] == s.frames[i].error[w.y0 + r][w.x0 + c])
  {
    var w := BorderedWindow(s.sizeCat[id], border);
    var g := CutGalaxy(id, s, border);
    forall i, r, c | 0 <= i < |s.frames| && 0 <= r < w.y1 - w.y0 && 0 <= c < w.x1 - w.x0
      ensures g.bands[i].value[r][c] == s.frames[i].value[w.y0 + r][w.x0 + c]
      ensures g.bands[i].error[r][c] == s.frames[i].error[w.y0 + r][w.x0 + c]
    {
      assert g.bands[i] == CropBand(s.frames[i], s, w);
    }
  }

  /**
   * `extract_galaxy(id, data, border)`: an id missing from the size catalog
   * fails; otherwise every filter's value and error raster and the segmap are
   * cut with one window.
   */
  function ExtractGalaxy(id: int, s: Survey, border: int): (r: Result<Galaxy>)
    requires FramesOk(s)
    requires id in s.sizeCat ==> InFrame(BorderedWindow(s.sizeCat[id], border), s)
    ensures r.Err? <==> id !in s.sizeCat
    ensures r.Err? ==> r.error == NotFound
    ensures r.Ok? ==> IsCutout(r.value, s, id, border)
  {
    if id !in s.sizeCat then Err(NotFound)
    else
      CutGalaxyIsCutout(id, s, border);
      Ok(CutGalaxy(id, s, border))
  }

  /** Extracting every id of a selection, in order; the first missing id fails the whole selection. */
  function ExtractAll(ids: seq<int>, s: Survey, border: int): (r: Result<seq<Galaxy>>)
    requires FramesOk(s)
    requires forall id :: id in ids && id in s.sizeCat ==> InFrame(BorderedWindow(s.sizeCat[id], border), s)
    ensures r.Err? <==> exists id :: id in ids && id !in s.sizeCat
    ensures r.Err? ==> r.error == NotFound
    ensures r.Ok? ==> |r.value| == |ids| && forall k :: 0 <= k < |ids| ==> IsCutout(r.value[k], s, ids[k], border)
    decreases |ids|
  {
    if |ids| == 0 then Ok([])
    else
      match ExtractGalaxy(ids[0], s, border)
      case Err(e) => Err(e)
      case Ok(g) =>
        match ExtractAll(ids[1..], s, border)
        case Err(e) =>
          assert exists id :: id in ids[1..] && id !in s.sizeCat;
          Err(e)
        case Ok(rest) => Ok([g] + rest)
  }
}

=== FILE: decimal.dfy ===
/**
 * Python's `f'{n}'` rendering of integers, used to build run-folder and
 * galaxy-folder names, together with its inverse.
 */
module Decimal {

  predicate IsDigit(ch: char) {
    '0' <= ch <= '9'
  }

  function Digit(d: nat): (ch: char)
    requires d < 10
    ensures IsDigit(ch)
  {
    (('0' as int) + d) as char
  }

  function DigitValue(ch: char): int {
    (ch as int) - ('0' as int)
  }

  /** Decimal digits of `n`, most significant first, without leading zeros. */
  function NatToString(n: nat): (s: string)
    ensures |s| >= 1
    ensures forall i :: 0 <= i < |s| ==> IsDigit(s[i])
  {
    if n < 10 then [Digit(n)] else NatToString(n / 10) + [Digit(n % 10)]
  }

  /** `f'{i}'` for an arbitrary Python int. */
  function IntToString(i: int): string {
    if i < 0 then "-" + NatToString(-i) else NatToString(i)
  }

  /** Reads a string of decimal digits back as a number. */
  function ParseDigits(s: string): int {
    if |s| == 0 then 0 else ParseDigits(s[..|s| - 1]) * 10 + DigitValue(s[|s| - 1])
  }

  /** Parsing the rendering of `n` gives `n` back. */
  lemma {:induction false} ParseRender(n: nat)
    ensures ParseDigits(NatToString(n)) == n
  {
    var s := NatToString(n);
    if n >= 10 {
      ParseRender(n / 10);
      assert s[..|s| - 1] == NatToString(n / 10);
    }
  }

  /** Distinct numbers render to distinct strings. */
  lemma NatToStringInjective(a: nat, b: nat)
    requires NatToString(a) == NatToString(b)
    ensures a == b
  {
    ParseRender(a);
    ParseRender(b);
  }

  /**
   * A rendered number followed by `'_'` is recovered from the concatenation:
   * the digits cannot contain the separator.
   */
  lemma {:induction false} SeparatedNumbers(a: nat, x: string, b: nat, y: string)
    requires NatToString(a) + "_" + x == NatToString(b) + "_" + y
    ensures a == b
  {
    var da, db := NatToString(a), NatToString(b);
    var s := da + "_" + x;
    assert forall i :: 0 <= i < |da| ==> IsDigit(s[i]);
    assert forall i :: 0 <= i < |db| ==> IsDigit(s[i]);
    assert s[|da|] == '_' && s[|db|] == '_';
    assert da == s[..|da|];
    assert db == s[..|db|];
    NatToStringInjective(a, b);
  }
}

=== FILE: galaxy.dfy ===
/**
 * The galaxy (object) of spare/galaxy/galaxy.py and its legacy twin
 * spare/galaxy.py: identity, geometry, per-filter rasters, the row-major
 * pixel-id grid, the sentinel-replacement transform, the identity key used by
 * `__eq__`, and the info record persisted and reloaded by the object store.
 */
module Galaxies {
  import opened Grids

  /** One filter of a galaxy: its name with its value (flux) and error rasters. */
  datatype Band = Band(filter: string, value: Grid<real>, error: Grid<real>)

  /**
   * `galaxy.py`'s bbox `((ymin, ymax), (xmin, xmax))`: `y` is `bbox[0]`, `x` is
   * `bbox[1]`; the catalog box before any border, bounds inclusive.
   */
  datatype BBox = BBox(y: (int, int), x: (int, int))

  /** Which rasters `replace_unused_with_constant` scans for the sentinel. */
  datatype Using = Values | Errors

  /** The names of a sequence of bands, in dict order. */
  function FilterNames(bands: seq<Band>): (names: seq<string>)
    ensures |names| == |bands|
    ensures forall i :: 0 <= i < |bands| ==> names[i] == bands[i].filter
  {
    seq(|bands|, i requires 0 <= i < |bands| => bands[i].filter)
  }

  /** Dict keys are unique. */
  predicate DistinctFilters(bands: seq<Band>) {
    forall i, j :: 0 <= i < j < |bands| ==> bands[i].filter != bands[j].filter
  }

  /** Every band holds a value and an error raster of shape `(rows, cols)`. */
  predicate BandsShaped(bands: seq<Band>, rows: nat, cols: nat) {
    forall i :: 0 <= i < |bands| ==> IsRect(bands[i].value, rows, cols) && IsRect(bands[i].error, rows, cols)
  }

  /**
   * A galaxy cut from the survey. `width` is the segmap's `shape[1]`, which a
   * numpy array keeps even when it has no rows.
   */
  datatype Galaxy = Galaxy(id: int, centroid: (real, real), bbox: BBox, bands: seq<Band>, segmap: Grid<int>, width: nat)
  {
    /** `shape[0]`, taken from the segmap. */
    function Rows(): nat { |segmap| }

    /** `shape[1]`, taken from the segmap. */
    function Cols(): nat { width }

    function Shape(): (nat, nat) { (Rows(), Cols()) }

    /** `segmap.size`. */
    function Size(): nat { Rows() * Cols() }

    function Ymin(): int { bbox.y.0 }
    function Ymax(): int { bbox.y.1 }
    function Xmin(): int { bbox.x.0 }
    function Xmax(): int { bbox.x.1 }

    function Filters(): seq<string> { FilterNames(bands) }

    /** The segmap is rectangular, every raster shares its shape, and filter names are unique. */
    predicate WellFormed() {
      && IsRect(segmap, Rows(), Cols())
      && BandsShaped(bands, Rows(), Cols())
      && DistinctFilters(bands)
    }

    /** `pixel_ids_flat = arange(size)`. */
    function PixelIdsFlat(): seq<int> {
      Range(Size())
    }

    /** `pixel_ids = pixel_ids_flat.reshape(shape)`: ids increase first along x. */
    function PixelIds(): (ids: Grid<int>)
      ensures IsRect(ids, Rows(), Cols())
      ensures forall r, c :: 0 <= r < Rows() && 0 <= c < Cols() ==> ids[r][c] == r * Cols() + c
      ensures Flatten(ids) == PixelIdsFlat()
    {
      RangeReshape(Rows(), Cols());
      Reshape(PixelIdsFlat(), Rows(), Cols())
    }
  }

  /** The reshaped `arange` holds `r * cols + c` at `(r, c)`. */
  lemma RangeReshape(rows: nat, cols: nat)
    ensures forall r, c :: 0 <= r < rows && 0 <= c < cols ==> Reshape(Range(rows * cols), rows, cols)[r][c] == r * cols + c
    ensures Flatten(Reshape(Range(rows * cols), rows, cols)) == Range(rows * cols)
  {
    forall r, c | 0 <= r < rows && 0 <= c < cols
      ensures Reshape(Range(rows * cols), rows, cols)[r][c] == r * cols + c
    {
      ReshapeIndex(Range(rows * cols), rows, cols, r, c);
    }
    FlattenReshape(Range(rows * cols), rows, cols);
  }

  // ---------------------------------------------------------------------------
  // Sentinel replacement

  /** The raster of a band that the replacement scans. */
  function Scanned(b: Band, using: Using): Grid<real> {
    if using == Values then b.value else b.error
  }

  /** Replacement for one filter: the test is made once, on the raster before replacement. */
  function ReplaceBand(b: Band, unused: real, replace: real, using: Using): Band
    requires SameShape(b.value, b.error)
  {
    var hit := EqualsMask(Scanned(b, using), unused);
    Band(b.filter, Where(hit, replace, b.value), Where(hit, replace, b.error))
  }

  /**
   * `replace_unused_with_constant`: wherever the scanned raster of a filter
   * equals `unused`, both that filter's value and error pixel become `replace`;
   * every other pixel, and everything that is not a raster, is unchanged.
   */
  function ReplaceUnused(g: Galaxy, unused: real, replace: real, using: Using): (g': Galaxy)
    requires g.WellFormed()
    ensures g'.WellFormed()
    ensures g'.id == g.id && g'.centroid == g.centroid && g'.bbox == g.bbox && g'.segmap == g.segmap && g'.width == g.width
    ensures |g'.bands| == |g.bands| && g'.Filters() == g.Filters()
    ensures forall i, r, c :: 0 <= i < |g.bands| && 0 <= r < g.Rows() && 0 <= c < g.Cols() ==>
              var hit := Scanned(g.bands[i], using)[r][c] == unused;
              && g'.bands[i].value[r][c] == (if hit then replace else g.bands[i].value[r][c])
              && g'.bands[i].error[r][c] == (if hit then replace else g.bands[i].error[r][c])
  {
    var bands := seq(|g.bands|, i requires 0 <= i < |g.bands| => ReplaceBand(g.bands[i], unused, replace, using));
    assert FilterNames(bands) == g.Filters();
    g.(bands := bands)
  }

  /** Two rasters of one shape that agree on every cell are equal. */
  lemma GridExt<T>(a: Grid<T>, b: Grid<T>)
    requires SameShape(a, b)
    requires forall r, c :: 0 <= r < |a| && 0 <= c < |a[r]| ==> a[r][c] == b[r][c]
    ensures a == b
  {
    forall r | 0 <= r < |a|
      ensures a[r] == b[r]
    {
    }
  }

  /** Applying the same replacement twice gives the same galaxy as applying it once. */
  lemma {:induction false} ReplaceIdempotent(g: Galaxy, unused: real, replace: real, using: Using)
    requires g.WellFormed()
    ensures ReplaceUnused(ReplaceUnused(g, unused, replace, using), unused, replace, using)
         == ReplaceUnused(g, unused, replace, using)
  {
    var g1 := ReplaceUnused(g, unused, replace, using);
    var g2 := ReplaceUnused(g1, unused, replace, using);
    forall i | 0 <= i < |g.bands|
      ensures g2.bands[i] == g1.bands[i]
    {
      GridExt(g2.bands[i].value, g1.bands[i].value);
      GridExt(g2.bands[i].error, g1.bands[i].error);
    }
  }

  // ---------------------------------------------------------------------------
  // Identity

  /** The tuple `(id, *centroid, shape, *values.keys())` compared by `__eq__`. */
  datatype Key = Key(id: int, centroid: (real, real), shape: (nat, nat), filters: seq<string>)

  function KeyOf(g: Galaxy): Key {
    Key(g.id, g.centroid, g.Shape(), g.Filters())
  }

  /** `__eq__`: galaxies are equal when id, centroid, shape and filter names agree. */
  predicate Equal(a: Galaxy, b: Galaxy): (eq: bool)
    ensures eq <==> a.id == b.id && a.centroid == b.centroid && a.Shape() == b.Shape() && a.Filters() == b.Filters()
  {
    KeyOf(a) == KeyOf(b)
  }

  /** Pixel data takes no part in equality: a replaced galaxy equals the original. */
  lemma ReplaceKeepsIdentity(g: Galaxy, unused: real, replace: real, using: Using)
    requires g.WellFormed()
    ensures Equal(g, ReplaceUnused(g, unused, replace, using))
  {
  }

  // ---------------------------------------------------------------------------
  // Persistence (info record and reload)

  /** The JSON info record written by `save_data`. */
  datatype Info = Info(id: int, centroid: (real, real), xmin: int, xmax: int, ymin: int, ymax: int, shape: (nat, nat))

  /** `info_dict`. */
  function InfoDict(g: Galaxy): (info: Info)
    ensures info.id == g.id && info.centroid == g.centroid && info.shape == g.Shape()
    ensures (info.ymin, info.ymax) == g.bbox.y && (info.xmin, info.xmax) == g.bbox.x
  {
    Info(g.id, g.centroid, g.Xmin(), g.Xmax(), g.Ymin(), g.Ymax(), g.Shape())
  }

  /** `bbox = ((info['ymin'], info['ymax']), (info['xmin'], info['xmax']))`. */
  function RebuildBBox(info: Info): (b: BBox)
    ensures b.y.0 == info.ymin && b.y.1 == info.ymax && b.x.0 == info.xmin && b.x.1 == info.xmax
  {
    BBox((info.ymin, info.ymax), (info.xmin, info.xmax))
  }

  /**
   * What `save_data` writes into a galaxy folder; `segmapWidth` is the
   * second axis that `np.save` records with the segmap.
   */
  datatype SavedGalaxy = SavedGalaxy(info: Info, bands: seq<Band>, segmap: Grid<int>, segmapWidth: nat)

  function Save(g: Galaxy): (s: SavedGalaxy)
    ensures s.info == InfoDict(g) && s.bands == g.bands
    ensures s.segmap == g.segmap && s.segmapWidth == g.Cols()
  {
    SavedGalaxy(InfoDict(g), g.bands, g.segmap, g.width)
  }

  /** `load_galaxy_from_folder`: shape and pixel ids are regenerated from the segmap. */
  function Load(s: SavedGalaxy): (g: Galaxy)
    ensures g.id == s.info.id && g.centroid == s.info.centroid
    ensures g.bbox.y == (s.info.ymin, s.info.ymax) && g.bbox.x == (s.info.xmin, s.info.xmax)
    ensures g.bands == s.bands && g.Shape() == (|s.segmap|, s.segmapWidth)
  {
    Galaxy(s.info.id, s.info.centroid, RebuildBBox(s.info), s.bands, s.segmap, s.segmapWidth)
  }

  /** Reloading a saved galaxy restores it exactly, including the bounding box and pixel ids. */
  lemma SaveLoad(g: Galaxy)
    ensures Load(Save(g)) == g
    ensures RebuildBBox(InfoDict(g)) == g.bbox
    ensures Load(Save(g)).PixelIds() == g.PixelIds()
    ensures Save(g).info.shape == Load(Save(g)).Shape()
  {
  }
}

=== FILE: grids.dfy ===
/**
 * Two-dimensional rasters as sequences of rows, and the numpy operations the
 * pipeline applies to them: C-order `flatten`, `reshape`, rectangular slicing
 * and `np.where`. Every pixel-to-row mapping of the pipeline rests on the
 * row-major lemmas proved here.
 */
module Grids {

  /** A 2-D array stored row by row: `g[r][c]` is row `r`, column `c`. */
  type Grid<T> = seq<seq<T>>

  /** `g` has numpy shape `(rows, cols)`. */
  predicate IsRect<T>(g: Grid<T>, rows: nat, cols: nat) {
    |g| == rows && forall r :: 0 <= r < |g| ==> |g[r]| == cols
  }

  /** Two rasters have the same number of rows and equally long rows. */
  predicate SameShape<A, B>(a: Grid<A>, b: Grid<B>) {
    |a| == |b| && forall r :: 0 <= r < |a| ==> |a[r]| == |b[r]|
  }

  /** numpy `arange(n)`. */
  function Range(n: nat): (ids: seq<int>)
    ensures |ids| == n
    ensures forall k :: 0 <= k < n ==> ids[k] == k
  {
    seq(n, k => k)
  }

  /** numpy `flatten()` (C order): the rows concatenated top to bottom. */
  function Flatten<T>(g: Grid<T>): seq<T>
  {
    if |g| == 0 then [] else g[0] + Flatten(g[1..])
  }

  lemma MulStep(r: int, cols: int)
    ensures r * cols == (r - 1) * cols + cols
  {
  }

  /** numpy `reshape((rows, cols))` of a flat sequence (C order). */
  function Reshape<T>(s: seq<T>, rows: nat, cols: nat): (g: Grid<T>)
    requires |s| == rows * cols
    ensures IsRect(g, rows, cols)
    decreases rows
  {
    if rows == 0 then []
    else
      MulStep(rows, cols);
      [s[..cols]] + Reshape(s[cols..], rows - 1, cols)
  }

  /** The flattened raster has one cell per pixel. */
  lemma {:induction false} FlattenLength<T>(g: Grid<T>, rows: nat, cols: nat)
    requires IsRect(g, rows, cols)
    ensures |Flatten(g)| == rows * cols
    decreases rows
  {
    if rows > 0 {
      FlattenLength(g[1..], rows - 1, cols);
      MulStep(rows, cols);
    }
  }

  /** Row-major order: pixel `(r, c)` sits at flat position `r * cols + c`. */
  lemma {:induction false} FlattenIndex<T>(g: Grid<T>, rows: nat, cols: nat, r: int, c: int)
    requires IsRect(g, rows, cols)
    requires 0 <= r < rows && 0 <= c < cols
    ensures |Flatten(g)| == rows * cols
    ensures 0 <= r * cols + c < rows * cols
    ensures Flatten(g)[r * cols + c] == g[r][c]
    decreases rows
  {
    FlattenLength(g, rows, cols);
    if r > 0 {
      FlattenIndex(g[1..], rows - 1, cols, r - 1, c);
      MulStep(r, cols);
      MulStep(rows, cols);
    }
  }

  /** Reading a reshaped sequence at `(r, c)` reads flat position `r * cols + c`. */
  lemma {:induction false} ReshapeIndex<T>(s: seq<T>, rows: nat, cols: nat, r: int, c: int)
    requires |s| == rows * cols
    requires 0 <= r < rows && 0 <= c < cols
    ensures 0 <= r * cols + c < |s|
    ensures Reshape(s, rows, cols)[r][c] == s[r * cols + c]
    decreases rows
  {
    MulStep(rows, cols);
    if r > 0 {
      ReshapeIndex(s[cols..], rows - 1, cols, r - 1, c);
      MulStep(r, cols);
    }
  }

  /** Flattening undoes reshaping. */
  lemma {:induction false} FlattenReshape<T>(s: seq<T>, rows: nat, cols: nat)
    requires |s| == rows * cols
    ensures Flatten(Reshape(s, rows, cols)) == s
    decreases rows
  {
    if rows > 0 {
      MulStep(rows, cols);
      var g := Reshape(s, rows, cols);
      assert g[1..] == Reshape(s[cols..], rows - 1, cols);
      FlattenReshape(s[cols..], rows - 1, cols);
      assert s == s[..cols] + s[cols..];
    }
  }

  /** Reshaping the flattened raster to its own shape gives the raster back. */
  lemma {:induction false} ReshapeFlatten<T>(g: Grid<T>, rows: nat, cols: nat)
    requires IsRect(g, rows, cols)
    ensures |Flatten(g)| == rows * cols
    ensures Reshape(Flatten(g), rows, cols) == g
    decreases rows
  {
    FlattenLength(g, rows, cols);
    if rows > 0 {
      FlattenLength(g[1..], rows - 1, cols);
      var f := Flatten(g);
      assert f[..cols] == g[0];
      assert f[cols..] == Flatten(g[1..]);
      ReshapeFlatten(g[1..], rows - 1, cols);
      assert g == [g[0]] + g[1..];
    }
  }

  /** numpy basic slicing `g[y0:y1, x0:x1]` of an in-bounds window. */
  function Crop<T>(g: Grid<T>, rows: nat, cols: nat, y0: int, y1: int, x0: int, x1: int): (w: Grid<T>)
    requires IsRect(g, rows, cols)
    requires 0 <= y0 <= y1 <= rows && 0 <= x0 <= x1 <= cols
    ensures IsRect(w, y1 - y0, x1 - x0)
    ensures forall r, c :: 0 <= r < y1 - y0 && 0 <= c < x1 - x0 ==> w[r][c] == g[y0 + r][x0 + c]
  {
    seq(y1 - y0, r requires 0 <= r < y1 - y0 => g[y0 + r][x0..x1])
  }

  /** The boolean raster `g == v`. */
  function EqualsMask<T(==)>(g: Grid<T>, v: T): (m: Grid<bool>)
    ensures SameShape(m, g)
    ensures forall r, c :: 0 <= r < |g| && 0 <= c < |g[r]| ==> (m[r][c] <==> g[r][c] == v)
  {
    seq(|g|, r requires 0 <= r < |g| => seq(|g[r]|, c requires 0 <= c < |g[r]| => g[r][c] == v))
  }

  /** numpy `where(cond, x, g)` for a scalar `x`. */
  function Where<T>(cond: Grid<bool>, x: T, g: Grid<T>): (w: Grid<T>)
    requires SameShape(cond, g)
    ensures SameShape(w, g)
    ensures forall r, c :: 0 <= r < |g| && 0 <= c < |g[r]| ==> w[r][c] == (if cond[r][c] then x else g[r][c])
  {
    seq(|g|, r requires 0 <= r < |g| => seq(|g[r]|, c requires 0 <= c < |g[r]| => if cond[r][c] then x else g[r][c]))
  }
}

=== FILE: legacy_catalog.dfy ===
/**
 * The legacy builder `FileEAZY` of spare/EAZYprep.py: the same per-pixel
 * columns, but no `galaxy_idx` column, and blocks concatenated without
 * `ignore_index`, so the saved `id` restarts at 0 in every galaxy.
 */
module LegacyCatalog {
  import opened Wrappers
  import opened Galaxies
  import opened PixelCatalog

  /** A row of the legacy table: `id`, `galaxy_id`, `pixel_id` and the flux columns. */
  datatype LegacyRow = LegacyRow(id: int, galaxyId: int, pixelId: int, fluxes: map<string, real>)

  /** The per-galaxy DataFrame, indexed `0..size-1`. */
  function LegacyBlock(g: Galaxy): (b: seq<LegacyRow>)
    requires ColumnsSized(g)
    ensures |b| == g.Size()
  {
    seq(g.Size(), k requires 0 <= k < g.Size() => LegacyRow(k, g.id, g.PixelIdsFlat()[k], FluxesAt(g, k)))
  }

  /** The rows `pd.concat(galaxy_dfs)` builds: blocks in selection order, block indexes kept. */
  function LegacyCatalogRows(gs: seq<Galaxy>): (rows: seq<LegacyRow>)
    requires AllBuildable(gs)
    ensures |rows| == SizeSum(gs)
    decreases |gs|
  {
    if |gs| == 0 then []
    else
      BuildableSized(gs[|gs| - 1]);
      LegacyCatalogRows(gs[..|gs| - 1]) + LegacyBlock(gs[|gs| - 1])
  }

  /** The legacy `_create_dataframe`: `pd.concat` of no frames raises. */
  function LegacyCreateDataFrame(gs: seq<Galaxy>): (r: Result<seq<LegacyRow>>)
    requires AllBuildable(gs)
    ensures r.Err? <==> |gs| == 0
    ensures r.Err? ==> r.error == EmptyConcat
    ensures r.Ok? ==> |r.value| == SizeSum(gs) && r.value == LegacyCatalogRows(gs)
  {
    if |gs| == 0 then Err(EmptyConcat) else Ok(LegacyCatalogRows(gs))
  }

  /** Drops the `galaxy_idx` column of a row. */
  function Project(r: Row): LegacyRow {
    LegacyRow(r.id, r.galaxyId, r.pixelId, r.fluxes)
  }

  /**
   * The legacy table is the current builder's concatenation before
   * renumbering, with `galaxy_idx` dropped.
   */
  lemma {:induction false} LegacyIsProjection(gs: seq<Galaxy>)
    requires AllBuildable(gs)
    ensures |LegacyCatalogRows(gs)| == |Blocks(gs)|
    ensures forall i :: 0 <= i < |Blocks(gs)| ==> LegacyCatalogRows(gs)[i] == Project(Blocks(gs)[i])
    decreases |gs|
  {
    if |gs| > 0 {
      var n := |gs| - 1;
      LegacyIsProjection(gs[..n]);
      BuildableSized(gs[n]);
      assert forall p :: 0 <= p < gs[n].Size() ==> LegacyBlock(gs[n])[p] == Project(Block(n, gs[n])[p]);
    }
  }

  /**
   * Pixel `p` of galaxy `k` is still row `Offset(k) + p`, but its saved `id`
   * is `p`: ids restart at 0 in every block, and `id == pixel_id` on every row.
   */
  lemma LegacyLayout(gs: seq<Galaxy>, k: nat, p: nat)
    requires AllBuildable(gs) && k < |gs| && p < gs[k].Size()
    ensures ColumnsSized(gs[k])
    ensures Offset(gs, k) + p < |LegacyCatalogRows(gs)|
    ensures LegacyCatalogRows(gs)[Offset(gs, k) + p] == LegacyRow(p, gs[k].id, p, FluxesAt(gs[k], p))
  {
    LegacyIsProjection(gs);
    BlockLayout(gs, k, p);
  }

  /** Every legacy row has `id == pixel_id`. */
  lemma LegacyIdIsPixelId(gs: seq<Galaxy>)
    requires AllBuildable(gs)
    ensures forall i :: 0 <= i < |LegacyCatalogRows(gs)| ==>
              LegacyCatalogRows(gs)[i].id == LegacyCatalogRows(gs)[i].pixelId
  {
    LegacyIsProjection(gs);
    forall i | 0 <= i < |Blocks(gs)|
      ensures Blocks(gs)[i].id == Blocks(gs)[i].pixelId
    {
      var k, p := LocateRow(gs, i);
      BlockLayout(gs, k, p);
    }
  }

  /**
   * Two non-empty galaxies give two rows with `id == 0`: the legacy ids are
   * not unique within a run, although the column is documented as unique.
   */
  lemma LegacyIdsRepeat(gs: seq<Galaxy>)
    requires AllBuildable(gs) && |gs| >= 2 && gs[0].Size() > 0 && gs[1].Size() > 0
    ensures var rows := LegacyCatalogRows(gs);
            && Offset(gs, 1) < |rows|
            && 0 != Offset(gs, 1)
            && rows[0].id == rows[Offset(gs, 1)].id == 0
  {
    LegacyLayout(gs, 0, 0);
    LegacyLayout(gs, 1, 0);
    OffsetStep(gs, 0);
  }
}

=== FILE: legacy_pipeline.dfy ===
/**
 * The earlier selection pipeline of spare/EAZYprep.py: `SelectGalaxies`
 * saves through the legacy registry, whose `add_run` hands back nothing, so
 * the run id the selection keeps is `None` and every later `run_folder`
 * lookup raises.
 */
module LegacyPipeline {
  import opened Wrappers
  import opened Galaxies
  import opened Cutout
  import opened PixelCatalog
  import opened Registry
  import opened LegacyRegistry
  import opened Pipeline

  /** What `_generate_run` stores as `run_id`: the value `add_run` returns, which is `None`. */
  function GeneratedRunId(a: Outcome<()>): Option<nat> {
    None
  }

  /**
   * `SelectGalaxies.save_selection(name)`: register the run, ask the registry
   * for the run folder of the stored id, create `{run_folder}/galaxies` and
   * save every galaxy under its position.
   */
  function LegacySaveSelection(d: Disk, gs: seq<Galaxy>, name: string): (o: DiskOutcome<()>)
    ensures o.result.Err?
    ensures o.disk.galaxies == d.galaxies && o.disk.catalogs == d.catalogs
    ensures o.disk.store.folder == d.store.folder
    ensures o.disk.store.runs == d.store.runs + [Entry(NextId(d.store.runs), name, |gs|)]
    ensures LegacyRunDir(NextId(d.store.runs), name) !in d.store.dirs ==>
              && o.result.error == NotFound
              && o.disk.store.dirs == d.store.dirs + {LegacyRunDir(NextId(d.store.runs), name)}
    ensures LegacyRunDir(NextId(d.store.runs), name) in d.store.dirs ==>
              o.result.error == DirectoryExists && o.disk.store.dirs == d.store.dirs
  {
    var a := LegacyAddRun(d.store, name, |gs|);
    if a.result.Err? then DiskOutcome(d.(store := a.store), Err(a.result.error))
    else
      match LegacyRunFolder(a.store, GeneratedRunId(a))
      case Err(e) => DiskOutcome(d.(store := a.store), Err(e))
      case Ok(rf) => SaveGalaxies(d.(store := a.store), rf, gs)
  }

  /** `os.makedirs(f'{run_folder}/galaxies')`, then one folder per galaxy, numbered by position. */
  function SaveGalaxies(d: Disk, runFolder: string, gs: seq<Galaxy>): (o: DiskOutcome<()>)
    ensures o.disk.catalogs == d.catalogs && o.disk.store.runs == d.store.runs
    ensures o.result.Err? <==> GalaxiesFolder(runFolder) in d.store.dirs
  {
    if GalaxiesFolder(runFolder) in d.store.dirs then DiskOutcome(d, Err(DirectoryExists))
    else
      var dirs := d.store.dirs + {GalaxiesFolder(runFolder)} + GalaxyFolders(runFolder, |gs|);
      DiskOutcome(Disk(d.store.(dirs := dirs), SaveAll(d.galaxies, runFolder, gs), d.catalogs), Ok(()))
  }

  /**
   * The legacy `prep_for_EAZY`: the same selection and `replace_unused`
   * checks, then `save_selection`, then `run_folder(run_id)` for the csv's
   * path, which is returned.
   */
  function LegacyPrepForEazy(d: Disk, s: Survey, ids: seq<int>, border: int, name: string,
                             replaceUnused: bool, unused: Option<real>, replace: Option<real>, using: Using): (o: DiskOutcome<string>)
    requires FramesOk(s) && ColumnsUnambiguous(s.frames)
    requires forall id :: id in ids && id in s.sizeCat ==> InFrame(BorderedWindow(s.sizeCat[id], border), s)
    ensures o.result.Err?
    ensures o.disk.galaxies == d.galaxies && o.disk.catalogs == d.catalogs
    ensures Selection(s, ids, border, replaceUnused, unused, replace, using).Err? ==>
              o == DiskOutcome(d, Err(Selection(s, ids, border, replaceUnused, unused, replace, using).error))
    ensures Selection(s, ids, border, replaceUnused, unused, replace, using).Ok? ==>
              && o.disk.store.runs == d.store.runs + [Entry(NextId(d.store.runs), name, |ids|)]
              && (LegacyRunDir(NextId(d.store.runs), name) !in d.store.dirs ==> o.result.error == NotFound)
  {
    match Selection(s, ids, border, replaceUnused, unused, replace, using)
    case Err(e) => DiskOutcome(d, Err(e))
    case Ok(gs) =>
      var sv := LegacySaveSelection(d, gs, name);
      if sv.result.Err? then DiskOutcome(sv.disk, Err(sv.result.error))
      else
        match LegacyRunFolder(sv.disk.store, None)
        case Err(e) => DiskOutcome(sv.disk, Err(e))
        case Ok(rf) => DiskOutcome(sv.disk, Ok(rf))
  }

  /**
   * Where the current pipeline saves a selection, the legacy one does not:
   * on a valid registry with neither run directory present, the current
   * `save_selection` succeeds and every galaxy reloads from its folder, while
   * the legacy one raises after registering the run, saving nothing.
   */
  lemma LegacySaveFailsWhereCurrentSaves(d: Disk, gs: seq<Galaxy>, name: string)
    requires Valid(d.store.runs)
    requires RunPath(d.store.folder, NextId(d.store.runs), name) !in d.store.dirs
    requires GalaxiesFolder(RunPath(d.store.folder, NextId(d.store.runs), name)) !in d.store.dirs
    requires LegacyRunDir(NextId(d.store.runs), name) !in d.store.dirs
    ensures SaveSelection(d, gs, name).result.Ok?
    ensures forall i :: 0 <= i < |gs| ==>
              GalaxyFolder(RunPath(d.store.folder, NextId(d.store.runs), name), i) in SaveSelection(d, gs, name).disk.galaxies
    ensures LegacySaveSelection(d, gs, name).result == Err(NotFound)
    ensures LegacySaveSelection(d, gs, name).disk.galaxies == d.galaxies
    ensures HasRun(LegacySaveSelection(d, gs, name).disk.store.runs, NextId(d.store.runs))
  {
    SaveSelectionSaves(d, gs, name);
    var runs := LegacySaveSelection(d, gs, name).disk.store.runs;
    assert runs[|d.store.runs|].id == NextId(d.store.runs);
  }
}

=== FILE: legacy_registry.dfy ===
/**
 * The earlier run registry of spare/filemanage.py (`OverManage`): the same
 * table and id allocation as `Registry`, but `add_run` returns nothing,
 * creates its directory as the relative path `{id}_{name}`, and
 * `run_folder` answers `{folder}/{id}/{name}`.
 */
module LegacyRegistry {
  import opened Wrappers
  import opened Decimal
  import opened Registry

  /** The relative directory `os.makedirs(f'{id}_{name}')` creates. */
  function LegacyRunDir(id: nat, name: string): string {
    NatToString(id) + "_" + name
  }

  /** `add_run`: the same allocation and append as `Registry.AddRun`; it returns `None`. */
  function LegacyAddRun(s: Store, name: string, numObj: int): (o: Outcome<()>)
    ensures o.store.folder == s.folder
    ensures o.store.runs == s.runs + [Entry(NextId(s.runs), name, numObj)]
    ensures o.result.Ok? <==> LegacyRunDir(NextId(s.runs), name) !in s.dirs
    ensures o.result.Ok? ==> o.store.dirs == s.dirs + {LegacyRunDir(NextId(s.runs), name)}
    ensures o.result.Err? ==> o.result.error == DirectoryExists && o.store.dirs == s.dirs
  {
    var id := NextId(s.runs);
    var runs := s.runs + [Entry(id, name, numObj)];
    var path := LegacyRunDir(id, name);
    if path in s.dirs then Outcome(Store(s.folder, runs, s.dirs), Err(DirectoryExists))
    else Outcome(Store(s.folder, runs, s.dirs + {path}), Ok(()))
  }

  /**
   * `run_folder`: `{folder}/{id}/{name}`. The id may be `None` (what
   * `add_run` hands back); `.loc` finds no row for it, nor for an id not in
   * the table, and raises.
   */
  function LegacyRunFolder(s: Store, runId: Option<nat>): (r: Result<string>)
    ensures r.Err? <==> runId.None? || !HasRun(s.runs, runId.value)
    ensures r.Err? ==> r.error == NotFound
    ensures r.Ok? ==>
              exists i :: 0 <= i < |s.runs| && s.runs[i].id == runId.value &&
                (forall j :: 0 <= j < i ==> s.runs[j].id != runId.value) &&
                r.value == s.folder + "/" + NatToString(runId.value) + "/" + s.runs[i].name
  {
    if runId.Some? && HasRun(s.runs, runId.value) then
      Ok(s.folder + "/" + NatToString(runId.value) + "/" + s.runs[IndexOf(s.runs, runId.value)].name)
    else Err(NotFound)
  }

  /**
   * `delete_run`: the row is looked up first (an absent id raises), then
   * dropped, then the relative directory `{id}_{name}` is removed; a missing
   * directory raises before the table is written.
   */
  function LegacyDeleteRun(s: Store, id: nat): (o: Outcome<()>)
    ensures o.result.Err? ==> o.store == s
    ensures !HasRun(s.runs, id) ==> o.result == Err(NotFound)
    ensures HasRun(s.runs, id) ==>
              (o.result.Ok? <==> LegacyRunDir(id, s.runs[IndexOf(s.runs, id)].name) in s.dirs)
    ensures o.result.Ok? ==>
              var i := IndexOf(s.runs, id);
              && o.store.folder == s.folder
              && o.store.runs == s.runs[..i] + s.runs[i + 1..]
              && o.store.dirs == RemoveTree(s.dirs, LegacyRunDir(id, s.runs[i].name))
  {
    if !HasRun(s.runs, id) then Outcome(s, Err(NotFound))
    else
      var i := IndexOf(s.runs, id);
      var path := LegacyRunDir(id, s.runs[i].name);
      if path !in s.dirs then Outcome(s, Err(FileMissing))
      else Outcome(Store(s.folder, s.runs[..i] + s.runs[i + 1..], RemoveTree(s.dirs, path)), Ok(()))
  }

  /** The legacy allocation keeps ids strictly increasing and unique, as the current one does. */
  lemma LegacyAddRunKeepsValid(s: Store, name: string, numObj: int)
    requires Valid(s.runs)
    ensures Valid(LegacyAddRun(s, name, numObj).store.runs)
    ensures LegacyAddRun(s, name, numObj).store.runs == AddRun(s, name, numObj).store.runs
  {
    AddRunKeepsValid(s, name, numObj);
  }

  /**
   * The folder `run_folder` answers for a freshly added run is never the
   * directory `add_run` created: it is longer by the output folder and a
   * separator.
   */
  lemma LegacyRunFolderMissesRunDir(s: Store, name: string, numObj: int)
    requires Valid(s.runs)
    ensures var o := LegacyAddRun(s, name, numObj);
            var id := NextId(s.runs);
            && LegacyRunFolder(o.store, Some(id)).Ok?
            && LegacyRunFolder(o.store, Some(id)).value != LegacyRunDir(id, name)
            && |LegacyRunFolder(o.store, Some(id)).value| == |s.folder| + 1 + |LegacyRunDir(id, name)|
  {
    var o := LegacyAddRun(s, name, numObj);
    var id := NextId(s.runs);
    NextIdFresh(s.runs);
    assert o.store.runs[|s.runs|].id == id;
    assert forall k :: 0 <= k < |s.runs| ==> o.store.runs[k].id == s.runs[k].id < id;
    assert IndexOf(o.store.runs, id) == |s.runs|;
  }
}

=== FILE: paths.dfy ===
/**
 * Input path building of spare/data.py (`Paths.__init__`): the catalog
 * paths under the catalog folder, and one image path per filter with the
 * filter name substituted for every `?` of the filename template.
 */
module InputPaths {

  /** `s.replace('?', r)`: every `?` becomes `r`, everything else is kept. */
  function ReplaceMark(s: string, r: string): (t: string)
    ensures '?' !in r ==> '?' !in t
    decreases |s|
  {
    if |s| == 0 then ""
    else (if s[0] == '?' then r else [s[0]]) + ReplaceMark(s[1..], r)
  }

  /** Replacement distributes over concatenation. */
  lemma {:induction false} ReplaceMarkConcat(a: string, b: string, r: string)
    ensures ReplaceMark(a + b, r) == ReplaceMark(a, r) + ReplaceMark(b, r)
    decreases |a|
  {
    if |a| > 0 {
      assert (a + b)[1..] == a[1..] + b;
      ReplaceMarkConcat(a[1..], b, r);
    } else {
      assert a + b == b;
    }
  }

  /** A template without `?` is used as it is. */
  lemma {:induction false} ReplaceMarkNoMark(s: string, r: string)
    requires '?' !in s
    ensures ReplaceMark(s, r) == s
    decreases |s|
  {
    if |s| > 0 {
      assert s == [s[0]] + s[1..];
      ReplaceMarkNoMark(s[1..], r);
    }
  }

  /** Each `?` contributes `|r|` characters and every other character one. */
  lemma {:induction false} ReplaceMarkLength(s: string, r: string)
    ensures |ReplaceMark(s, r)| == |s| + MarkCount(s) * (|r| - 1)
    decreases |s|
  {
    if |s| > 0 {
      ReplaceMarkLength(s[1..], r);
    }
  }

  function MarkCount(s: string): nat
    decreases |s|
  {
    if |s| == 0 then 0 else (if s[0] == '?' then 1 else 0) + MarkCount(s[1..])
  }

  /** The `images` and `catalogs` sections of the configuration. */
  datatype ImagesConfig = ImagesConfig(folder: string, filename: string)
  datatype CatalogsConfig = CatalogsConfig(folder: string, photCat: string, segmap: string)

  datatype Paths = Paths(photCat: string, segmap: string, images: map<string, string>)

  /** `{image_folder}/{filt}/{file}` with `file` the template for `filt`. */
  function ImagePath(images: ImagesConfig, filt: string): string {
    images.folder + "/" + filt + "/" + ReplaceMark(images.filename, filt)
  }

  /** The loop `for filt in filters: self.images[filt] = ...`. */
  function ImageMap(images: ImagesConfig, filters: seq<string>): (m: map<string, string>)
    ensures m.Keys == set f | f in filters
    ensures forall f :: f in m ==> m[f] == ImagePath(images, f)
    decreases |filters|
  {
    if |filters| == 0 then map[]
    else
      var last := filters[|filters| - 1];
      var init := ImageMap(images, filters[..|filters| - 1]);
      assert forall f :: f in filters <==> f in filters[..|filters| - 1] || f == last by {
        assert filters == filters[..|filters| - 1] + [last];
      }
      init[last := ImagePath(images, last)]
  }

  /**
   * `Paths.__init__`: both catalog files live in the catalog folder, and
   * there is one image path per distinct filter, built from the template.
   */
  function MakePaths(images: ImagesConfig, catalogs: CatalogsConfig, filters: seq<string>): (p: Paths)
    ensures p.photCat == catalogs.folder + "/" + catalogs.photCat
    ensures p.segmap == catalogs.folder + "/" + catalogs.segmap
    ensures p.images.Keys == set f | f in filters
    ensures forall f :: f in p.images ==>
              p.images[f] == images.folder + "/" + f + "/" + ReplaceMark(images.filename, f)
  {
    Paths(catalogs.folder + "/" + catalogs.photCat, catalogs.folder + "/" + catalogs.segmap,
          ImageMap(images, filters))
  }

  /**
   * With a template `prefix ? suffix` whose parts carry no `?`, the image
   * file of a filter is `prefix + filt + suffix`.
   */
  lemma TemplateInstance(images: ImagesConfig, catalogs: CatalogsConfig, filters: seq<string>,
                         prefix: string, suffix: string, filt: string)
    requires images.filename == prefix + "?" + suffix
    requires '?' !in prefix && '?' !in suffix
    requires filt in filters
    ensures MakePaths(images, catalogs, filters).images[filt] ==
              images.folder + "/" + filt + "/" + prefix + filt + suffix
  {
    ReplaceMarkConcat(prefix + "?", suffix, filt);
    ReplaceMarkConcat(prefix, "?", filt);
    ReplaceMarkNoMark(prefix, filt);
    ReplaceMarkNoMark(suffix, filt);
    assert ReplaceMark("?", filt) == filt + ReplaceMark("", filt);
  }
}

=== FILE: phot.dfy ===
/**
 * A galaxy after the photometric-redshift fit (spare/galaxy/phot_galaxy.py):
 * per-pixel best redshifts and chi-squared curves, masked where the fit
 * failed, and the chi-squared redshift of the galaxy as a whole or of a
 * chosen set of its pixels.
 *
 * numpy masked arrays are modelled cell by cell as `Option`: `None` is a
 * masked cell.
 */
module Photometry {
  import opened Wrappers
  import opened Grids
  import opened Galaxies

  /** `no_fit_value`'s default: the `zbest` EAZY writes for a failed fit. */
  const DefaultNoFit: real := -1.0

  datatype PhotGalaxy = PhotGalaxy(
    base: Galaxy,
    eazyIds: seq<int>,
    zgrid: seq<real>,
    zbest: seq<Option<real>>,
    chi2: seq<seq<Option<real>>>,
    totalChi2: Option<seq<Option<real>>>,
    zchi2: Option<real>)
  {
    /** Number of fitted pixels (rows of `chi2`). */
    function Pixels(): nat { |chi2| }

    /** A pixel whose fit failed. */
    predicate NoFit(i: nat)
      requires i < |zbest|
    {
      zbest[i].None?
    }

    /**
     * Shape invariant of a fitted galaxy: one id, one `zbest` and one
     * chi-squared curve per pixel, each curve laid out on `zgrid`, and a
     * curve masked in full exactly where `zbest` is masked.
     */
    predicate WellFormed() {
      && base.WellFormed()
      && |eazyIds| == |zbest| == |chi2|
      && IsRect(chi2, |chi2|, |zgrid|)
      && (forall i, j :: 0 <= i < |chi2| && 0 <= j < |zgrid| ==> (chi2[i][j].None? <==> zbest[i].None?))
    }
  }

  /** A row of chi-squared values under a common mask. */
  function MaskRow(row: seq<real>, masked: bool): (m: seq<Option<real>>)
    ensures |m| == |row|
    ensures forall j :: 0 <= j < |row| ==> (m[j].None? <==> masked)
    ensures forall j :: 0 <= j < |row| && !masked ==> m[j] == Some(row[j])
  {
    seq(|row|, j requires 0 <= j < |row| => if masked then None else Some(row[j]))
  }

  /** `np.ma.filled`: masked cells take the value `fill`. */
  function Filled(m: seq<Option<real>>, fill: real): (s: seq<real>)
    ensures |s| == |m|
    ensures forall i :: 0 <= i < |m| ==> s[i] == (if m[i].None? then fill else m[i].value)
  {
    seq(|m|, i requires 0 <= i < |m| => if m[i].None? then fill else m[i].value)
  }

  /**
   * Whether row `i` of `chi2` falls under the repeated no-fit mask. numpy
   * fits a mask of another shape than its data when the mask has a single
   * cell (it is repeated everywhere) or the data's size (it is reshaped);
   * so with one `zbest` and one grid point the lone flag covers every curve.
   */
  function RowMasked(zbest: seq<real>, noFit: real, i: nat): bool {
    if |zbest| == 1 then zbest[0] == noFit else i < |zbest| && zbest[i] == noFit
  }

  /**
   * `PhotGalaxy.__init__`: `zbest` is masked where it equals `noFit`, each
   * chi-squared curve is masked in full on the same pixels, and both caches
   * start empty. The repeated mask has `|zbest|` rows of `|zgrid|` cells;
   * numpy refuses it for a `chi2` with another number of rows unless the
   * grid is empty (both have no cells) or the mask is a single cell.
   */
  function MakePhot(base: Galaxy, eazyIds: seq<int>, zgrid: seq<real>,
                    zbest: seq<real>, chi2: seq<seq<real>>, noFit: real): (r: Result<PhotGalaxy>)
    requires IsRect(chi2, |chi2|, |zgrid|)
    ensures r.Err? <==> |chi2| != |zbest| && |zgrid| != 0 && !(|zbest| == 1 && |zgrid| == 1)
    ensures r.Err? ==> r.error == ShapeMismatch
    ensures r.Ok? ==>
              && r.value.base == base && r.value.eazyIds == eazyIds && r.value.zgrid == zgrid
              && r.value.totalChi2 == None && r.value.zchi2 == None
              && |r.value.zbest| == |zbest| && |r.value.chi2| == |chi2|
    ensures r.Ok? ==> forall i :: 0 <= i < |zbest| ==>
              (r.value.NoFit(i) <==> zbest[i] == noFit)
    ensures r.Ok? ==> forall i :: 0 <= i < |zbest| && zbest[i] != noFit ==> r.value.zbest[i] == Some(zbest[i])
    ensures r.Ok? ==> forall i :: 0 <= i < |chi2| ==> |r.value.chi2[i]| == |zgrid|
    ensures r.Ok? ==> forall i, j :: 0 <= i < |chi2| && 0 <= j < |zgrid| ==>
              && (r.value.chi2[i][j].None? <==> RowMasked(zbest, noFit, i))
              && (r.value.chi2[i][j].Some? ==> r.value.chi2[i][j].value == chi2[i][j])
  {
    if |chi2| != |zbest| && |zgrid| != 0 && !(|zbest| == 1 && |zgrid| == 1) then Err(ShapeMismatch)
    else
      var mz := seq(|zbest|, i requires 0 <= i < |zbest| => if zbest[i] == noFit then None else Some(zbest[i]));
      var mc := seq(|chi2|, i requires 0 <= i < |chi2| => MaskRow(chi2[i], RowMasked(zbest, noFit, i)));
      Ok(PhotGalaxy(base, eazyIds, zgrid, mz, mc, None, None))
  }

  /**
   * The masks agree: a galaxy built from well-shaped parts is well formed,
   * and filling the masked `zbest` with the no-fit value gives back the
   * `zbest` EAZY wrote.
   */
  lemma MakePhotWellFormed(base: Galaxy, eazyIds: seq<int>, zgrid: seq<real>,
                           zbest: seq<real>, chi2: seq<seq<real>>, noFit: real)
    requires IsRect(chi2, |chi2|, |zgrid|)
    requires base.WellFormed() && |eazyIds| == |zbest| == |chi2|
    ensures MakePhot(base, eazyIds, zgrid, zbest, chi2, noFit).Ok?
    ensures MakePhot(base, eazyIds, zgrid, zbest, chi2, noFit).value.WellFormed()
    ensures Filled(MakePhot(base, eazyIds, zgrid, zbest, chi2, noFit).value.zbest, noFit) == zbest
  {
    var p := MakePhot(base, eazyIds, zgrid, zbest, chi2, noFit).value;
    assert forall i :: 0 <= i < |zbest| ==> Filled(p.zbest, noFit)[i] == zbest[i] by {
      assert forall i :: 0 <= i < |zbest| ==> (p.NoFit(i) <==> zbest[i] == noFit);
    }
  }

  // ---------------------------------------------------------------------------
  // Reshaping the flat per-pixel arrays onto the image

  /**
   * `.reshape(shape)` of a flat per-pixel array: a length that is not
   * `rows*cols` raises; otherwise the result has the image's shape and
   * reads back, in row-major order, as the flat array (so pixel `y*cols + x`
   * lands at `(y, x)`, see `Grids.ReshapeIndex`).
   */
  function ReshapeChecked<T>(s: seq<T>, rows: nat, cols: nat): (r: Result<Grid<T>>)
    ensures r.Err? <==> |s| != rows * cols
    ensures r.Err? ==> r.error == ShapeMismatch
    ensures r.Ok? ==> IsRect(r.value, rows, cols) && Flatten(r.value) == s
  {
    if |s| != rows * cols then Err(ShapeMismatch)
    else
      FlattenReshape(s, rows, cols);
      Ok(Reshape(s, rows, cols))
  }

  /** `EAZY_ids_reshaped`: the catalog row of every image pixel, in row-major order. */
  function EazyIdsReshaped(p: PhotGalaxy): (r: Result<Grid<int>>)
    ensures r.Err? <==> |p.eazyIds| != p.base.Size()
    ensures r.Ok? ==> IsRect(r.value, p.base.Rows(), p.base.Cols()) && Flatten(r.value) == p.eazyIds
  {
    ReshapeChecked(p.eazyIds, p.base.Rows(), p.base.Cols())
  }

  /** `zbest_reshaped`: the masked best redshift of every image pixel, in row-major order. */
  function ZbestReshaped(p: PhotGalaxy): (r: Result<Grid<Option<real>>>)
    ensures r.Err? <==> |p.zbest| != p.base.Size()
    ensures r.Ok? ==> IsRect(r.value, p.base.Rows(), p.base.Cols()) && Flatten(r.value) == p.zbest
  {
    ReshapeChecked(p.zbest, p.base.Rows(), p.base.Cols())
  }

  /**
   * `chi2_reshaped`: one chi-squared curve per image pixel. numpy compares
   * total sizes, so with an empty redshift grid any number of (empty)
   * curves reshapes to the image.
   */
  function Chi2Reshaped(p: PhotGalaxy): (r: Result<Grid<seq<Option<real>>>>)
    requires IsRect(p.chi2, |p.chi2|, |p.zgrid|)
    ensures r.Err? <==> |p.chi2| != p.base.Size() && |p.zgrid| != 0
    ensures r.Err? ==> r.error == ShapeMismatch
    ensures r.Ok? ==> IsRect(r.value, p.base.Rows(), p.base.Cols())
    ensures r.Ok? ==> forall y, x :: 0 <= y < p.base.Rows() && 0 <= x < p.base.Cols() ==> |r.value[y][x]| == |p.zgrid|
    ensures r.Ok? && |p.chi2| == p.base.Size() ==> Flatten(r.value) == p.chi2
  {
    if |p.chi2| == p.base.Size() then
      ReshapedCurveLengths(p.chi2, p.base.Rows(), p.base.Cols(), |p.zgrid|);
      ReshapeChecked(p.chi2, p.base.Rows(), p.base.Cols())
    else if |p.zgrid| == 0 then
      Ok(seq(p.base.Rows(), y => seq(p.base.Cols(), x => [])))
    else
      Err(ShapeMismatch)
  }

  lemma ReshapedCurveLengths(s: seq<seq<Option<real>>>, rows: nat, cols: nat, n: nat)
    requires |s| == rows * cols && forall k :: 0 <= k < |s| ==> |s[k]| == n
    ensures forall y, x :: 0 <= y < rows && 0 <= x < cols ==> |Reshape(s, rows, cols)[y][x]| == n
  {
    forall y, x | 0 <= y < rows && 0 <= x < cols
      ensures |Reshape(s, rows, cols)[y][x]| == n
    {
      ReshapeIndex(s, rows, cols, y, x);
    }
  }

  // ---------------------------------------------------------------------------
  // Masked sums and argmin

  /** Masked addition: a masked term is skipped; the sum of masked terms is masked. */
  function AddMasked(a: Option<real>, b: Option<real>): Option<real> {
    if a.None? then b else if b.None? then a else Some(a.value + b.value)
  }

  /** Row indexes that address rows of `chi2` holding column `j`. */
  predicate ValidSelection(chi2: seq<seq<Option<real>>>, sel: seq<int>, j: nat) {
    forall k :: 0 <= k < |sel| ==> 0 <= sel[k] < |chi2| && j < |chi2[sel[k]]|
  }

  /**
   * `np.sum(axis=0)` of the selected rows of a masked array, column `j`:
   * the sum of the unmasked selected cells, masked when every selected cell
   * is masked (in particular when nothing is selected).
   */
  function ColumnTotal(chi2: seq<seq<Option<real>>>, sel: seq<int>, j: nat): Option<real>
    requires ValidSelection(chi2, sel, j)
    decreases |sel|
  {
    if |sel| == 0 then None
    else AddMasked(ColumnTotal(chi2, sel[..|sel| - 1], j), chi2[sel[|sel| - 1]][j])
  }

  /** The total is masked exactly when every selected cell is masked. */
  lemma {:induction false} ColumnTotalMasked(chi2: seq<seq<Option<real>>>, sel: seq<int>, j: nat)
    requires ValidSelection(chi2, sel, j)
    ensures ColumnTotal(chi2, sel, j).None? <==> forall k :: 0 <= k < |sel| ==> chi2[sel[k]][j].None?
    decreases |sel|
  {
    if |sel| > 0 {
      ColumnTotalMasked(chi2, sel[..|sel| - 1], j);
    }
  }

  /** The summed chi-squared curve of the selected rows, one entry per grid point. */
  function Totals(chi2: seq<seq<Option<real>>>, sel: seq<int>, nz: nat): (t: seq<Option<real>>)
    requires forall j :: 0 <= j < nz ==> ValidSelection(chi2, sel, j)
    ensures |t| == nz
    ensures forall j :: 0 <= j < nz ==> t[j] == ColumnTotal(chi2, sel, j)
  {
    seq(nz, j requires 0 <= j < nz => ColumnTotal(chi2, sel, j))
  }

  /** Order of masked values as argmin sees them: a masked value is larger than every value. */
  predicate LessEq(a: Option<real>, b: Option<real>) {
    b.None? || (a.Some? && a.value <= b.value)
  }

  predicate Less(a: Option<real>, b: Option<real>) {
    !LessEq(b, a)
  }

  /** `np.ma.argmin`: the first position of the least unmasked value, `0` when all are masked. */
  function MaskedArgMin(t: seq<Option<real>>): (a: nat)
    requires |t| > 0
    ensures a < |t|
    ensures forall j :: 0 <= j < |t| ==> LessEq(t[a], t[j])
    ensures forall j :: 0 <= j < a ==> Less(t[a], t[j])
    decreases |t|
  {
    if |t| == 1 then 0
    else
      var b := 1 + MaskedArgMin(t[1..]);
      assert forall j :: 1 <= j < |t| ==> t[j] == t[1..][j - 1];
      if LessEq(t[0], t[b]) then 0 else b
  }

  /** When every value is masked, argmin answers the first grid point. */
  lemma AllMaskedArgMin(t: seq<Option<real>>)
    requires |t| > 0 && forall j :: 0 <= j < |t| ==> t[j].None?
    ensures MaskedArgMin(t) == 0
  {
    var a := MaskedArgMin(t);
    assert a > 0 ==> Less(t[a], t[0]);
  }

  // ---------------------------------------------------------------------------
  // calc_zchi2 and calc_zchi2_pixels

  /**
   * `calc_zchi2`: sum the masked chi-squared curves of all pixels and take
   * the grid redshift of the first minimum. An empty redshift grid has no
   * minimum and raises.
   */
  function CalcZChi2(p: PhotGalaxy): (r: Result<PhotGalaxy>)
    requires IsRect(p.chi2, |p.chi2|, |p.zgrid|)
    ensures r.Err? <==> |p.zgrid| == 0
    ensures r.Err? ==> r.error == EmptyIndex
    ensures r.Ok? ==> r.value == p.(totalChi2 := r.value.totalChi2, zchi2 := r.value.zchi2)
    ensures r.Ok? ==> r.value.totalChi2.Some? && r.value.zchi2.Some?
    ensures r.Ok? ==> |r.value.totalChi2.value| == |p.zgrid|
    ensures r.Ok? ==> forall j :: 0 <= j < |p.zgrid| ==>
              ValidSelection(p.chi2, Range(|p.chi2|), j) &&
              r.value.totalChi2.value[j] == ColumnTotal(p.chi2, Range(|p.chi2|), j)
    ensures r.Ok? && p.WellFormed() ==> r.value.WellFormed()
    ensures r.Ok? && p.WellFormed() ==> forall j :: 0 <= j < |p.zgrid| ==>
              (r.value.totalChi2.value[j].None? <==> forall i :: 0 <= i < |p.zbest| ==> p.NoFit(i))
    ensures r.Ok? ==>
              var t := r.value.totalChi2.value;
              exists a :: 0 <= a < |p.zgrid| && r.value.zchi2.value == p.zgrid[a] &&
                (forall j :: 0 <= j < |p.zgrid| ==> LessEq(t[a], t[j])) &&
                (forall j :: 0 <= j < a ==> !LessEq(t[j], t[a]))
  {
    if |p.zgrid| == 0 then Err(EmptyIndex)
    else
      var sel := Range(|p.chi2|);
      var t := Totals(p.chi2, sel, |p.zgrid|);
      assert p.WellFormed() ==> forall j :: 0 <= j < |p.zgrid| ==>
               (t[j].None? <==> forall i :: 0 <= i < |p.zbest| ==> p.NoFit(i)) by {
        if p.WellFormed() {
          forall j | 0 <= j < |p.zgrid|
            ensures t[j].None? <==> forall i :: 0 <= i < |p.zbest| ==> p.NoFit(i)
          {
            ColumnTotalMasked(p.chi2, sel, j);
            assert forall k :: 0 <= k < |sel| ==> sel[k] == k && (p.chi2[sel[k]][j].None? <==> p.NoFit(k));
          }
        }
      }
      var a := MaskedArgMin(t);
      Ok(p.(totalChi2 := Some(t), zchi2 := Some(p.zgrid[a])))
  }

  /** The flat positions of the true cells of a list, ascending. */
  function TrueIndices(s: seq<bool>): (ix: seq<int>)
    ensures forall k :: 0 <= k < |ix| ==> 0 <= ix[k] < |s| && s[ix[k]]
    ensures forall i :: 0 <= i < |s| && s[i] ==> i in ix
    ensures forall k, l :: 0 <= k < l < |ix| ==> ix[k] < ix[l]
    decreases |s|
  {
    if |s| == 0 then []
    else
      var init := TrueIndices(s[..|s| - 1]);
      if s[|s| - 1] then init + [|s| - 1] else init
  }

  /**
   * `np.nonzero(pixels)` on a mask of the galaxy's shape, as flat row-major
   * positions: ascending, and `r*cols + c` is listed exactly when the mask
   * is set at `(r, c)`.
   */
  function Nonzero(mask: Grid<bool>, rows: nat, cols: nat): (ix: seq<int>)
    requires IsRect(mask, rows, cols)
    ensures forall k :: 0 <= k < |ix| ==> 0 <= ix[k] < rows * cols
    ensures forall k, l :: 0 <= k < l < |ix| ==> ix[k] < ix[l]
    ensures forall r, c :: 0 <= r < rows && 0 <= c < cols ==> (mask[r][c] <==> r * cols + c in ix)
  {
    FlattenLength(mask, rows, cols);
    var ix := TrueIndices(Flatten(mask));
    forall r, c | 0 <= r < rows && 0 <= c < cols
      ensures mask[r][c] <==> r * cols + c in ix
    {
      FlattenIndex(mask, rows, cols, r, c);
    }
    ix
  }

  /** A set cell of `mask` lies outside a `rows` by `cols` image: indexing the image with it raises. */
  predicate SetOutside(mask: Grid<bool>, rows: nat, cols: nat) {
    exists r, c :: 0 <= r < |mask| && 0 <= c < |mask[r]| && mask[r][c] && (r >= rows || c >= cols)
  }

  /** The cells of `mask` that fall inside a `rows` by `cols` image, as a mask of the image's shape. */
  function Clip(mask: Grid<bool>, rows: nat, cols: nat): (m: Grid<bool>)
    ensures IsRect(m, rows, cols)
    ensures forall r, c :: 0 <= r < rows && 0 <= c < cols ==>
              (m[r][c] <==> r < |mask| && c < |mask[r]| && mask[r][c])
  {
    seq(rows, r requires 0 <= r < rows => seq(cols, c requires 0 <= c < cols => r < |mask| && c < |mask[r]| && mask[r][c]))
  }

  /** The mask `calc_zchi2_pixels` selects with: the given one, or `segmap == id`. */
  function PixelMask(p: PhotGalaxy, pixels: Option<Grid<bool>>): Grid<bool> {
    if pixels.None? then EqualsMask(p.base.segmap, p.base.id) else pixels.value
  }

  /**
   * `calc_zchi2_pixels`: the chi-squared redshift of the chosen pixels only.
   * Without a mask the galaxy's own segmentation pixels (`segmap == id`) are
   * used. numpy indexes the reshaped curves with the set cells of the mask,
   * whatever its shape: a set cell outside the image raises, and the other
   * cells of a smaller or larger mask take no part. The summed curve adds
   * the curves of the selected pixels (the flat positions `Nonzero` lists)
   * and the redshift is the grid point of its first least value. Curves
   * that do not reshape to the image, or an empty redshift grid, raise.
   */
  function CalcZChi2Pixels(p: PhotGalaxy, pixels: Option<Grid<bool>>): (r: Result<(real, seq<Option<real>>)>)
    requires IsRect(p.chi2, |p.chi2|, |p.zgrid|)
    ensures r.Err? <==>
              |p.zgrid| == 0 || |p.chi2| != p.base.Size() ||
              SetOutside(PixelMask(p, pixels), p.base.Rows(), p.base.Cols())
    ensures |p.zgrid| != 0 && |p.chi2| != p.base.Size() ==> r == Err(ShapeMismatch)
    ensures |p.chi2| == p.base.Size() && SetOutside(PixelMask(p, pixels), p.base.Rows(), p.base.Cols()) ==>
              r == Err(IndexOutOfRange)
    ensures pixels.None? && IsRect(p.base.segmap, p.base.Rows(), p.base.Cols()) ==>
              !SetOutside(PixelMask(p, pixels), p.base.Rows(), p.base.Cols())
    ensures r.Ok? ==> |r.value.1| == |p.zgrid|
    ensures r.Ok? ==>
              var sel := Nonzero(Clip(PixelMask(p, pixels), p.base.Rows(), p.base.Cols()), p.base.Rows(), p.base.Cols());
              forall j :: 0 <= j < |p.zgrid| ==>
                ValidSelection(p.chi2, sel, j) && r.value.1[j] == ColumnTotal(p.chi2, sel, j)
    ensures r.Ok? ==>
              var t := r.value.1;
              exists a :: 0 <= a < |p.zgrid| && r.value.0 == p.zgrid[a] &&
                (forall j :: 0 <= j < |p.zgrid| ==> LessEq(t[a], t[j])) &&
                (forall j :: 0 <= j < a ==> !LessEq(t[j], t[a]))
  {
    var mask := PixelMask(p, pixels);
    var rows, cols := p.base.Rows(), p.base.Cols();
    if |p.zgrid| != 0 && |p.chi2| != p.base.Size() then Err(ShapeMismatch)
    else if SetOutside(mask, rows, cols) then Err(IndexOutOfRange)
    else if |p.zgrid| == 0 then Err(EmptyIndex)
    else
      var sel := Nonzero(Clip(mask, rows, cols), rows, cols);
      var t := Totals(p.chi2, sel, |p.zgrid|);
      Ok((p.zgrid[MaskedArgMin(t)], t))
  }

  // ---------------------------------------------------------------------------
  // Properties of the masked totals

  lemma AddMaskedCommutes(a: Option<real>, b: Option<real>)
    ensures AddMasked(a, b) == AddMasked(b, a)
  {
  }

  lemma AddMaskedAssociates(a: Option<real>, b: Option<real>, c: Option<real>)
    ensures AddMasked(AddMasked(a, b), c) == AddMasked(AddMasked(a, c), b)
  {
  }

  /** The total of a selection is the total without one of its pixels plus that pixel's value. */
  lemma {:induction false} ColumnTotalRemove(chi2: seq<seq<Option<real>>>, sel: seq<int>, i: nat, j: nat)
    requires ValidSelection(chi2, sel, j) && i < |sel|
    ensures ValidSelection(chi2, sel[..i] + sel[i + 1..], j)
    ensures ColumnTotal(chi2, sel, j) == AddMasked(ColumnTotal(chi2, sel[..i] + sel[i + 1..], j), chi2[sel[i]][j])
    decreases |sel|
  {
    var n := |sel| - 1;
    var rest := sel[..i] + sel[i + 1..];
    assert forall k :: 0 <= k < |rest| ==> rest[k] == (if k < i then sel[k] else sel[k + 1]);
    if i < n {
      var init := sel[..n];
      var init' := init[..i] + init[i + 1..];
      ColumnTotalRemove(chi2, init, i, j);
      assert init' == rest[..|rest| - 1];
      assert rest[|rest| - 1] == sel[n];
      var ci, cn := chi2[sel[i]][j], chi2[sel[n]][j];
      calc {
        ColumnTotal(chi2, sel, j);
        AddMasked(ColumnTotal(chi2, init, j), cn);
        AddMasked(AddMasked(ColumnTotal(chi2, init', j), ci), cn);
        { AddMaskedAssociates(ColumnTotal(chi2, init', j), ci, cn); }
        AddMasked(AddMasked(ColumnTotal(chi2, init', j), cn), ci);
        AddMasked(ColumnTotal(chi2, rest, j), ci);
      }
    } else {
      assert rest == sel[..n];
    }
  }

  /**
   * The total does not depend on the order in which the pixels are listed:
   * any permutation of the selection gives the same curve.
   */
  lemma {:induction false} ColumnTotalPermutation(chi2: seq<seq<Option<real>>>, a: seq<int>, b: seq<int>, j: nat)
    requires ValidSelection(chi2, a, j) && ValidSelection(chi2, b, j)
    requires multiset(a) == multiset(b)
    ensures ColumnTotal(chi2, a, j) == ColumnTotal(chi2, b, j)
    decreases |a|
  {
    if |a| > 0 {
      var n := |a| - 1;
      var x := a[n];
      assert x in multiset(a);
      var i :| 0 <= i < |b| && b[i] == x;
      ColumnTotalRemove(chi2, b, i, j);
      var rest := b[..i] + b[i + 1..];
      MultisetWithout(b, i);
      MultisetWithout(a, n);
      assert a[..n] + a[n + 1..] == a[..n];
      ColumnTotalPermutation(chi2, a[..n], rest, j);
    } else {
      assert |b| == |multiset(b)|;
    }
  }

  lemma MultisetWithout(s: seq<int>, i: nat)
    requires i < |s|
    ensures multiset(s[..i] + s[i + 1..]) == multiset(s) - multiset{s[i]}
  {
    assert s == s[..i] + [s[i]] + s[i + 1..];
  }

  /**
   * Masked pixels contribute nothing: adding pixels whose fit failed to a
   * selection leaves its total unchanged.
   */
  lemma {:induction false} MaskedPixelsIgnored(chi2: seq<seq<Option<real>>>, sel: seq<int>, extra: seq<int>, j: nat)
    requires ValidSelection(chi2, sel, j) && ValidSelection(chi2, extra, j)
    requires forall k :: 0 <= k < |extra| ==> chi2[extra[k]][j].None?
    ensures ValidSelection(chi2, sel + extra, j)
    ensures ColumnTotal(chi2, sel + extra, j) == ColumnTotal(chi2, sel, j)
    decreases |extra|
  {
    if |extra| > 0 {
      var n := |extra| - 1;
      assert (sel + extra)[..|sel + extra| - 1] == sel + extra[..n];
      MaskedPixelsIgnored(chi2, sel, extra[..n], j);
    } else {
      assert sel + extra == sel;
    }
  }

  /** The positions of an all-true list are all positions. */
  lemma {:induction false} TrueIndicesAll(s: seq<bool>)
    requires forall i :: 0 <= i < |s| ==> s[i]
    ensures TrueIndices(s) == Range(|s|)
    decreases |s|
  {
    if |s| > 0 {
      TrueIndicesAll(s[..|s| - 1]);
    }
  }

  /** A mask with every pixel set. */
  function AllPixels(rows: nat, cols: nat): (m: Grid<bool>)
    ensures IsRect(m, rows, cols)
    ensures forall r, c :: 0 <= r < rows && 0 <= c < cols ==> m[r][c]
  {
    seq(rows, r => seq(cols, c => true))
  }

  lemma {:induction false} FlattenAllTrue(g: Grid<bool>)
    requires forall r, c :: 0 <= r < |g| && 0 <= c < |g[r]| ==> g[r][c]
    ensures forall i :: 0 <= i < |Flatten(g)| ==> Flatten(g)[i]
    decreases |g|
  {
    if |g| > 0 {
      FlattenAllTrue(g[1..]);
      assert Flatten(g) == g[0] + Flatten(g[1..]);
    }
  }

  /**
   * Selecting every pixel reproduces `calc_zchi2`: the same summed curve and
   * the same redshift.
   */
  lemma AllPixelsIsCalcZChi2(p: PhotGalaxy)
    requires IsRect(p.chi2, |p.chi2|, |p.zgrid|) && |p.zgrid| > 0 && |p.chi2| == p.base.Size()
    ensures CalcZChi2(p).Ok?
    ensures CalcZChi2Pixels(p, Some(AllPixels(p.base.Rows(), p.base.Cols()))).Ok?
    ensures CalcZChi2Pixels(p, Some(AllPixels(p.base.Rows(), p.base.Cols()))).value ==
              (CalcZChi2(p).value.zchi2.value, CalcZChi2(p).value.totalChi2.value)
  {
    var m := Clip(AllPixels(p.base.Rows(), p.base.Cols()), p.base.Rows(), p.base.Cols());
    FlattenLength(m, p.base.Rows(), p.base.Cols());
    FlattenAllTrue(m);
    TrueIndicesAll(Flatten(m));
    assert Nonzero(m, p.base.Rows(), p.base.Cols()) == Range(|p.chi2|);
  }
}

=== FILE: pipeline.dfy ===
/**
 * The run pipeline around the fit: `prep_for_EAZY` (spare/funcs.py) cuts a
 * selection, optionally replaces unused pixels, saves it under a new run
 * and writes the pixel catalog; `Extract.extract_galaxies`
 * (spare/photometry/extract.py) later reads the run back and wraps each
 * galaxy's share of the fit. The disk is a value: the run registry, the
 * saved galaxy folders and the written catalogs.
 */
module Pipeline {
  import opened Wrappers
  import opened Decimal
  import opened Grids
  import opened Galaxies
  import opened Cutout
  import opened PixelCatalog
  import opened Slicer
  import opened Photometry
  import opened Confidences
  import opened Registry

  /** Everything the pipeline reads and writes between its two halves. */
  datatype Disk = Disk(store: Store, galaxies: map<string, SavedGalaxy>, catalogs: map<string, seq<Row>>)

  /** A step's effect on disk, kept whether or not the step raised. */
  datatype DiskOutcome<T> = DiskOutcome(disk: Disk, result: Result<T>)

  function GalaxiesFolder(runFolder: string): string {
    runFolder + "/galaxies"
  }

  /** `{run_folder}/galaxies/{i}`: where galaxy `i` of a selection is saved. */
  function GalaxyFolder(runFolder: string, i: int): string {
    GalaxiesFolder(runFolder) + "/" + IntToString(i)
  }

  function CatalogFile(runFolder: string): string {
    runFolder + "/EAZY_input.csv"
  }

  /** Distinct selection positions are saved to distinct folders. */
  lemma GalaxyFoldersDistinct(runFolder: string, i: nat, j: nat)
    ensures GalaxyFolder(runFolder, i) == GalaxyFolder(runFolder, j) ==> i == j
  {
    if GalaxyFolder(runFolder, i) == GalaxyFolder(runFolder, j) {
      var pre := GalaxiesFolder(runFolder) + "/";
      assert GalaxyFolder(runFolder, i)[|pre|..] == NatToString(i);
      assert GalaxyFolder(runFolder, j)[|pre|..] == NatToString(j);
      NatToStringInjective(i, j);
    }
  }

  // ---------------------------------------------------------------------------
  // Saving a selection

  /** The loop `for i, galaxy in enumerate(galaxies): galaxy.save_data(f'{galaxies_folder}/{i}')`. */
  function SaveAll(saved: map<string, SavedGalaxy>, runFolder: string, gs: seq<Galaxy>): map<string, SavedGalaxy>
    decreases |gs|
  {
    if |gs| == 0 then saved
    else SaveAll(saved, runFolder, gs[..|gs| - 1])[GalaxyFolder(runFolder, |gs| - 1) := Save(gs[|gs| - 1])]
  }

  /** Galaxy `i` can be found in folder `galaxies/{i}`, and no other folder is touched. */
  lemma {:induction false} SaveAllLookup(saved: map<string, SavedGalaxy>, runFolder: string, gs: seq<Galaxy>)
    ensures forall i :: 0 <= i < |gs| ==>
              GalaxyFolder(runFolder, i) in SaveAll(saved, runFolder, gs) &&
              SaveAll(saved, runFolder, gs)[GalaxyFolder(runFolder, i)] == Save(gs[i])
    ensures forall p :: p in saved && p !in GalaxyFolders(runFolder, |gs|) ==>
              p in SaveAll(saved, runFolder, gs) && SaveAll(saved, runFolder, gs)[p] == saved[p]
    decreases |gs|
  {
    if |gs| > 0 {
      var n := |gs| - 1;
      SaveAllLookup(saved, runFolder, gs[..n]);
      forall i | 0 <= i < n
        ensures GalaxyFolder(runFolder, i) != GalaxyFolder(runFolder, n)
      {
        GalaxyFoldersDistinct(runFolder, i, n);
      }
      assert forall p :: p !in GalaxyFolders(runFolder, |gs|) ==>
               p !in GalaxyFolders(runFolder, n) && p != GalaxyFolder(runFolder, n);
    }
  }

  /** The folders of the first `n` galaxies. */
  function GalaxyFolders(runFolder: string, n: nat): set<string> {
    set i | 0 <= i < n :: GalaxyFolder(runFolder, i)
  }

  /**
   * `SelectionGalaxies.save_selection`: register the run, make the
   * `galaxies` folder inside it (which must not exist yet) and save every
   * galaxy under its selection position. The registry row is written first
   * and stays even when a later step raises.
   */
  function SaveSelection(d: Disk, gs: seq<Galaxy>, name: string): (o: DiskOutcome<nat>)
    ensures o.disk.catalogs == d.catalogs
    ensures o.disk.store.runs == d.store.runs + [Entry(NextId(d.store.runs), name, |gs|)]
    ensures o.result.Err? ==> o.disk.galaxies == d.galaxies
    ensures o.result.Ok? ==> o.result.value == NextId(d.store.runs)
  {
    var a := AddRun(d.store, name, |gs|);
    if a.result.Err? then DiskOutcome(d.(store := a.store), Err(a.result.error))
    else
      match RunFolder(a.store, a.result.value)
      case Err(e) => DiskOutcome(d.(store := a.store), Err(e))
      case Ok(rf) =>
        if GalaxiesFolder(rf) in a.store.dirs then DiskOutcome(d.(store := a.store), Err(DirectoryExists))
        else
          var dirs := a.store.dirs + {GalaxiesFolder(rf)} + GalaxyFolders(rf, |gs|);
          DiskOutcome(Disk(a.store.(dirs := dirs), SaveAll(d.galaxies, rf, gs), d.catalogs), Ok(a.result.value))
  }

  /**
   * On a valid registry, saving succeeds exactly when neither the run
   * directory nor its `galaxies` folder exists; the run folder the registry
   * then answers holds every galaxy at its selection position, and each
   * reloads as the galaxy that was saved.
   */
  lemma SaveSelectionSaves(d: Disk, gs: seq<Galaxy>, name: string)
    requires Valid(d.store.runs)
    ensures var o := SaveSelection(d, gs, name);
            var rf := RunPath(d.store.folder, NextId(d.store.runs), name);
            && (o.result.Ok? <==> rf !in d.store.dirs && GalaxiesFolder(rf) !in d.store.dirs)
            && (o.result.Ok? ==>
                  && RunFolder(o.disk.store, o.result.value) == Ok(rf)
                  && Valid(o.disk.store.runs)
                  && forall i :: 0 <= i < |gs| ==>
                       GalaxyFolder(rf, i) in o.disk.galaxies && Load(o.disk.galaxies[GalaxyFolder(rf, i)]) == gs[i])
  {
    var o := SaveSelection(d, gs, name);
    var a := AddRun(d.store, name, |gs|);
    var rf := RunPath(d.store.folder, NextId(d.store.runs), name);
    AddRunCreatesRunFolder(d.store, name, |gs|);
    AddRunKeepsValid(d.store, name, |gs|);
    assert GalaxiesFolder(rf) != rf by {
      assert |GalaxiesFolder(rf)| > |rf|;
    }
    if o.result.Ok? {
      SaveAllLookup(d.galaxies, rf, gs);
      forall i | 0 <= i < |gs|
        ensures Load(o.disk.galaxies[GalaxyFolder(rf, i)]) == gs[i]
      {
        SaveLoad(gs[i]);
      }
    }
  }

  // ---------------------------------------------------------------------------
  // prep_for_EAZY

  /** Column names depend only on the filter names. */
  lemma UnambiguousByNames(a: seq<Band>, b: seq<Band>)
    requires FilterNames(a) == FilterNames(b) && ColumnsUnambiguous(a)
    ensures ColumnsUnambiguous(b)
  {
    assert |a| == |b|;
    assert forall i :: 0 <= i < |a| ==> a[i].filter == FilterNames(a)[i] == FilterNames(b)[i] == b[i].filter;
  }

  function ReplaceEach(gs: seq<Galaxy>, unused: real, replace: real, using: Using): (gs': seq<Galaxy>)
    requires forall k :: 0 <= k < |gs| ==> gs[k].WellFormed()
    ensures |gs'| == |gs|
    ensures forall k :: 0 <= k < |gs| ==> gs'[k] == ReplaceUnused(gs[k], unused, replace, using)
  {
    seq(|gs|, k requires 0 <= k < |gs| => ReplaceUnused(gs[k], unused, replace, using))
  }

  /**
   * The selection `prep_for_EAZY` saves: every id is cut first (a missing id
   * raises before anything else); with `replace_unused`, both `unused` and
   * `replace` must be given, and then every galaxy is replaced. The galaxies
   * keep their identity and can all be written to the catalog.
   */
  function Selection(s: Survey, ids: seq<int>, border: int,
                     replaceUnused: bool, unused: Option<real>, replace: Option<real>, using: Using): (r: Result<seq<Galaxy>>)
    requires FramesOk(s) && ColumnsUnambiguous(s.frames)
    requires forall id :: id in ids && id in s.sizeCat ==> InFrame(BorderedWindow(s.sizeCat[id], border), s)
    ensures (exists id :: id in ids && id !in s.sizeCat) ==> r == Err(NotFound)
    ensures (forall id :: id in ids ==> id in s.sizeCat) ==>
              (r.Err? <==> replaceUnused && (unused.None? || replace.None?))
    ensures r.Err? ==> r.error == NotFound || r.error == AssertionFailed
    ensures r.Ok? ==> |r.value| == |ids| && AllBuildable(r.value)
    ensures r.Ok? ==> forall k :: 0 <= k < |ids| ==>
              var cut := ExtractAll(ids, s, border).value[k];
              && IsCutout(cut, s, ids[k], border)
              && r.value[k] == (if replaceUnused then ReplaceUnused(cut, unused.value, replace.value, using) else cut)
  {
    match ExtractAll(ids, s, border)
    case Err(e) => Err(e)
    case Ok(gs) =>
      if replaceUnused && (unused.None? || replace.None?) then Err(AssertionFailed)
      else
        var gs' := if replaceUnused then ReplaceEach(gs, unused.value, replace.value, using) else gs;
        assert AllBuildable(gs') by {
          forall k | 0 <= k < |gs'|
            ensures Buildable(gs'[k])
          {
            UnambiguousByNames(s.frames, gs'[k].bands);
          }
        }
        Ok(gs')
  }

  /**
   * `prep_for_EAZY`: build the selection, save it under a new run, then
   * write its pixel catalog to `{run_folder}/EAZY_input.csv`; the result is
   * the new run's id. A selection that cannot be built leaves the disk as it
   * was. An empty selection is saved as a run, but `pd.concat` of no frames
   * raises before the catalog is written.
   */
  function PrepForEazy(d: Disk, s: Survey, ids: seq<int>, border: int, name: string,
                       replaceUnused: bool, unused: Option<real>, replace: Option<real>, using: Using): (o: DiskOutcome<nat>)
    requires FramesOk(s) && ColumnsUnambiguous(s.frames)
    requires forall id :: id in ids && id in s.sizeCat ==> InFrame(BorderedWindow(s.sizeCat[id], border), s)
    ensures Selection(s, ids, border, replaceUnused, unused, replace, using).Err? ==>
              o == DiskOutcome(d, Err(Selection(s, ids, border, replaceUnused, unused, replace, using).error))
    ensures o.result.Ok? ==>
              var gs := Selection(s, ids, border, replaceUnused, unused, replace, using).value;
              && o.result.value == NextId(d.store.runs)
              && SaveSelection(d, gs, name).result == o.result
              && o.disk.store == SaveSelection(d, gs, name).disk.store
              && o.disk.galaxies == SaveSelection(d, gs, name).disk.galaxies
              && RunFolder(o.disk.store, o.result.value).Ok?
              && o.disk.catalogs == d.catalogs[CatalogFile(RunFolder(o.disk.store, o.result.value).value) := CatalogRows(gs)]
    ensures |ids| == 0 ==> o.result.Err? && o.disk.catalogs == d.catalogs
    ensures |ids| == 0 && Selection(s, ids, border, replaceUnused, unused, replace, using).Ok? ==>
              o.disk.store == SaveSelection(d, [], name).disk.store
  {
    match Selection(s, ids, border, replaceUnused, unused, replace, using)
    case Err(e) => DiskOutcome(d, Err(e))
    case Ok(gs) =>
      var o := SaveSelection(d, gs, name);
      if o.result.Err? then o
      else
        match RunFolder(o.disk.store, o.result.value)
        case Err(e) => DiskOutcome(o.disk, Err(e))
        case Ok(rf) =>
          match CreateDataFrame(gs)
          case Err(e) => DiskOutcome(o.disk, Err(e))
          case Ok(rows) => DiskOutcome(o.disk.(catalogs := o.disk.catalogs[CatalogFile(rf) := rows]), o.result)
  }

  // ---------------------------------------------------------------------------
  // Extract.extract_galaxies

  /** The fit outputs read from `fit_data.npz`: one `zbest` and one `chi2` curve per catalog row. */
  datatype Fit = Fit(zgrid: seq<real>, zbest: seq<real>, chi2: seq<seq<real>>)

  /**
   * For `use_conf_galaxies`: the percentile matrix, the percentiles and the
   * interval. The matrix has one column per percentile; `bounds` holds its
   * first two columns, row by row, and means nothing when there are fewer
   * than two percentiles (then indexing column 1 raises).
   */
  datatype Limits = Limits(bounds: seq<(real, real)>, percentiles: seq<real>, interval: real)

  /** The percentile matrix has the columns 0 and 1 the extraction reads. */
  predicate HasBounds(limits: Option<Limits>) {
    limits.Some? ==> |limits.value.percentiles| >= 2
  }

  /** One extracted galaxy: a `PhotGalaxy`, or a `ConfGalaxy` when confidence limits are used. */
  datatype Fitted = Phot(phot: PhotGalaxy) | Conf(conf: ConfGalaxy)

  /** Python slicing `s[lo:hi]`: bounds past the end are cut back to it. */
  function TakeSlice<T>(s: seq<T>, sl: Slice): (w: seq<T>)
    ensures sl.lo <= sl.hi <= |s| ==> w == s[sl.lo..sl.hi]
    ensures |w| <= |s|
  {
    var hi := if sl.hi <= |s| then sl.hi else |s|;
    var lo := if sl.lo <= hi then sl.lo else hi;
    s[lo..hi]
  }

  lemma TakeRows<T>(g: Grid<T>, cols: nat, sl: Slice)
    requires IsRect(g, |g|, cols)
    ensures IsRect(TakeSlice(g, sl), |TakeSlice(g, sl)|, cols)
  {
  }

  /**
   * One pass of the loop body: load `galaxies/{idx}` (a missing folder
   * raises), find the galaxy's slice of the catalog, take the same slice of
   * `id`, `zbest`, the `chi2` rows and (with limits) the lower and upper
   * percentile columns, and build the galaxy.
   */
  function ExtractOne(d: Disk, runFolder: string, rows: seq<Row>, fit: Fit, noFit: real,
                      limits: Option<Limits>, idx: int): (r: Result<Fitted>)
    requires IsRect(fit.chi2, |fit.chi2|, |fit.zgrid|)
    ensures GalaxyFolder(runFolder, idx) !in d.galaxies ==> r == Err(FileMissing)
    ensures GalaxyFolder(runFolder, idx) in d.galaxies && idx !in GalaxyIdxColumn(rows) ==> r == Err(EmptyIndex)
    ensures GalaxyFolder(runFolder, idx) in d.galaxies && idx in GalaxyIdxColumn(rows) && !HasBounds(limits) ==>
              r == Err(IndexOutOfRange)
  {
    var folder := GalaxyFolder(runFolder, idx);
    if folder !in d.galaxies then Err(FileMissing)
    else
      var base := Load(d.galaxies[folder]);
      match GetGalaxySlice(GalaxyIdxColumn(rows), idx)
      case Err(e) => Err(e)
      case Ok(sl) =>
        Build(base, TakeSlice(IdColumn(rows), sl), fit, noFit, limits, sl)
  }

  /**
   * A missing galaxy folder raises before the catalog is consulted, an index
   * with no catalog rows raises next, and a built galaxy is the saved one,
   * wrapped as a `ConfGalaxy` exactly when limits are given.
   */
  lemma ExtractOneSpec(d: Disk, runFolder: string, rows: seq<Row>, fit: Fit, noFit: real,
                       limits: Option<Limits>, idx: int)
    requires IsRect(fit.chi2, |fit.chi2|, |fit.zgrid|)
    ensures var r := ExtractOne(d, runFolder, rows, fit, noFit, limits, idx);
            && (GalaxyFolder(runFolder, idx) !in d.galaxies ==> r == Err(FileMissing))
            && (GalaxyFolder(runFolder, idx) in d.galaxies && idx !in GalaxyIdxColumn(rows) ==> r == Err(EmptyIndex))
            && (GalaxyFolder(runFolder, idx) in d.galaxies && idx in GalaxyIdxColumn(rows) && !HasBounds(limits) ==>
                  r == Err(IndexOutOfRange))
            && (r.Ok? ==> (r.value.Phot? <==> limits.None?))
            && (r.Ok? ==> var base := Load(d.galaxies[GalaxyFolder(runFolder, idx)]);
                          if r.value.Phot? then r.value.phot.base == base else r.value.conf.phot.base == base)
  {
  }

  /**
   * The galaxy built from one slice of the fit: the slice of `zbest` and of
   * the `chi2` rows, and with limits columns 0 and 1 of the percentile
   * matrix under the same slice as the lower and upper bounds. A matrix
   * with fewer than two columns raises when column 0 or 1 is read.
   */
  function Build(base: Galaxy, eazyIds: seq<int>, fit: Fit, noFit: real, limits: Option<Limits>, sl: Slice): (r: Result<Fitted>)
    requires IsRect(fit.chi2, |fit.chi2|, |fit.zgrid|)
    ensures r.Ok? ==> (r.value.Phot? <==> limits.None?)
    ensures r.Ok? ==> if r.value.Phot? then r.value.phot.base == base else r.value.conf.phot.base == base
    ensures !HasBounds(limits) ==> r == Err(IndexOutOfRange)
  {
    var zbest := TakeSlice(fit.zbest, sl);
    var chi2 := TakeSlice(fit.chi2, sl);
    TakeRows(fit.chi2, |fit.zgrid|, sl);
    match limits
    case None =>
      (match MakePhot(base, eazyIds, fit.zgrid, zbest, chi2, noFit)
       case Err(e) => Err(e)
       case Ok(p) => Ok(Phot(p)))
    case Some(l) =>
      if |l.percentiles| < 2 then Err(IndexOutOfRange)
      else
      var bounds := TakeSlice(l.bounds, sl);
      var lower := seq(|bounds|, i requires 0 <= i < |bounds| => bounds[i].0);
      var upper := seq(|bounds|, i requires 0 <= i < |bounds| => bounds[i].1);
      match MakeConfGalaxy(base, eazyIds, fit.zgrid, zbest, chi2, lower, upper, l.percentiles, l.interval, noFit)
      case Err(e) => Err(e)
      case Ok(g) => Ok(Conf(g))
  }

  /** The loop over the galaxy indexes, in order; the first failure raises. */
  function ExtractEach(d: Disk, runFolder: string, rows: seq<Row>, fit: Fit, noFit: real,
                       limits: Option<Limits>, idxs: seq<int>): (r: Result<seq<Fitted>>)
    requires IsRect(fit.chi2, |fit.chi2|, |fit.zgrid|)
    ensures r.Ok? <==> forall k :: 0 <= k < |idxs| ==> ExtractOne(d, runFolder, rows, fit, noFit, limits, idxs[k]).Ok?
    ensures r.Ok? ==> |r.value| == |idxs|
    ensures r.Ok? ==> forall k :: 0 <= k < |idxs| ==> ExtractOne(d, runFolder, rows, fit, noFit, limits, idxs[k]) == Ok(r.value[k])
  {
    var rs := MapSeq(idx => ExtractOne(d, runFolder, rows, fit, noFit, limits, idx), idxs);
    assert forall k :: 0 <= k < |idxs| ==> rs[k] == ExtractOne(d, runFolder, rows, fit, noFit, limits, idxs[k]);
    AllOk(rs)
  }

  /**
   * `Extract(run_id)` followed by `extract_galaxies`: the run must be
   * registered and its catalog written; then one galaxy is built for each
   * distinct `galaxy_idx` of the catalog, ascending.
   */
  function ExtractGalaxies(d: Disk, runId: nat, fit: Fit, noFit: real, limits: Option<Limits>): (r: Result<seq<Fitted>>)
    requires IsRect(fit.chi2, |fit.chi2|, |fit.zgrid|)
    ensures !HasRun(d.store.runs, runId) ==> r == Err(NotFound)
    ensures HasRun(d.store.runs, runId) && CatalogFile(RunFolder(d.store, runId).value) !in d.catalogs ==>
              r == Err(FileMissing)
    ensures HasRun(d.store.runs, runId) && CatalogFile(RunFolder(d.store, runId).value) in d.catalogs ==>
              var rows := d.catalogs[CatalogFile(RunFolder(d.store, runId).value)];
              r == ExtractEach(d, RunFolder(d.store, runId).value, rows, fit, noFit, limits, Unique(GalaxyIdxColumn(rows)))
  {
    match RunFolder(d.store, runId)
    case Err(e) => Err(e)
    case Ok(rf) =>
      if CatalogFile(rf) !in d.catalogs then Err(FileMissing)
      else
        var rows := d.catalogs[CatalogFile(rf)];
        ExtractEach(d, rf, rows, fit, noFit, limits, Unique(GalaxyIdxColumn(rows)))
  }

  // ---------------------------------------------------------------------------
  // From a selection to its fitted galaxies

  /** The rows of galaxy `k` in a catalog built from `gs`. */
  function BlockSlice(gs: seq<Galaxy>, k: nat): Slice
    requires k < |gs|
  {
    Slice(Offset(gs, k), Offset(gs, k + 1))
  }

  /** The `id`s of those rows: consecutive, from the block's first row. */
  function BlockIds(gs: seq<Galaxy>, k: nat): (ids: seq<int>)
    requires k < |gs|
    ensures |ids| == gs[k].Size()
  {
    seq(gs[k].Size(), p => Offset(gs, k) + p)
  }

  /** The `id` column of a built catalog is its row number. */
  lemma IdColumnIsRowNumber(gs: seq<Galaxy>)
    requires AllBuildable(gs)
    ensures |IdColumn(CatalogRows(gs))| == SizeSum(gs)
    ensures forall i :: 0 <= i < SizeSum(gs) ==> IdColumn(CatalogRows(gs))[i] == i
  {
    BlocksLength(gs);
  }

  /** The blocks end at the catalog's last row. */
  lemma BlockWithinCatalog(gs: seq<Galaxy>, k: nat)
    requires k < |gs|
    ensures Offset(gs, k) <= Offset(gs, k + 1) <= SizeSum(gs)
  {
    OffsetMonotone(gs, k, k + 1);
    OffsetMonotone(gs, k + 1, |gs|);
    assert gs[..|gs|] == gs;
  }

  /**
   * Reading galaxy `k` back from a run holding the catalog of `gs` and the
   * saved galaxy `k` gives the galaxy built directly from its block: the
   * saved galaxy, the ids `Offset(k)..Offset(k+1)-1`, and the same rows of
   * the fit.
   */
  lemma ExtractOneIsBlock(d: Disk, runFolder: string, gs: seq<Galaxy>, fit: Fit, noFit: real,
                          limits: Option<Limits>, k: nat)
    requires AllBuildable(gs) && k < |gs| && gs[k].Size() > 0
    requires GalaxyFolder(runFolder, k) in d.galaxies && Load(d.galaxies[GalaxyFolder(runFolder, k)]) == gs[k]
    requires IsRect(fit.chi2, |fit.chi2|, |fit.zgrid|)
    ensures ExtractOne(d, runFolder, CatalogRows(gs), fit, noFit, limits, k) ==
              Build(gs[k], BlockIds(gs, k), fit, noFit, limits, BlockSlice(gs, k))
  {
    SliceIsBlock(gs, k);
    BlockIdsOfCatalog(gs, k);
  }

  /** The `id`s of galaxy `k`'s rows in a built catalog are its block's row numbers. */
  lemma BlockIdsOfCatalog(gs: seq<Galaxy>, k: nat)
    requires AllBuildable(gs) && k < |gs|
    ensures TakeSlice(IdColumn(CatalogRows(gs)), BlockSlice(gs, k)) == BlockIds(gs, k)
  {
    SliceIsBlock(gs, k);
    IdColumnIsRowNumber(gs);
    BlockWithinCatalog(gs, k);
    RowNumbersSlice(IdColumn(CatalogRows(gs)), Offset(gs, k), Offset(gs, k + 1));
  }

  /** A slice of a column holding its own row numbers counts up from the slice's start. */
  lemma RowNumbersSlice(ids: seq<int>, lo: nat, hi: nat)
    requires forall i :: 0 <= i < |ids| ==> ids[i] == i
    requires lo <= hi <= |ids|
    ensures ids[lo..hi] == seq(hi - lo, p => lo + p)
  {
  }

  /** A slice inside the fit builds a well-formed galaxy from exactly those fit rows. */
  lemma BuildInside(base: Galaxy, eazyIds: seq<int>, fit: Fit, noFit: real, limits: Option<Limits>, sl: Slice)
    requires IsRect(fit.chi2, |fit.chi2|, |fit.zgrid|)
    requires base.WellFormed() && sl.lo <= sl.hi <= |fit.zbest| == |fit.chi2|
    requires |eazyIds| == sl.hi - sl.lo == base.Size()
    requires limits.Some? ==> sl.hi <= |limits.value.bounds|
    requires HasBounds(limits)
    ensures var r := Build(base, eazyIds, fit, noFit, limits, sl);
            && r.Ok?
            && var p := if r.value.Phot? then r.value.phot else r.value.conf.phot;
               && p == MakePhot(base, eazyIds, fit.zgrid, fit.zbest[sl.lo..sl.hi], fit.chi2[sl.lo..sl.hi], noFit).value
               && p.WellFormed()
               && Filled(p.zbest, noFit) == fit.zbest[sl.lo..sl.hi]
  {
    var zbest := fit.zbest[sl.lo..sl.hi];
    var chi2 := fit.chi2[sl.lo..sl.hi];
    TakeRows(fit.chi2, |fit.zgrid|, sl);
    MakePhotWellFormed(base, eazyIds, fit.zgrid, zbest, chi2, noFit);
  }

  /**
   * With one fit row (and one percentile row) per catalog row, every block
   * builds: the fitted galaxy has one `zbest`, one `chi2` curve and one id
   * per pixel, taken from the block's rows of the fit.
   */
  lemma BuildBlock(gs: seq<Galaxy>, fit: Fit, noFit: real, limits: Option<Limits>, k: nat)
    requires AllBuildable(gs) && k < |gs|
    requires IsRect(fit.chi2, |fit.chi2|, |fit.zgrid|)
    requires |fit.zbest| == |fit.chi2| == SizeSum(gs)
    requires limits.Some? ==> |limits.value.bounds| == SizeSum(gs)
    requires HasBounds(limits)
    ensures var r := Build(gs[k], BlockIds(gs, k), fit, noFit, limits, BlockSlice(gs, k));
            var lo := Offset(gs, k);
            var hi := Offset(gs, k + 1);
            && r.Ok?
            && hi - lo == gs[k].Size()
            && hi <= SizeSum(gs)
            && var p := if r.value.Phot? then r.value.phot else r.value.conf.phot;
               && p == MakePhot(gs[k], BlockIds(gs, k), fit.zgrid, fit.zbest[lo..hi], fit.chi2[lo..hi], noFit).value
               && p.WellFormed()
               && Filled(p.zbest, noFit) == fit.zbest[lo..hi]
  {
    BlockWithinCatalog(gs, k);
    OffsetStep(gs, k);
    assert Buildable(gs[k]);
    BuildInside(gs[k], BlockIds(gs, k), fit, noFit, limits, BlockSlice(gs, k));
  }

  lemma BlockExtracts(d: Disk, runFolder: string, gs: seq<Galaxy>, fit: Fit, noFit: real, limits: Option<Limits>, k: nat)
    requires AllBuildable(gs) && k < |gs| && gs[k].Size() > 0
    requires GalaxyFolder(runFolder, k) in d.galaxies && Load(d.galaxies[GalaxyFolder(runFolder, k)]) == gs[k]
    requires IsRect(fit.chi2, |fit.chi2|, |fit.zgrid|)
    requires |fit.zbest| == |fit.chi2| == SizeSum(gs)
    requires limits.Some? ==> |limits.value.bounds| == SizeSum(gs)
    requires HasBounds(limits)
    ensures ExtractOne(d, runFolder, CatalogRows(gs), fit, noFit, limits, k) ==
              Build(gs[k], BlockIds(gs, k), fit, noFit, limits, BlockSlice(gs, k))
    ensures Build(gs[k], BlockIds(gs, k), fit, noFit, limits, BlockSlice(gs, k)).Ok?
  {
    ExtractOneIsBlock(d, runFolder, gs, fit, noFit, limits, k);
    BuildBlock(gs, fit, noFit, limits, k);
  }

  /**
   * A run whose catalog was built from `gs` and whose galaxy folders hold
   * `gs` extracts, given one fit row per catalog row, to one galaxy per
   * selected galaxy, each built from its own block.
   */
  lemma ExtractRun(d: Disk, runId: nat, runFolder: string, gs: seq<Galaxy>, fit: Fit, noFit: real, limits: Option<Limits>)
    requires RunFolder(d.store, runId) == Ok(runFolder)
    requires AllBuildable(gs)
    requires CatalogFile(runFolder) in d.catalogs && d.catalogs[CatalogFile(runFolder)] == CatalogRows(gs)
    requires forall k :: 0 <= k < |gs| ==>
               && gs[k].Size() > 0
               && GalaxyFolder(runFolder, k) in d.galaxies
               && Load(d.galaxies[GalaxyFolder(runFolder, k)]) == gs[k]
    requires IsRect(fit.chi2, |fit.chi2|, |fit.zgrid|)
    requires |fit.zbest| == |fit.chi2| == SizeSum(gs)
    requires limits.Some? ==> |limits.value.bounds| == SizeSum(gs)
    requires HasBounds(limits)
    ensures var r := ExtractGalaxies(d, runId, fit, noFit, limits);
            && r.Ok?
            && |r.value| == |gs|
            && forall k :: 0 <= k < |gs| ==> Ok(r.value[k]) == Builds(gs, fit, noFit, limits)[k]
  {
    GalaxyIdxsOfCatalog(gs);
    EachBlock(d, runFolder, gs, fit, noFit, limits);
  }

  /**
   * With fewer than two percentiles a run cannot be extracted with limits:
   * the first galaxy with pixels already reads a missing column of the
   * percentile matrix.
   */
  lemma ExtractRunWithoutBounds(d: Disk, runId: nat, runFolder: string, gs: seq<Galaxy>, fit: Fit, noFit: real,
                                limits: Option<Limits>)
    requires RunFolder(d.store, runId) == Ok(runFolder)
    requires AllBuildable(gs)
    requires CatalogFile(runFolder) in d.catalogs && d.catalogs[CatalogFile(runFolder)] == CatalogRows(gs)
    requires |gs| > 0 && gs[0].Size() > 0 && GalaxyFolder(runFolder, 0) in d.galaxies
    requires IsRect(fit.chi2, |fit.chi2|, |fit.zgrid|)
    requires !HasBounds(limits)
    ensures ExtractGalaxies(d, runId, fit, noFit, limits).Err?
  {
    var col := GalaxyIdxColumn(CatalogRows(gs));
    IdxColumnMember(gs, 0);
    UniqueSpec(col);
    var u := Unique(col);
    var k :| 0 <= k < |u| && u[k] == 0;
    assert ExtractOne(d, runFolder, CatalogRows(gs), fit, noFit, limits, u[k]) == Err(IndexOutOfRange);
  }

  /** Every selected galaxy built directly from its own block of the fit, in selection order. */
  function Builds(gs: seq<Galaxy>, fit: Fit, noFit: real, limits: Option<Limits>): (rs: seq<Result<Fitted>>)
    requires IsRect(fit.chi2, |fit.chi2|, |fit.zgrid|)
    ensures |rs| == |gs|
    ensures forall k :: 0 <= k < |gs| ==> rs[k] == Build(gs[k], BlockIds(gs, k), fit, noFit, limits, BlockSlice(gs, k))
  {
    seq(|gs|, k requires 0 <= k < |gs| => Build(gs[k], BlockIds(gs, k), fit, noFit, limits, BlockSlice(gs, k)))
  }

  lemma EachBlock(d: Disk, runFolder: string, gs: seq<Galaxy>, fit: Fit, noFit: real, limits: Option<Limits>)
    requires AllBuildable(gs)
    requires forall k :: 0 <= k < |gs| ==>
               && gs[k].Size() > 0
               && GalaxyFolder(runFolder, k) in d.galaxies
               && Load(d.galaxies[GalaxyFolder(runFolder, k)]) == gs[k]
    requires IsRect(fit.chi2, |fit.chi2|, |fit.zgrid|)
    requires |fit.zbest| == |fit.chi2| == SizeSum(gs)
    requires limits.Some? ==> |limits.value.bounds| == SizeSum(gs)
    requires HasBounds(limits)
    ensures var r := ExtractEach(d, runFolder, CatalogRows(gs), fit, noFit, limits, Range(|gs|));
            && r.Ok?
            && |r.value| == |gs|
            && forall k :: 0 <= k < |gs| ==> Ok(r.value[k]) == Builds(gs, fit, noFit, limits)[k]
  {
    var rows := CatalogRows(gs);
    var builds := Builds(gs, fit, noFit, limits);
    forall k | 0 <= k < |gs|
      ensures ExtractOne(d, runFolder, rows, fit, noFit, limits, k) == builds[k] && builds[k].Ok?
    {
      BlockExtracts(d, runFolder, gs, fit, noFit, limits, k);
    }
    EachMatches(d, runFolder, rows, fit, noFit, limits, Range(|gs|), builds);
  }

  lemma EachMatches(d: Disk, runFolder: string, rows: seq<Row>, fit: Fit, noFit: real, limits: Option<Limits>,
                    idxs: seq<int>, builds: seq<Result<Fitted>>)
    requires IsRect(fit.chi2, |fit.chi2|, |fit.zgrid|)
    requires |idxs| == |builds|
    requires forall k :: 0 <= k < |idxs| ==> idxs[k] == k
    requires forall k :: 0 <= k < |idxs| ==> ExtractOne(d, runFolder, rows, fit, noFit, limits, k) == builds[k] && builds[k].Ok?
    ensures var r := ExtractEach(d, runFolder, rows, fit, noFit, limits, idxs);
            && r.Ok?
            && |r.value| == |idxs|
            && forall k :: 0 <= k < |idxs| ==> Ok(r.value[k]) == builds[k]
  {
  }

  /**
   * The two halves fit together: after a successful `prep_for_EAZY` on a
   * valid registry, and given a fit with one row per catalog row, extracting
   * the new run yields one galaxy per selected id, in selection order, and
   * galaxy `k` is the selected galaxy `k` with its own block of the fit.
   */
  lemma PrepThenExtract(d: Disk, s: Survey, ids: seq<int>, border: int, name: string,
                        replaceUnused: bool, unused: Option<real>, replace: Option<real>, using: Using,
                        fit: Fit, noFit: real, limits: Option<Limits>)
    requires FramesOk(s) && ColumnsUnambiguous(s.frames)
    requires forall id :: id in ids && id in s.sizeCat ==> InFrame(BorderedWindow(s.sizeCat[id], border), s)
    requires Valid(d.store.runs)
    requires IsRect(fit.chi2, |fit.chi2|, |fit.zgrid|)
    ensures var o := PrepForEazy(d, s, ids, border, name, replaceUnused, unused, replace, using);
            var sel := Selection(s, ids, border, replaceUnused, unused, replace, using);
            o.result.Ok? && sel.Ok? &&
            (forall k :: 0 <= k < |sel.value| ==> sel.value[k].Size() > 0) &&
            |fit.zbest| == |fit.chi2| == SizeSum(sel.value) &&
            (limits.Some? ==> |limits.value.bounds| == SizeSum(sel.value)) &&
            HasBounds(limits)
            ==>
            var r := ExtractGalaxies(o.disk, o.result.value, fit, noFit, limits);
            && r.Ok?
            && |r.value| == |ids|
            && forall k :: 0 <= k < |ids| ==> Ok(r.value[k]) == Builds(sel.value, fit, noFit, limits)[k]
  {
    var o := PrepForEazy(d, s, ids, border, name, replaceUnused, unused, replace, using);
    var sel := Selection(s, ids, border, replaceUnused, unused, replace, using);
    if o.result.Ok? && sel.Ok? &&
       (forall k :: 0 <= k < |sel.value| ==> sel.value[k].Size() > 0) &&
       |fit.zbest| == |fit.chi2| == SizeSum(sel.value) &&
       (limits.Some? ==> |limits.value.bounds| == SizeSum(sel.value)) &&
       HasBounds(limits)
    {
      var gs := sel.value;
      var id := o.result.value;
      SaveSelectionSaves(d, gs, name);
      var rf := RunPath(d.store.folder, NextId(d.store.runs), name);
      assert RunFolder(o.disk.store, id) == Ok(rf);
      ExtractRun(o.disk, id, rf, gs, fit, noFit, limits);
    }
  }
}

=== FILE: registry.dfy ===
/**
 * The run registry of spare/filemanage/outfiles.py (`RunManager`): a table
 * `runs.csv` of `(id, name, num_obj)` rows under the output folder and one
 * directory `{folder}/runs/{id}_{name}` per run.
 *
 * The registry is a value: each operation takes the persisted state (the
 * source re-reads `runs.csv` at the start of every operation) and answers
 * the persisted state afterwards together with what the call returned or
 * raised. Directories are an abstract set of path strings.
 */
module Registry {
  import opened Wrappers
  import opened Decimal

  /** One row of `runs.csv`. */
  datatype Entry = Entry(id: nat, name: string, numObj: int)

  /** The persisted registry: output folder, rows of `runs.csv` in file order, directories on disk. */
  datatype Store = Store(folder: string, runs: seq<Entry>, dirs: set<string>)

  /** The state after a call and its return value or exception; the state is kept even when the call raises. */
  datatype Outcome<T> = Outcome(store: Store, result: Result<T>)

  /** `folder_runs`. */
  function RunsFolder(folder: string): string {
    folder + "/runs"
  }

  /** `{folder_runs}/{id}_{name}`. */
  function RunPath(folder: string, id: nat, name: string): string {
    RunsFolder(folder) + "/" + NatToString(id) + "_" + name
  }

  /** Ids strictly increase in file order. */
  predicate Valid(runs: seq<Entry>) {
    forall i, j :: 0 <= i < j < |runs| ==> runs[i].id < runs[j].id
  }

  predicate HasRun(runs: seq<Entry>, id: nat) {
    exists i :: 0 <= i < |runs| && runs[i].id == id
  }

  /** Position of the row `.loc[id]` reads. */
  function IndexOf(runs: seq<Entry>, id: nat): (i: nat)
    requires HasRun(runs, id)
    ensures i < |runs| && runs[i].id == id
    ensures forall j :: 0 <= j < i ==> runs[j].id != id
  {
    if runs[0].id == id then 0
    else
      assert HasRun(runs[1..], id) by {
        var k :| 0 <= k < |runs| && runs[k].id == id;
        assert runs[1..][k - 1].id == id;
      }
      1 + IndexOf(runs[1..], id)
  }

  /** The id `add_run` allocates: `0` for an empty registry, else the last row's id plus one. */
  function NextId(runs: seq<Entry>): nat {
    if |runs| == 0 then 0 else runs[|runs| - 1].id + 1
  }

  /** In a valid registry the next id exceeds every id present, so it is fresh. */
  lemma NextIdFresh(runs: seq<Entry>)
    requires Valid(runs)
    ensures forall i :: 0 <= i < |runs| ==> runs[i].id < NextId(runs)
    ensures !HasRun(runs, NextId(runs))
  {
    if |runs| > 0 {
      assert forall i :: 0 <= i < |runs| - 1 ==> runs[i].id < runs[|runs| - 1].id;
    }
  }

  /**
   * `add_run`: append one row with the next id, write `runs.csv`, then create
   * the run directory. `makedirs` raises when the directory exists, after
   * the row has been written.
   */
  function AddRun(s: Store, name: string, numObj: int): (o: Outcome<nat>)
    ensures o.store.folder == s.folder
    ensures o.store.runs == s.runs + [Entry(NextId(s.runs), name, numObj)]
    ensures o.result.Ok? <==> RunPath(s.folder, NextId(s.runs), name) !in s.dirs
    ensures o.result.Ok? ==> o.result.value == NextId(s.runs)
    ensures o.result.Ok? ==> o.store.dirs == s.dirs + {RunPath(s.folder, NextId(s.runs), name)}
    ensures o.result.Err? ==> o.result.error == DirectoryExists && o.store.dirs == s.dirs
  {
    var id := NextId(s.runs);
    var runs := s.runs + [Entry(id, name, numObj)];
    var path := RunPath(s.folder, id, name);
    if path in s.dirs then Outcome(Store(s.folder, runs, s.dirs), Err(DirectoryExists))
    else Outcome(Store(s.folder, runs, s.dirs + {path}), Ok(id))
  }

  /**
   * `run_folder`: the directory `{runs folder}/{id}_{name}` of a registered
   * run, named by the first table row with that id; an id not in the table
   * raises.
   */
  function RunFolder(s: Store, id: nat): (r: Result<string>)
    ensures r.Err? <==> !HasRun(s.runs, id)
    ensures r.Err? ==> r.error == NotFound
    ensures r.Ok? ==>
              exists i :: 0 <= i < |s.runs| && s.runs[i].id == id &&
                (forall j :: 0 <= j < i ==> s.runs[j].id != id) &&
                r.value == RunsFolder(s.folder) + "/" + NatToString(id) + "_" + s.runs[i].name
  {
    if HasRun(s.runs, id) then Ok(RunPath(s.folder, id, s.runs[IndexOf(s.runs, id)].name))
    else Err(NotFound)
  }

  /** `d` is `path` or lies beneath it. */
  predicate Within(d: string, path: string) {
    d == path || (|path| + 1 <= |d| && d[..|path| + 1] == path + "/")
  }

  /** `shutil.rmtree(path)`: the directory and everything under it go. */
  function RemoveTree(dirs: set<string>, path: string): (left: set<string>)
    ensures forall d :: d in left <==> d in dirs && !Within(d, path)
  {
    set d | d in dirs && !Within(d, path)
  }

  /**
   * `delete_run`: look up the run's directory (an absent id raises), drop the
   * row, remove the directory tree, then write `runs.csv`. When the directory
   * is missing `rmtree` raises before the table is written, so nothing
   * persisted changes.
   */
  function DeleteRun(s: Store, id: nat): (o: Outcome<()>)
    ensures o.result.Err? ==> o.store == s
    ensures !HasRun(s.runs, id) ==> o.result == Err(NotFound)
    ensures HasRun(s.runs, id) ==>
              (o.result.Ok? <==> RunPath(s.folder, id, s.runs[IndexOf(s.runs, id)].name) in s.dirs)
    ensures HasRun(s.runs, id) && o.result.Err? ==> o.result.error == FileMissing
    ensures o.result.Ok? ==>
              var i := IndexOf(s.runs, id);
              && o.store.folder == s.folder
              && o.store.runs == s.runs[..i] + s.runs[i + 1..]
              && o.store.dirs == RemoveTree(s.dirs, RunPath(s.folder, id, s.runs[i].name))
  {
    if !HasRun(s.runs, id) then Outcome(s, Err(NotFound))
    else
      var i := IndexOf(s.runs, id);
      var path := RunPath(s.folder, id, s.runs[i].name);
      if path !in s.dirs then Outcome(s, Err(FileMissing))
      else Outcome(Store(s.folder, s.runs[..i] + s.runs[i + 1..], RemoveTree(s.dirs, path)), Ok(()))
  }

  // ---------------------------------------------------------------------------
  // Properties

  /**
   * `add_run` keeps ids strictly increasing, hence unique, and the id it
   * returns was not in use; every earlier row is unchanged.
   */
  lemma AddRunKeepsValid(s: Store, name: string, numObj: int)
    requires Valid(s.runs)
    ensures var o := AddRun(s, name, numObj);
            && Valid(o.store.runs)
            && !HasRun(s.runs, NextId(s.runs))
            && o.store.runs[..|s.runs|] == s.runs
  {
    NextIdFresh(s.runs);
    var runs := AddRun(s, name, numObj).store.runs;
    assert runs[..|s.runs|] == s.runs;
  }

  /** The directory `add_run` creates is the one `run_folder` then answers for the new id. */
  lemma AddRunCreatesRunFolder(s: Store, name: string, numObj: int)
    requires Valid(s.runs)
    ensures var o := AddRun(s, name, numObj);
            o.result.Ok? ==>
              && RunFolder(o.store, o.result.value) == Ok(RunPath(s.folder, o.result.value, name))
              && RunPath(s.folder, o.result.value, name) in o.store.dirs
  {
    var o := AddRun(s, name, numObj);
    NextIdFresh(s.runs);
    var id := NextId(s.runs);
    assert o.store.runs[|s.runs|].id == id;
    assert HasRun(o.store.runs, id);
    assert forall k :: 0 <= k < |s.runs| ==> o.store.runs[k].id == s.runs[k].id < id;
  }

  /** Ids are unique in a valid registry. */
  lemma ValidIdsUnique(runs: seq<Entry>, i: nat, j: nat)
    requires Valid(runs) && i < |runs| && j < |runs| && runs[i].id == runs[j].id
    ensures i == j
  {
  }

  /**
   * The directories of two runs with different ids are never one inside the
   * other: the decimal id followed by `_` fixes the id.
   */
  lemma RunPathsSeparate(folder: string, a: nat, na: string, b: nat, nb: string)
    requires a != b
    ensures !Within(RunPath(folder, a, na), RunPath(folder, b, nb))
  {
    var pa, pb := RunPath(folder, a, na), RunPath(folder, b, nb);
    var pre := RunsFolder(folder) + "/";
    var x, y := NatToString(a) + "_" + na, NatToString(b) + "_" + nb;
    assert pa == pre + x && pa[|pre|..] == x;
    assert pb == pre + y && pb[|pre|..] == y;
    if pa == pb {
      SeparatedNumbers(a, na, b, nb);
    } else if |pb| + 1 <= |pa| && pa[..|pb| + 1] == pb + "/" {
      var rest := pa[|pb| + 1..];
      assert pa == pb + "/" + rest;
      assert x == pa[|pre|..] == y + "/" + rest;
      assert x == NatToString(b) + "_" + (nb + "/" + rest);
      SeparatedNumbers(a, na, b, nb + "/" + rest);
    }
  }

  /**
   * `delete_run` removes only that id's row: the other rows stay, in order,
   * and ids remain strictly increasing.
   */
  lemma DeleteRunRemovesOnly(s: Store, id: nat)
    requires Valid(s.runs)
    requires DeleteRun(s, id).result.Ok?
    ensures var t := DeleteRun(s, id).store;
            && Valid(t.runs)
            && !HasRun(t.runs, id)
            && (forall e :: e in s.runs && e.id != id ==> e in t.runs)
            && (forall e :: e in t.runs ==> e in s.runs && e.id != id)
  {
    RemoveAt(s.runs, IndexOf(s.runs, id));
  }

  /** Dropping row `i` of a valid table keeps it valid and removes exactly the rows with its id. */
  lemma RemoveAt(runs: seq<Entry>, i: nat)
    requires Valid(runs) && i < |runs|
    ensures var rest := runs[..i] + runs[i + 1..];
            && Valid(rest)
            && !HasRun(rest, runs[i].id)
            && (forall e :: e in runs && e.id != runs[i].id ==> e in rest)
            && (forall e :: e in rest ==> e in runs && e.id != runs[i].id)
  {
    var rest := runs[..i] + runs[i + 1..];
    assert forall k :: 0 <= k < |rest| ==> rest[k] == runs[if k < i then k else k + 1];
    DroppedValid(runs, i, rest);
    DroppedMembers(runs, i, rest);
  }

  /** The table `rest` is `runs` without row `i`, given position by position. */
  predicate Dropped(runs: seq<Entry>, i: nat, rest: seq<Entry>) {
    && i < |runs|
    && |rest| == |runs| - 1
    && forall k :: 0 <= k < |rest| ==> rest[k] == runs[if k < i then k else k + 1]
  }

  lemma DroppedValid(runs: seq<Entry>, i: nat, rest: seq<Entry>)
    requires Valid(runs) && Dropped(runs, i, rest)
    ensures Valid(rest) && !HasRun(rest, runs[i].id)
  {
    forall k | 0 <= k < |rest|
      ensures rest[k].id != runs[i].id
    {
      assert rest[k] == runs[if k < i then k else k + 1];
    }
  }

  lemma DroppedMembers(runs: seq<Entry>, i: nat, rest: seq<Entry>)
    requires Valid(runs) && Dropped(runs, i, rest)
    ensures forall e :: e in runs && e.id != runs[i].id ==> e in rest
    ensures forall e :: e in rest ==> e in runs && e.id != runs[i].id
  {
    forall e | e in rest
      ensures e in runs && e.id != runs[i].id
    {
      var k :| 0 <= k < |rest| && rest[k] == e;
      var k' := if k < i then k else k + 1;
      assert runs[k'] == e && k' != i;
    }
    forall e | e in runs && e.id != runs[i].id
      ensures e in rest
    {
      var k :| 0 <= k < |runs| && runs[k] == e;
      assert rest[if k < i then k else k - 1] == e;
    }
  }

  /** `delete_run` keeps every other run's directory that existed. */
  lemma DeleteRunKeepsOtherFolders(s: Store, id: nat)
    requires DeleteRun(s, id).result.Ok?
    ensures forall e :: e in s.runs && e.id != id && RunPath(s.folder, e.id, e.name) in s.dirs ==>
              RunPath(s.folder, e.id, e.name) in DeleteRun(s, id).store.dirs
  {
    var i := IndexOf(s.runs, id);
    forall e | e in s.runs && e.id != id && RunPath(s.folder, e.id, e.name) in s.dirs
      ensures RunPath(s.folder, e.id, e.name) in DeleteRun(s, id).store.dirs
    {
      RunPathsSeparate(s.folder, e.id, e.name, id, s.runs[i].name);
    }
  }

  /**
   * Deleting the newest run hands its successor id back: the next `add_run`
   * allocates from the run before it (or `0` once the registry is empty),
   * never more than the deleted id.
   */
  lemma DeleteNewestRewinds(s: Store)
    requires Valid(s.runs) && |s.runs| > 0
    requires DeleteRun(s, s.runs[|s.runs| - 1].id).result.Ok?
    ensures var t := DeleteRun(s, s.runs[|s.runs| - 1].id).store;
            && t.runs == s.runs[..|s.runs| - 1]
            && NextId(t.runs) == (if |s.runs| == 1 then 0 else s.runs[|s.runs| - 2].id + 1)
            && NextId(t.runs) <= s.runs[|s.runs| - 1].id
  {
    var n := |s.runs| - 1;
    var i := IndexOf(s.runs, s.runs[n].id);
    ValidIdsUnique(s.runs, i, n);
    assert s.runs[n + 1..] == [];
  }

  // ---------------------------------------------------------------------------
  // Concrete histories

  /**
   * From an empty registry: `a` gets 0 and `b` gets 1; deleting 0 leaves the
   * next id at 2; deleting 1 as well empties the table and the next id is 0
   * again.
   */
  lemma History(folder: string)
    ensures var s0 := Store(folder, [], {});
            var o1 := AddRun(s0, "a", 3);
            var o2 := AddRun(o1.store, "b", 4);
            var o3 := DeleteRun(o2.store, 0);
            var o4 := DeleteRun(o3.store, 1);
            && o1.result == Ok(0) && o2.result == Ok(1)
            && o3.result.Ok? && NextId(o3.store.runs) == 2
            && o4.result.Ok? && o4.store.runs == [] && NextId(o4.store.runs) == 0
  {
    var s0 := Store(folder, [], {});
    var o1 := AddRun(s0, "a", 3);
    var o2 := AddRun(o1.store, "b", 4);
    assert o2.store.runs == [Entry(0, "a", 3), Entry(1, "b", 4)];
    assert RunPath(folder, 1, "b") != RunPath(folder, 0, "a") by {
      RunPathsSeparate(folder, 1, "b", 0, "a");
    }
    assert o2.result == Ok(1);
    assert o2.store.runs[0].id == 0;
    assert HasRun(o2.store.runs, 0);
    assert IndexOf(o2.store.runs, 0) == 0;
    var o3 := DeleteRun(o2.store, 0);
    assert o3.store.runs == [Entry(1, "b", 4)];
    assert RunPath(folder, 1, "b") in o3.store.dirs by {
      RunPathsSeparate(folder, 1, "b", 0, "a");
    }
    assert o3.store.runs[0].id == 1;
    assert HasRun(o3.store.runs, 1);
    assert IndexOf(o3.store.runs, 1) == 0;
  }
}

=== FILE: slicer.dfy ===
/**
 * Slice recovery of spare/photometry/extract.py: `np.unique` over the
 * `galaxy_idx` column and `get_galaxy_slice`, which takes the rows from the
 * first to the last occurrence of an index as one slice.
 */
module Slicer {
  import opened Wrappers
  import opened Grids
  import opened Galaxies
  import opened PixelCatalog

  /** A half-open row range `[lo, hi)`. */
  datatype Slice = Slice(lo: nat, hi: nat)

  /** Position of the first occurrence of `x`. */
  function FirstIndex(col: seq<int>, x: int): (i: nat)
    requires x in col
    ensures i < |col| && col[i] == x
    ensures forall j :: 0 <= j < i ==> col[j] != x
  {
    if col[0] == x then 0 else 1 + FirstIndex(col[1..], x)
  }

  /** Position of the last occurrence of `x`. */
  function LastIndex(col: seq<int>, x: int): (i: nat)
    requires x in col
    ensures i < |col| && col[i] == x
    ensures forall j :: i < j < |col| ==> col[j] != x
  {
    if col[|col| - 1] == x then |col| - 1 else LastIndex(col[..|col| - 1], x)
  }

  /**
   * `get_galaxy_slice(idx)`: `[first row with galaxy_idx == idx, last such row + 1)`;
   * an index absent from the column fails, as indexing the empty `nonzero`
   * result raises.
   */
  function GetGalaxySlice(col: seq<int>, idx: int): (r: Result<Slice>)
    ensures r.Ok? <==> idx in col
    ensures r.Err? ==> r.error == EmptyIndex
    ensures r.Ok? ==> r.value.lo < r.value.hi <= |col| && col[r.value.lo] == idx && col[r.value.hi - 1] == idx
    ensures r.Ok? ==> forall i :: 0 <= i < |col| && (i < r.value.lo || r.value.hi <= i) ==> col[i] != idx
  {
    if idx !in col then Err(EmptyIndex) else Ok(Slice(FirstIndex(col, idx), LastIndex(col, idx) + 1))
  }

  /** The occurrences of `x` form one run. */
  predicate Contiguous(col: seq<int>, x: int) {
    forall i, j, m :: 0 <= i <= m <= j < |col| && col[i] == x && col[j] == x ==> col[m] == x
  }

  /** When the occurrences of `idx` are contiguous, the slice holds exactly those rows. */
  lemma SliceCoversRun(col: seq<int>, idx: int)
    requires Contiguous(col, idx) && idx in col
    ensures GetGalaxySlice(col, idx).Ok?
    ensures forall i :: 0 <= i < |col| ==>
              (GetGalaxySlice(col, idx).value.lo <= i < GetGalaxySlice(col, idx).value.hi <==> col[i] == idx)
  {
  }

  /**
   * The slice is not validated: for a column `[0, 1, 0]` the slice of index 0
   * is `[0, 3)`, which takes in the row of index 1.
   */
  lemma SliceTrustsContiguity()
    ensures GetGalaxySlice([0, 1, 0], 0) == Ok(Slice(0, 3))
    ensures [0, 1, 0][1] != 0
  {
    assert [0, 1, 0][1..] == [1, 0];
    assert [0, 1, 0][..2] == [0, 1];
  }

  /**
   * On a catalog built from a selection, the slice of galaxy `k` is exactly
   * its block `[Offset(k), Offset(k) + size_k)`, whose length is the galaxy's
   * size; a galaxy with no pixels has no rows and its slice fails.
   */
  lemma SliceIsBlock(gs: seq<Galaxy>, k: nat)
    requires AllBuildable(gs) && k < |gs|
    ensures var col := GalaxyIdxColumn(CatalogRows(gs));
            && (gs[k].Size() > 0 ==> GetGalaxySlice(col, k) == Ok(Slice(Offset(gs, k), Offset(gs, k + 1))))
            && (gs[k].Size() == 0 ==> GetGalaxySlice(col, k) == Err(EmptyIndex))
    ensures Offset(gs, k + 1) - Offset(gs, k) == gs[k].Size()
  {
    var col := GalaxyIdxColumn(CatalogRows(gs));
    Contiguity(gs, k);
    SliceOfBlock(col, k, Offset(gs, k), Offset(gs, k + 1));
  }

  /** A column where `x` occupies exactly the rows `[lo, hi)` slices to that range, or fails when it is empty. */
  lemma SliceOfBlock(col: seq<int>, x: int, lo: nat, hi: nat)
    requires lo <= hi <= |col|
    requires forall i :: 0 <= i < |col| ==> (col[i] == x <==> lo <= i < hi)
    ensures lo < hi ==> GetGalaxySlice(col, x) == Ok(Slice(lo, hi))
    ensures lo == hi ==> GetGalaxySlice(col, x) == Err(EmptyIndex)
  {
    if lo < hi {
      assert col[lo] == x && col[hi - 1] == x;
      assert col[FirstIndex(col, x)] == x;
      assert col[LastIndex(col, x)] == x;
    } else {
      assert forall i :: 0 <= i < |col| ==> col[i] != x;
    }
  }

  // ---------------------------------------------------------------------------
  // np.unique

  predicate StrictlyIncreasing(s: seq<int>) {
    forall i, j :: 0 <= i < j < |s| ==> s[i] < s[j]
  }

  function SeqMin(xs: seq<int>): (m: int)
    requires |xs| > 0
    ensures m in xs && forall x :: x in xs ==> m <= x
  {
    if |xs| == 1 then xs[0]
    else
      var t := SeqMin(xs[1..]);
      assert forall x :: x in xs ==> x == xs[0] || x in xs[1..];
      if xs[0] <= t then xs[0] else t
  }

  function RemoveAll(xs: seq<int>, v: int): (ys: seq<int>)
    ensures forall x :: x in ys <==> x in xs && x != v
    ensures |ys| <= |xs|
    ensures v in xs ==> |ys| < |xs|
  {
    if |xs| == 0 then []
    else if xs[0] == v then RemoveAll(xs[1..], v)
    else [xs[0]] + RemoveAll(xs[1..], v)
  }

  /** `np.unique`: the distinct values, ascending (see `UniqueSpec`). */
  function Unique(xs: seq<int>): (u: seq<int>)
    ensures forall x :: x in u <==> x in xs
    ensures |u| <= |xs|
    decreases |xs|
  {
    if |xs| == 0 then []
    else
      var m := SeqMin(xs);
      [m] + Unique(RemoveAll(xs, m))
  }

  /** `Unique` lists every value of its input once, ascending, and nothing else. */
  lemma {:induction false} UniqueSpec(xs: seq<int>)
    ensures StrictlyIncreasing(Unique(xs))
    ensures forall x :: x in Unique(xs) <==> x in xs
    decreases |xs|
  {
    if |xs| > 0 {
      var m := SeqMin(xs);
      var rest := Unique(RemoveAll(xs, m));
      UniqueSpec(RemoveAll(xs, m));
      assert forall j :: 0 <= j < |rest| ==> m < rest[j] by {
        assert forall j :: 0 <= j < |rest| ==> rest[j] in RemoveAll(xs, m);
      }
      assert Unique(xs) == [m] + rest;
    }
  }

  lemma HeadIsMember(s: seq<int>)
    ensures |s| > 0 ==> s[0] in s
  {
  }

  /** Two ascending sequences with the same elements are equal. */
  lemma {:induction false} SortedSetsEqual(a: seq<int>, b: seq<int>)
    requires StrictlyIncreasing(a) && StrictlyIncreasing(b)
    requires forall x :: x in a <==> x in b
    ensures a == b
    decreases |a|
  {
    if |a| > 0 {
      assert a[0] in a;
      assert a[0] in b;
      assert b[0] in b;
      assert b[0] in a;
      assert a[0] == b[0];
      assert forall x :: x in a[1..] <==> x in b[1..] by {
        assert forall x :: x in a[1..] ==> x in a && x != a[0];
        assert forall x :: x in b[1..] ==> x in b && x != b[0];
        assert forall x :: x in a && x != a[0] ==> x in a[1..];
        assert forall x :: x in b && x != b[0] ==> x in b[1..];
      }
      SortedSetsEqual(a[1..], b[1..]);
    } else {
      HeadIsMember(b);
    }
  }

  /** A value occurs in the `galaxy_idx` column exactly when it names a galaxy with pixels. */
  lemma IdxColumnMember(gs: seq<Galaxy>, x: int)
    requires AllBuildable(gs)
    ensures x in GalaxyIdxColumn(CatalogRows(gs)) <==> 0 <= x < |gs| && gs[x].Size() > 0
  {
    var col := GalaxyIdxColumn(CatalogRows(gs));
    BlocksLength(gs);
    if x in col {
      var i :| 0 <= i < |col| && col[i] == x;
      var k, p := LocateRow(gs, i);
      CatalogRow(gs, k, p);
    }
    if 0 <= x < |gs| && gs[x].Size() > 0 {
      CatalogRow(gs, x, 0);
      assert col[Offset(gs, x)] == x;
    }
  }

  /**
   * `np.unique(catalog['galaxy_idx'])` on a built catalog lists the
   * selection positions of the galaxies that have pixels, ascending; when
   * every galaxy has a pixel it is `0..n-1`.
   */
  lemma {:induction false} GalaxyIdxsOfCatalog(gs: seq<Galaxy>)
    requires AllBuildable(gs)
    ensures var u := Unique(GalaxyIdxColumn(CatalogRows(gs)));
            forall x :: x in u <==> 0 <= x < |gs| && gs[x].Size() > 0
    ensures (forall k :: 0 <= k < |gs| ==> gs[k].Size() > 0) ==>
              Unique(GalaxyIdxColumn(CatalogRows(gs))) == Range(|gs|)
  {
    var col := GalaxyIdxColumn(CatalogRows(gs));
    var u := Unique(col);
    UniqueSpec(col);
    forall x
      ensures x in u <==> 0 <= x < |gs| && gs[x].Size() > 0
    {
      IdxColumnMember(gs, x);
    }
    if forall k :: 0 <= k < |gs| ==> gs[k].Size() > 0 {
      var r := Range(|gs|);
      assert StrictlyIncreasing(r);
      forall x | 0 <= x < |gs|
        ensures x in r
      {
        assert r[x] == x;
      }
      SortedSetsEqual(u, r);
    }
  }
}

=== FILE: wrappers.dfy ===
/** Failure-carrying result types shared by every module of the model. */
module Wrappers {

  /** A value that may be absent; also used for a masked cell of a numpy masked array. */
  datatype Option<+T> = None | Some(value: T)

  /** The ways an operation of the pipeline can fail. */
  datatype Error =
    | NotFound          // an unknown catalog id, run id, folder or key
    | EmptyIndex        // indexing the empty result of `nonzero`
    | ShapeMismatch     // a reshape whose target size differs from the data size
    | AssertionFailed   // a failed `assert` in the Python code
    | DirectoryExists   // `os.makedirs` without `exist_ok` on an existing path
    | FileMissing       // reading or removing a file or folder that does not exist
    | IndexOutOfRange   // an index array pointing past the end of an array axis
    | EmptyConcat       // `pd.concat` of an empty list of frames

  datatype Result<+T> = Ok(value: T) | Err(error: Error) {
    predicate IsFailure() { Err? }

    function PropagateFailure<U>(): Result<U>
      requires Err?
    {
      Err(error)
    }

    function Extract(): T
      requires Ok?
    {
      value
    }
  }

  /** Steps taken in order, as a loop that raises: the first failure is the outcome. */
  function AllOk<T>(rs: seq<Result<T>>): (r: Result<seq<T>>)
    ensures r.Ok? <==> forall k :: 0 <= k < |rs| ==> rs[k].Ok?
    ensures r.Ok? ==> |r.value| == |rs| && forall k :: 0 <= k < |rs| ==> rs[k] == Ok(r.value[k])
    ensures r.Err? ==> exists k :: 0 <= k < |rs| && rs[k] == Err(r.error) && forall j :: 0 <= j < k ==> rs[j].Ok?
    decreases |rs|
  {
    if |rs| == 0 then Ok([])
    else
      match rs[0]
      case Err(e) => Err(e)
      case Ok(v) =>
        match AllOk(rs[1..])
        case Err(e) =>
          ghost var k :| 0 <= k < |rs[1..]| && rs[1..][k] == Err(e) && forall j :: 0 <= j < k ==> rs[1..][j].Ok?;
          assert rs[k + 1] == Err(e);
          Err(e)
        case Ok(vs) => Ok([v] + vs)
  }

  /** `[f(x) for x in xs]`. */
  function MapSeq<A, B>(f: A -> B, xs: seq<A>): (ys: seq<B>)
    ensures |ys| == |xs|
    ensures forall k :: 0 <= k < |xs| ==> ys[k] == f(xs[k])
  {
    seq(|xs|, k requires 0 <= k < |xs| => f(xs[k]))
  }
}
